=== FILE: README.md ===
# mybatis-sql-optimizer-spring-boot-starter, modelled in Dafny

This project models the decision logic of a MyBatis plug-in that watches
statements as they run. The plug-in decides which statements to analyse,
obtains an execution plan for them, runs a set of rule-based advice
generators over the plan and the statement text, and hands the advice to
reporters. The model covers:

- **the interceptor** (`Interceptor`): the enabled/sampling/threshold gate,
  the EXPLAIN gate, the analysis task with its optional cache keyed by
  statement text, the choice of plan acquirer by dialect, the composition of
  the advice, the reporters, and the synchronous or pooled dispatch;
- **the advice engine** (`Engine`, `Sequences`): every generator that
  supports the dialect contributes its advice, in registration order, with
  no deduplication; the first generator that throws ends the analysis;
- **the generators**: `MySqlRules`, `PostgresRules`, `IndexRules`,
  `JoinRules`, `SelectRules` (which also covers the duplicate
  `SelectRuleAnalyzer`), `CommonRules`, `LimitRules` and `WhereRules`, the
  last of these with the WHERE-clause function audit (`FunctionAudit`);
- **dialect resolution** from a JDBC URL (`Dialects`);
- **the PostgreSQL plan reader** (`PostgresAnalyzer`): flattening of the
  JSON plan tree into the node list the rules walk, and the fallback row
  for a result line that is not JSON;
- **parameter handling**: `ParameterWrapper.wrap` (`ParameterWrapper`), the
  PostgreSQL parameter binder (`PgBinder`), and the small `SqlHepler`
  helpers (`SqlHelper`).

Java objects are one closed datatype (`Values.Value`): null, strings,
boxed numbers, booleans, characters, lists, other collections (sets and
the like, in iteration order), arrays, insertion-ordered maps,
beans seen through their JavaBean properties, enums and UUIDs. A Java
exception that escapes a member is a `Failure` carrying an `Errors.Error`.
Each advisory is a constructor of `Advisories.Advice` that carries the
values its message interpolates, instead of the rendered text.

Everything outside the JVM is a parameter:

- the database: the connection's URL and what each plan acquirer returns;
- the clock: the measured execution time;
- the random draw of the sampler;
- whether the worker pool accepts a task;
- JSqlParser: a function from statement text to a parse tree;
- Jackson: a function from text to a decoded value;
- each reporter: whether its `report` call returns or throws.

The model follows the code as written, including these behaviours:

- `shouldExplain` skips a statement only when it contains both `EXPLAIN` and `explain`, although its Javadoc (`SqlHepler.java:120`) speaks of excluding any statement that already carries EXPLAIN.
- The reporters run in a plain `forEach`, so the first reporter that throws stops the others.
- In synchronous mode a failed analysis is rethrown to the caller of the statement.
- In pooled mode a rejected task is rethrown to the caller.
- `SqlOptimizerProperties` declares no `sampleRate` or `asyncAnalysis`, though the interceptor reads both. Both are taken as settings (`Interceptor.Settings`).

## Model

| member | source | states |
|---|---|---|
| Dialects.Name | src/main/java/com/wuya/mybatis/optimizer/analyzer/DatabaseType.java:9-22 | each dialect carries its display name |
| Dialects.ConstantName | src/main/java/com/wuya/mybatis/optimizer/analyzer/DatabaseType.java:9-12 | each dialect's enum constant name, which is what string concatenation prints because the enum has no `toString` |
| Dialects.ConstantNameNotDisplayName | src/main/java/com/wuya/mybatis/optimizer/analyzer/DatabaseType.java:9-22 | no constant name equals any display name |
| Dialects.FromUrl | src/main/java/com/wuya/mybatis/optimizer/analyzer/DatabaseType.java:24-36 | a null URL is Unknown; otherwise the first of ":mysql:", ":postgresql:", ":oracle:" found decides, each later marker counting only when the earlier ones are absent |
| Dialects.UnknownIffNoMarker | src/main/java/com/wuya/mybatis/optimizer/analyzer/DatabaseType.java:24-36 | Unknown exactly when the URL is null or holds none of the three markers |
| Dialects.MarkerAnywhere | src/main/java/com/wuya/mybatis/optimizer/analyzer/DatabaseType.java:28-29 | the MySQL marker is found wherever it sits in the URL |
| Dialects.MySqlBeatsPostgres | src/main/java/com/wuya/mybatis/optimizer/analyzer/DatabaseType.java:28-31 | a URL with both the PostgreSQL and the MySQL marker is MySQL, whichever comes first |
| CommonRules.Generate | src/main/java/com/wuya/mybatis/optimizer/advice/CommonAdviceGenerator.java:13-22 | one slow-execution advisory exactly when the execution time exceeds 5000 ms, none at 5000 |
| CommonRules.OnlyTimeMatters | src/main/java/com/wuya/mybatis/optimizer/advice/CommonAdviceGenerator.java:17 | two records with the same execution time get the same advice |
| IndexRules.RowAdvice | src/main/java/com/wuya/mybatis/optimizer/advice/IndexAdviceGenerator.java:18-26 | a row yields the full-index-scan advisory with its key exactly when its type is "index" ignoring case, and nothing otherwise, because the key after String.valueOf is never null |
| IndexRules.Generate | src/main/java/com/wuya/mybatis/optimizer/advice/IndexAdviceGenerator.java:15-30 | at most one advisory per plan row |
| IndexRules.NoFullTableScan | src/main/java/com/wuya/mybatis/optimizer/advice/IndexAdviceGenerator.java:20-23 | the full-table-scan branch is dead: its advisory never appears |
| IndexRules.FullIndexScanReported | src/main/java/com/wuya/mybatis/optimizer/advice/IndexAdviceGenerator.java:18-26 | an advisory for key k appears exactly when some row is typed "index" with key text k |
| IndexRules.GenerateAppend | src/main/java/com/wuya/mybatis/optimizer/advice/IndexAdviceGenerator.java:18-27 | advice follows row order: extra rows append their advice at the end |
| JoinRules.RowAdvice | src/main/java/com/wuya/mybatis/optimizer/advice/JoinAdviceGenerator.java:30-40 | a row throws exactly when it has an EXPLAIN key bound to null; otherwise the full-scan advisory appears iff the type is exactly "ALL" and comes first, and the sequential-scan advisory iff the EXPLAIN text contains "Seq Scan" |
| JoinRules.Generate | src/main/java/com/wuya/mybatis/optimizer/advice/JoinAdviceGenerator.java:26-43 | fails exactly when some row has a null EXPLAIN value; otherwise at most two advisories per row |
| JoinRules.LowerCaseAllIgnored | src/main/java/com/wuya/mybatis/optimizer/advice/JoinAdviceGenerator.java:32 | the type test is case-sensitive: "all" gives nothing |
| JoinRules.FullScanReported | src/main/java/com/wuya/mybatis/optimizer/advice/JoinAdviceGenerator.java:30-34 | the full-scan advisory appears exactly when some row's type is "ALL" |
| SelectRules.Generate | src/main/java/com/wuya/mybatis/optimizer/advice/SelectAdviceGenerator.java:27-47 | on the upper-cased text: SELECT * advised iff it contains "SELECT *" (and first), unconditional DISTINCT iff it contains "SELECT DISTINCT" and no "WHERE"; nothing else; each advisory at most once, so the length is the number of tests that hold |
| SelectRules.RuleAnalyzerGenerate | src/main/java/com/wuya/mybatis/optimizer/advice/SelectRuleAnalyzer.java:17-30 | the same two substring tests, written separately |
| SelectRules.RuleAnalyzerAgrees | src/main/java/com/wuya/mybatis/optimizer/advice/SelectRuleAnalyzer.java:17-30 | the duplicate generator gives exactly the same list as SelectAdviceGenerator on every record |
| SelectRules.CaseInsensitive | src/main/java/com/wuya/mybatis/optimizer/advice/SelectAdviceGenerator.java:31 | upper-casing the statement first changes nothing |
| SelectRules.OnlySqlMatters | src/main/java/com/wuya/mybatis/optimizer/advice/SelectAdviceGenerator.java:31-43 | only the statement text matters |
| WhereRules.Generate | src/main/java/com/wuya/mybatis/optimizer/advice/WhereClauseAdviceGenerator.java:43-66 | fails exactly when the audit fails, with the audit's error wrapped once in the rethrown runtime exception; otherwise the leading-wildcard advisory (first) iff the upper-cased text contains "LIKE '%", then the audit warnings exactly as the audit lists them, in order and multiplicity, and the OR advisory (last) iff the single-line WHERE ... OR word pattern matches; length is the sum |
| WhereRules.NullaryCallRethrown | src/main/java/com/wuya/mybatis/optimizer/advice/WhereClauseAdviceGenerator.java:53-58 | a call without arguments on the WHERE clause ends the generator with the audit's null-pointer failure inside the rethrown exception |
| WhereRules.SingleOrSuffices | src/main/java/com/wuya/mybatis/optimizer/advice/WhereClauseAdviceGenerator.java:61-63 | one OR after a WHERE already triggers the "multiple OR" advisory |
| WhereRules.LineBreakDefeatsOr | src/main/java/com/wuya/mybatis/optimizer/advice/WhereClauseAdviceGenerator.java:61 | a line break anywhere prevents the whole-text match |
| WhereRules.GluedOrIsNotAWord | src/main/java/com/wuya/mybatis/optimizer/advice/WhereClauseAdviceGenerator.java:61 | OR followed by a word character (ORDER, ORIGIN) is not at a word boundary |
| FunctionAudit.FirstColumn | src/main/java/com/wuya/mybatis/optimizer/helper/SqlFunctionHelper.java:68-74 | the first column among the direct parameters, or "unknown" when there is none |
| FunctionAudit.CheckFunction | src/main/java/com/wuya/mybatis/optimizer/helper/SqlFunctionHelper.java:42-59 | an allow-listed name yields nothing; otherwise a call without a parameter list throws, and a call with a column parameter yields one warning naming the first column, the function and the allow-list |
| FunctionAudit.Analyze | src/main/java/com/wuya/mybatis/optimizer/helper/SqlFunctionHelper.java:37-61 | every warning is a function-on-column warning carrying the allow-list |
| FunctionAudit.Audit | src/main/java/com/wuya/mybatis/optimizer/helper/SqlFunctionHelper.java:19-35 | a parse failure throws; a statement that is not a plain SELECT, or has no WHERE, yields nothing; otherwise the WHERE expression is analysed |
| FunctionAudit.Reached | src/main/java/com/wuya/mybatis/optimizer/helper/SqlFunctionHelper.java:40-60 | the visitor reaches only function calls |
| FunctionAudit.AnalyzeIsReachedChecks | src/main/java/com/wuya/mybatis/optimizer/helper/SqlFunctionHelper.java:37-61 | the walk equals the in-order concatenation of the checks of the reached calls, stopping at the first that throws |
| FunctionAudit.EmptyAllowList | src/main/java/com/wuya/mybatis/optimizer/helper/SqlFunctionHelper.java:44-58 | with no allow-list the audit fails iff a reached call has no parameter list, and warns about a reached call iff it has a column parameter |
| FunctionAudit.InfixExempts | src/main/java/com/wuya/mybatis/optimizer/helper/SqlFunctionHelper.java:44-47 | an entry exempts every name occurring inside it, ignoring case |
| FunctionAudit.LongNameNotExempt | src/main/java/com/wuya/mybatis/optimizer/helper/SqlFunctionHelper.java:44-47 | a name longer than every entry is never exempt |
| FunctionAudit.NoDescentIntoParameters | src/main/java/com/wuya/mybatis/optimizer/helper/SqlFunctionHelper.java:40-65 | a function's own arguments are not visited: UPPER(TRIM(col)) = 'x' gives no warning, nor does ABS('x') |
| MySqlRules.ScanAdvice | src/main/java/com/wuya/mybatis/optimizer/advice/MySqlAdviceGenerator.java:29-43 | the else-if chain: at most one advisory; full table scan iff type is ALL (any case) and the key prints as "null", full index scan iff type is index, no index used iff type is ref with a "null" key, nothing iff none of these |
| MySqlRules.AbsentKeyIsNull | src/main/java/com/wuya/mybatis/optimizer/advice/MySqlAdviceGenerator.java:30-33 | an absent key and a null key both print as "null" |
| MySqlRules.ExtraAdvice | src/main/java/com/wuya/mybatis/optimizer/advice/MySqlAdviceGenerator.java:45-55 | temporary-table advisory iff Extra is non-null and equals "Using temporary", filesort iff it equals "Using filesort"; at most one |
| MySqlRules.CombinedExtraIgnored | src/main/java/com/wuya/mybatis/optimizer/advice/MySqlAdviceGenerator.java:48-53 | equality, not containment: "Using temporary; Using filesort" triggers neither |
| MySqlRules.KindAdvice | src/main/java/com/wuya/mybatis/optimizer/advice/MySqlAdviceGenerator.java:57-75 | index merge, range scan, dependent/uncacheable subquery and derived table each iff the type matches ignoring case; at most one since the types differ |
| MySqlRules.SelectivityAdvice | src/main/java/com/wuya/mybatis/optimizer/advice/MySqlAdviceGenerator.java:77-84 | only rows with both keys are examined; an unparsable rows or filtered throws; the low-selectivity advisory with the key and filtered value iff filtered > 50 and rows > 1000 |
| MySqlRules.LargeJoinAdvice | src/main/java/com/wuya/mybatis/optimizer/advice/MySqlAdviceGenerator.java:86-92 | only rows with join_type and rows are examined; unparsable rows throws; the large-join advisory with the count iff rows > 100000 |
| MySqlRules.CoveringAdvice | src/main/java/com/wuya/mybatis/optimizer/advice/MySqlAdviceGenerator.java:94-97 | the no-covering-index advisory iff Extra prints exactly as "Using index condition" |
| MySqlRules.RowAdvice | src/main/java/com/wuya/mybatis/optimizer/advice/MySqlAdviceGenerator.java:28-98 | a row throws iff one of its numeric rules throws; otherwise its advice is the rule groups in source order |
| MySqlRules.FullScanRowExample | src/main/java/com/wuya/mybatis/optimizer/advice/MySqlAdviceGenerator.java:28-98 | the row {type: ALL, key: null, table: t} yields exactly one full-table-scan advisory for t |
| MySqlRules.Generate | src/main/java/com/wuya/mybatis/optimizer/advice/MySqlAdviceGenerator.java:25-101 | succeeds iff every row's rules succeed |
| MySqlRules.GenerateAppend | src/main/java/com/wuya/mybatis/optimizer/advice/MySqlAdviceGenerator.java:28 | row order is advice order; a throwing row masks every later row |
| MySqlRules.RowFullTableScan | src/main/java/com/wuya/mybatis/optimizer/advice/MySqlAdviceGenerator.java:33-35 | within a row, the full-table-scan advisory for t appears iff the row is an un-indexed ALL scan of t |
| MySqlRules.FullTableScanReported | src/main/java/com/wuya/mybatis/optimizer/advice/MySqlAdviceGenerator.java:28-35 | over a plan, the full-table-scan advisory for t appears iff some row is an un-indexed ALL scan of t |
| PostgresRules.LongField | src/main/java/com/wuya/mybatis/optimizer/advice/PostgreSQLAdviceGenerator.java:109-110 | reading a long succeeds iff the value is non-null and its text parses as a long, giving the parsed value |
| PostgresRules.IntField | src/main/java/com/wuya/mybatis/optimizer/advice/PostgreSQLAdviceGenerator.java:311-314 | reading an int succeeds iff the value is non-null and its text parses as an int |
| PostgresRules.RealField | src/main/java/com/wuya/mybatis/optimizer/advice/PostgreSQLAdviceGenerator.java:111-112 | reading a double succeeds iff the value is non-null and its text is a plain decimal |
| PostgresRules.BasicAdvice | src/main/java/com/wuya/mybatis/optimizer/advice/PostgreSQLAdviceGenerator.java:65-90 | each metric hint needs its metric set: slow planning iff planning time > 10, planning share iff execution time > 0 and planning > 0.2 x execution, shared reads iff > 1000 blocks, temp usage iff > 100 blocks written |
| PostgresRules.SeqScanAdvice | src/main/java/com/wuya/mybatis/optimizer/advice/PostgreSQLAdviceGenerator.java:154-163 | always the scan advisory with relation and rows, then the unindexed-filter advisory iff a Filter is present and does not print as "false" |
| PostgresRules.IndexScanAdvice | src/main/java/com/wuya/mybatis/optimizer/advice/PostgreSQLAdviceGenerator.java:173-190 | large-scan advisory iff rows > 10000; for an index-only scan with Heap Fetches, an unreadable count throws and a positive one is reported |
| PostgresRules.JoinAdvice | src/main/java/com/wuya/mybatis/optimizer/advice/PostgreSQLAdviceGenerator.java:200-212 | costly-join iff time > 100 ms; non-unique-inner iff a nested loop's Inner Unique is not case-blind "true"; for a type containing "Join" only the costly-join advisory can appear |
| PostgresRules.SortAdvice | src/main/java/com/wuya/mybatis/optimizer/advice/PostgreSQLAdviceGenerator.java:220-230 | sort-key advisory iff Sort Key is present; external-sort advisory iff Sort Method contains "external" |
| PostgresRules.AggregateAdvice | src/main/java/com/wuya/mybatis/optimizer/advice/PostgreSQLAdviceGenerator.java:238-249 | hash or sorted aggregate iff Strategy is exactly that string; group-key advisory iff Group Key is present |
| PostgresRules.Batches | src/main/java/com/wuya/mybatis/optimizer/advice/PostgreSQLAdviceGenerator.java:292-302 | the parsed batch count, 1 when absent or unparsable; a null value throws (NumberFormatException is the only catch) |
| PostgresRules.WidthAdvice | src/main/java/com/wuya/mybatis/optimizer/advice/PostgreSQLAdviceGenerator.java:261-272 | wide-rows advisory iff Plan Width parses above 100; unparsable is ignored, null throws |
| PostgresRules.BatchAdvice | src/main/java/com/wuya/mybatis/optimizer/advice/PostgreSQLAdviceGenerator.java:275-288 | only nodes with Hash Buckets are examined; batches > 1 is reported |
| PostgresRules.HashAdvice | src/main/java/com/wuya/mybatis/optimizer/advice/PostgreSQLAdviceGenerator.java:258-289 | width advice then batch advice; throws iff either throws |
| PostgresRules.ParallelAdvice | src/main/java/com/wuya/mybatis/optimizer/advice/PostgreSQLAdviceGenerator.java:309-327 | an unreadable Workers Planned throws; worker shortage iff workers < planned; parallel advisory iff Worker Number is present |
| PostgresRules.Run | src/main/java/com/wuya/mybatis/optimizer/advice/PostgreSQLAdviceGenerator.java:115-142 | each handler runs its own rule: scan, index-scan, join, sort, aggregate and hash advice as those members state; the parallel handler throws on an unreadable Workers, runs only for a positive count and is silent otherwise; an unrouted node gives nothing |
| PostgresRules.Dispatch | src/main/java/com/wuya/mybatis/optimizer/advice/PostgreSQLAdviceGenerator.java:115-142 | first-match dispatch: the node gets exactly the advice of the handler the else-if chain selects, and so only that handler's kinds |
| PostgresRules.RunProduces | src/main/java/com/wuya/mybatis/optimizer/advice/PostgreSQLAdviceGenerator.java:115-142 | each handler emits only its own kinds, and the join handler never the non-unique-inner one |
| PostgresRules.NodeAdvice | src/main/java/com/wuya/mybatis/optimizer/advice/PostgreSQLAdviceGenerator.java:107-143 | a non-map node throws; an unreadable Actual Rows or Actual Total Time throws; success only yields the routed handler's kinds |
| PostgresRules.PlanAdvice | src/main/java/com/wuya/mybatis/optimizer/advice/PostgreSQLAdviceGenerator.java:101-106 | rows without PlanNodes give nothing; a non-list PlanNodes throws; otherwise succeeds iff every node does |
| PostgresRules.NodesAdvice | src/main/java/com/wuya/mybatis/optimizer/advice/PostgreSQLAdviceGenerator.java:98-145 | succeeds iff every row's plan nodes succeed |
| PostgresRules.ConfigAdvice | src/main/java/com/wuya/mybatis/optimizer/advice/PostgreSQLAdviceGenerator.java:335-359 | low-hit-ratio iff both counts are set, the total is positive and hit/total < 0.9; temp-files iff blocks written > 0; JIT iff some row's JIT prints "true" |
| PostgresRules.HitRatioIntegerForm | src/main/java/com/wuya/mybatis/optimizer/advice/PostgreSQLAdviceGenerator.java:340-342 | hit/total < 0.9 is 10 x hit < 9 x total |
| PostgresRules.Generate | src/main/java/com/wuya/mybatis/optimizer/advice/PostgreSQLAdviceGenerator.java:44-57 | metrics, node advice and configuration in that order; fails iff the node pass fails |
| PostgresRules.HashJoinNeverHashHandled | src/main/java/com/wuya/mybatis/optimizer/advice/PostgreSQLAdviceGenerator.java:123-135 | "Hash Join" is caught by the join test, so it never reports wide rows or batches |
| PostgresRules.NonUniqueInnerNeverEmitted | src/main/java/com/wuya/mybatis/optimizer/advice/PostgreSQLAdviceGenerator.java:207-211 | the nested-loop check is unreachable, so its advisory never appears in any output |
| PostgresRules.NoPlanNodesNoNodeAdvice | src/main/java/com/wuya/mybatis/optimizer/advice/PostgreSQLAdviceGenerator.java:102 | rows without a flattened plan contribute no node advice |
| PostgresRules.TempBlocksReportedTwice | src/main/java/com/wuya/mybatis/optimizer/advice/PostgreSQLAdviceGenerator.java:87-89 | more than 100 temporary blocks written are reported both as a metric and as a configuration hint |
| PostgresRules.UnsetMetricsSilent | src/main/java/com/wuya/mybatis/optimizer/advice/PostgreSQLAdviceGenerator.java:65-90 | with no metric set, the only global hint possible is JIT |
| PostgresRules.UnreadableWorkersFail | src/main/java/com/wuya/mybatis/optimizer/advice/PostgreSQLAdviceGenerator.java:139-140 | an unhandled node with readable timing fields and an unreadable Workers count throws |
| PostgresRules.SeqScanAlwaysReported | src/main/java/com/wuya/mybatis/optimizer/advice/PostgreSQLAdviceGenerator.java:113-115 | a Seq Scan node with readable timing fields is always reported with its relation and its row count, 0 when "Actual Rows" is absent |
| PostgresRules.NodeDispatches | src/main/java/com/wuya/mybatis/optimizer/advice/PostgreSQLAdviceGenerator.java:107-142 | a node whose Actual Rows and Actual Total Time are absent or parseable gets exactly the advice of the handler its type routes to, run on those values (0 when absent) |
| PostgresRules.LargeIndexScanReported | src/main/java/com/wuya/mybatis/optimizer/advice/PostgreSQLAdviceGenerator.java:117-119 | an Index Scan node over more than 10000 rows yields the large-scan advisory with its index and relation |
| PostgresRules.CostlyJoinReported | src/main/java/com/wuya/mybatis/optimizer/advice/PostgreSQLAdviceGenerator.java:121-123 | a node whose type contains "Join" and that took more than 100 ms yields the costly-join advisory |
| PostgresRules.SortKeyReported | src/main/java/com/wuya/mybatis/optimizer/advice/PostgreSQLAdviceGenerator.java:125-127 | a Sort node with a Sort Key yields the sort-key advisory |
| PostgresRules.HashAggregateReported | src/main/java/com/wuya/mybatis/optimizer/advice/PostgreSQLAdviceGenerator.java:129-131 | an Aggregate node with Strategy HashAggregate yields the hash-aggregate advisory |
| PostgresRules.WideHashReported | src/main/java/com/wuya/mybatis/optimizer/advice/PostgreSQLAdviceGenerator.java:133-135 | a Hash node whose Plan Width parses above 100 yields the wide-rows advisory |
| PostgresRules.ParallelReported | src/main/java/com/wuya/mybatis/optimizer/advice/PostgreSQLAdviceGenerator.java:137-140 | an unhandled node with a positive Workers count and a Worker Number yields the parallel advisory |
| PostgresRules.TempBlocksModerate | src/main/java/com/wuya/mybatis/optimizer/advice/PostgreSQLAdviceGenerator.java:349-351 | 1 to 100 temporary blocks written give the configuration hint but not the metric hint |
| LimitRules.OffsetAdvice | src/main/java/com/wuya/mybatis/optimizer/advice/LimitAdviceGenerator.java:92-107 | the deep-offset advisory, carrying the offset, exactly when an offset is present, parses as a long and exceeds 10000; a non-numeric offset is silently skipped |
| LimitRules.RowCountAdvice | src/main/java/com/wuya/mybatis/optimizer/advice/LimitAdviceGenerator.java:114-127 | a missing row count throws; otherwise the large-limit advisory exactly when the count parses above 1000, the single-row advisory exactly when it parses as 1, nothing else |
| LimitRules.MidRangeRowCountSilent | src/main/java/com/wuya/mybatis/optimizer/advice/LimitAdviceGenerator.java:117-122 | a row count from 2 to 1000 gives no advisory |
| LimitRules.OrderByAdvice | src/main/java/com/wuya/mybatis/optimizer/advice/LimitAdviceGenerator.java:134-139 | the missing-ORDER-BY advisory exactly when there is a limit and no ORDER BY list |
| LimitRules.LeadingSpaces | src/main/java/com/wuya/mybatis/optimizer/advice/LimitAdviceGenerator.java:147 | the length of the maximal run of regex whitespace at the start |
| LimitRules.HardcodedAdvice | src/main/java/com/wuya/mybatis/optimizer/advice/LimitAdviceGenerator.java:146-150 | the hard-coded-limit advisory exactly when the rendered clause matches LIMIT, whitespace, digits as a whole, ignoring case |
| LimitRules.HardcodedShape | src/main/java/com/wuya/mybatis/optimizer/advice/LimitAdviceGenerator.java:147 | every keyword + whitespace run + digit run text matches |
| LimitRules.HardcodedOnlyShape | src/main/java/com/wuya/mybatis/optimizer/advice/LimitAdviceGenerator.java:147 | every matching text has that shape (the converse) |
| LimitRules.LeadingBlankNeverHardcoded | src/main/java/com/wuya/mybatis/optimizer/advice/LimitAdviceGenerator.java:147 | a rendering starting with a blank never matches |
| LimitRules.Generate | src/main/java/com/wuya/mybatis/optimizer/advice/LimitAdviceGenerator.java:35-71 | a parse failure, a non-plain SELECT or a SELECT without LIMIT gives nothing; a LIMIT without a row count throws past the parser-only catch; at most four advisories |
| LimitRules.GenerateOrder | src/main/java/com/wuya/mybatis/optimizer/advice/LimitAdviceGenerator.java:50-62 | the advisories come in rule order: offset, row count, ORDER BY, hard-coded |
| PostgresAnalyzer.Flatten | src/main/java/com/wuya/mybatis/optimizer/analyzer/PostgreExplainResultAnalyzer.java:72-95 | a map flattens to itself without Plans first, then its children; anything else flattens to nothing; no flattened node keeps a Plans entry |
| PostgresAnalyzer.FlattenAll | src/main/java/com/wuya/mybatis/optimizer/analyzer/PostgreExplainResultAnalyzer.java:88-90 | the children's flattenings in order, none with a Plans entry |
| PostgresAnalyzer.FlattenCountsNodes | src/main/java/com/wuya/mybatis/optimizer/analyzer/PostgreExplainResultAnalyzer.java:72-95 | one flattened row per map reachable through Plans lists (pre-order walk) |
| PostgresAnalyzer.FlattenAllCountsNodes | src/main/java/com/wuya/mybatis/optimizer/analyzer/PostgreExplainResultAnalyzer.java:88-90 | the same count for a list of children |
| PostgresAnalyzer.FlattenAllAppend | src/main/java/com/wuya/mybatis/optimizer/analyzer/PostgreExplainResultAnalyzer.java:88-90 | children are flattened left to right, each subtree contiguous |
| PostgresAnalyzer.TwoChildren | src/main/java/com/wuya/mybatis/optimizer/analyzer/PostgreExplainResultAnalyzer.java:79-91 | a node with two children flattens to itself, then the first subtree, then the second |
| PostgresAnalyzer.LeafIsOneRow | src/main/java/com/wuya/mybatis/optimizer/analyzer/PostgreExplainResultAnalyzer.java:79-87 | a node without a Plans list is a single row |
| PostgresAnalyzer.ParseExplainJson | src/main/java/com/wuya/mybatis/optimizer/analyzer/PostgreExplainResultAnalyzer.java:59-68 | succeeds iff the document decodes to a map; the result adds PlanNodes, the flattened Plan, and keeps every other entry |
| PostgresAnalyzer.NoPlanNoNodes | src/main/java/com/wuya/mybatis/optimizer/analyzer/PostgreExplainResultAnalyzer.java:64-65 | a map document without Plan still parses, with an empty PlanNodes list |
| PostgresAnalyzer.AsMaps | src/main/java/com/wuya/mybatis/optimizer/analyzer/PostgreExplainResultAnalyzer.java:64 | each flattened node boxed as a map, same length and order |
| PostgresAnalyzer.PlanRow | src/main/java/com/wuya/mybatis/optimizer/analyzer/PostgreExplainResultAnalyzer.java:34-45 | a parsable document gives its parsed row; any failure, a null column included, gives the single EXPLAIN entry with the raw text |
| PostgresAnalyzer.ArrayDocumentFallsBack | src/main/java/com/wuya/mybatis/optimizer/analyzer/PostgreExplainResultAnalyzer.java:37-45 | a top-level JSON array is not a map, so the row falls back to the raw text |
| PostgresAnalyzer.Analyze | src/main/java/com/wuya/mybatis/optimizer/analyzer/PostgreExplainResultAnalyzer.java:24-50 | one plan row per result row in order, the statement text kept, no metric set |
| PostgresAnalyzer.Dialect | src/main/java/com/wuya/mybatis/optimizer/analyzer/PostgreExplainResultAnalyzer.java:52-55 | the analyzer is tagged PostgreSQL |
| Engine.Compose | src/main/java/com/wuya/mybatis/optimizer/SqlAnalysisInterceptor.java:171-174 | the composition succeeds exactly when every generator that supports the dialect generates without throwing |
| Engine.ComposeMember | src/main/java/com/wuya/mybatis/optimizer/SqlAnalysisInterceptor.java:171-174 | an advisory is in the composed list exactly when some generator supporting the dialect produced it |
| Engine.ComposeAppend | src/main/java/com/wuya/mybatis/optimizer/SqlAnalysisInterceptor.java:171-174 | the advice of later-registered generators follows that of earlier ones, in registration order |
| Engine.UnsupportedSkipped | src/main/java/com/wuya/mybatis/optimizer/SqlAnalysisInterceptor.java:172 | a generator that does not support the dialect contributes nothing |
| Engine.NoDeduplication | src/main/java/com/wuya/mybatis/optimizer/SqlAnalysisInterceptor.java:171-174 | a generator registered twice contributes its advice twice: the stream does not deduplicate |
| Engine.SelectTwinsDoubleUp | src/main/java/com/wuya/mybatis/optimizer/advice/SelectRuleAnalyzer.java:17-30 | with both SELECT generators registered, every SELECT advisory appears twice |
| Engine.ComposeIgnoresAdviceField | src/main/java/com/wuya/mybatis/optimizer/SqlAnalysisInterceptor.java:171-175 | no generator reads the advice list it is about to replace, so a stale list changes nothing |
| Engine.SlowCallAdvised | src/main/java/com/wuya/mybatis/optimizer/SqlAnalysisInterceptor.java:169-174 | the execution time is stamped before the generators run, so a call slower than the execution-time threshold is advised as slow |
| Engine.SelectAnalyzer | src/main/java/com/wuya/mybatis/optimizer/SqlAnalysisInterceptor.java:148-150 | the acquirer chosen is the first whose dialect tag matches; none exactly when no tag matches |
| Engine.Load | src/main/java/com/wuya/mybatis/optimizer/SqlAnalysisInterceptor.java:146-156 | no matching acquirer fails with "no analyzer" naming the dialect's constant name (as `"..." + dbType` prints it), wrapped once; otherwise the chosen acquirer's record, or its error wrapped once as an analysis failure |
| Engine.EarliestAcquirerWins | src/main/java/com/wuya/mybatis/optimizer/SqlAnalysisInterceptor.java:148-150 | with several acquirers for a dialect, the earliest registered one is chosen |
| Interceptor.Obtain | src/main/java/com/wuya/mybatis/optimizer/SqlAnalysisInterceptor.java:158-164 | without a cache the loader runs each time; a hit returns the cached record without loading; a miss loads and stores only a non-null record; other entries stay as they were |
| Interceptor.Alias | src/main/java/com/wuya/mybatis/optimizer/SqlAnalysisInterceptor.java:169-175 | the setters on a cached record write through to its entry and to nothing else; without an entry nothing changes |
| Interceptor.FirstRefusal | src/main/java/com/wuya/mybatis/optimizer/SqlAnalysisInterceptor.java:178 | the reporters are called in order; none refused exactly when all returned; otherwise the first that threw, with all before it having returned |
| Interceptor.Finish | src/main/java/com/wuya/mybatis/optimizer/SqlAnalysisInterceptor.java:169-178 | once a record is in hand no further load happens; a delivered record carries the measured time and every reporter accepted it; any failure is wrapped as an analysis failure; the entries of other statements are left alone |
| Interceptor.Task | src/main/java/com/wuya/mybatis/optimizer/SqlAnalysisInterceptor.java:138-182 | at most one load; a connection failure leaves the cache alone; every failure is wrapped as an analysis failure; a delivered record carries the measured time and every reporter accepted it; the cache is present afterwards exactly when it was before |
| Interceptor.Proceeded | src/main/java/com/wuya/mybatis/optimizer/SqlAnalysisInterceptor.java:98-104 | the caller sees the statement's own result, or its own exception |
| Interceptor.Intercept | src/main/java/com/wuya/mybatis/optimizer/SqlAnalysisInterceptor.java:93-189 | a call that is bypassed, fails, is fast, or is not explainable runs no task and passes the statement's outcome through; a task runs exactly when dispatched and not rejected by the pool; in synchronous mode the call returns exactly when the task succeeds and otherwise raises its error; in asynchronous mode the caller gets the statement's result, or the pool's rejection |
| Interceptor.ThresholdIsStrict | src/main/java/com/wuya/mybatis/optimizer/SqlAnalysisInterceptor.java:111 | a call exactly at the threshold is not analysed; one millisecond slower is |
| Interceptor.FullRateIgnoresDraw | src/main/java/com/wuya/mybatis/optimizer/SqlAnalysisInterceptor.java:95-97 | with a sample rate of one or more, the random draw never changes the outcome |
| Interceptor.NoCacheLoadsEveryTime | src/main/java/com/wuya/mybatis/optimizer/SqlAnalysisInterceptor.java:162-163 | without a cache every task that opens a connection loads once |
| Interceptor.SecondCallHitsCache | src/main/java/com/wuya/mybatis/optimizer/SqlAnalysisInterceptor.java:160-161 | after a successful task the cache holds the very record it delivered, and the next task for the same statement loads nothing |
| Interceptor.OtherEntriesUntouched | src/main/java/com/wuya/mybatis/optimizer/SqlAnalysisInterceptor.java:160-175 | a task leaves the cache entries of other statements as they were |
| Interceptor.DeliveredAdviceComposed | src/main/java/com/wuya/mybatis/optimizer/SqlAnalysisInterceptor.java:169-175 | the delivered advice is exactly what the generators compose for the delivered record |
| Interceptor.HitMatchesFresh | src/main/java/com/wuya/mybatis/optimizer/SqlAnalysisInterceptor.java:161-175 | a cache hit delivers the same record as a fresh load of the same plan, whatever time and advice the cached copy carried |
| Interceptor.SlowStatementAdvised | src/main/java/com/wuya/mybatis/optimizer/SqlAnalysisInterceptor.java:169-175 | a statement slower than the execution-time threshold is delivered with the slow-execution advisory whenever that rule is registered |
| SqlHelper.GetParameterValue | src/main/java/com/wuya/mybatis/optimizer/helper/SqlHepler.java:26-51 | null parameter or null/empty name gives null; a String, number, boolean, character or enum is returned as it is; a map answers with the name's entry; a bean answers through its "get" + capitalised getter, null when there is none; other values give null |
| SqlHelper.ScalarIgnoresName | src/main/java/com/wuya/mybatis/optimizer/helper/SqlHepler.java:33-35 | a scalar parameter answers every non-empty name with itself |
| SqlHelper.BeanGetterFound | src/main/java/com/wuya/mybatis/optimizer/helper/SqlHepler.java:42-44 | a bean property is found through its conventional getter |
| SqlHelper.ReadProperty | src/main/java/com/wuya/mybatis/optimizer/helper/SqlHepler.java:42-50 | the value of a property read by that getter, null when no property has it |
| SqlHelper.Capitalize | src/main/java/com/wuya/mybatis/optimizer/helper/SqlHepler.java:73-78 | null stays null, empty stays empty; the length is kept, the first character upper-cased, the rest unchanged |
| SqlHelper.CapitalizeIdempotent | src/main/java/com/wuya/mybatis/optimizer/helper/SqlHepler.java:73-78 | capitalising twice is capitalising once |
| SqlHelper.CapitalizeFixesCapitalised | src/main/java/com/wuya/mybatis/optimizer/helper/SqlHepler.java:77 | a name not starting with a lower-case letter is unchanged |
| SqlHelper.ShouldExplainRejectsOnlyBoth | src/main/java/com/wuya/mybatis/optimizer/helper/SqlHepler.java:124-127 | a statement is skipped exactly when it contains both "EXPLAIN" and "explain" |
| SqlHelper.UpperCaseExplainPasses | src/main/java/com/wuya/mybatis/optimizer/helper/SqlHepler.java:126 | a statement starting with upper-case EXPLAIN and never mentioning lower-case explain is still analysed |
| SqlHelper.SpaceRun | src/main/java/com/wuya/mybatis/optimizer/helper/SqlHepler.java:138-139 | the maximal run of regex whitespace at the start |
| SqlHelper.Collapse | src/main/java/com/wuya/mybatis/optimizer/helper/SqlHepler.java:139 | the result has no two adjacent whitespace characters, every whitespace character left is a plain space, and it starts with whitespace only if the input does |
| SqlHelper.CollapseSplits | src/main/java/com/wuya/mybatis/optimizer/helper/SqlHepler.java:139 | no whitespace run crosses the end of a text that ends in a non-whitespace character, so the two parts collapse independently |
| SqlHelper.CollapseSeparates | src/main/java/com/wuya/mybatis/optimizer/helper/SqlHepler.java:139 | a non-empty whitespace run between two texts becomes exactly one space, each side collapsing on its own |
| SqlHelper.CollapseWord | src/main/java/com/wuya/mybatis/optimizer/helper/SqlHepler.java:139 | text without whitespace or control characters is unchanged |
| SqlHelper.PrepareSql | src/main/java/com/wuya/mybatis/optimizer/helper/SqlHepler.java:138-140 | the normalised text neither starts nor ends with whitespace and has no two adjacent whitespace characters |
| SqlHelper.StripKeepsVisible | src/main/java/com/wuya/mybatis/optimizer/helper/SqlHepler.java:138 | stripping line-leading whitespace keeps every character above U+0020, in order |
| SqlHelper.CollapseKeepsVisible | src/main/java/com/wuya/mybatis/optimizer/helper/SqlHepler.java:139 | collapsing whitespace keeps every character above U+0020, in order |
| SqlHelper.TrimStartKeepsVisible | src/main/java/com/wuya/mybatis/optimizer/helper/SqlHepler.java:140 | trimming the start keeps every character above U+0020 |
| SqlHelper.TrimEndKeepsVisible | src/main/java/com/wuya/mybatis/optimizer/helper/SqlHepler.java:140 | trimming the end keeps every character above U+0020 |
| SqlHelper.PrepareSqlKeepsVisible | src/main/java/com/wuya/mybatis/optimizer/helper/SqlHepler.java:138-140 | normalisation only removes or rewrites whitespace and control characters: every other character survives, in order |
| SqlHelper.BlankVanishes | src/main/java/com/wuya/mybatis/optimizer/helper/SqlHepler.java:138-140 | all-whitespace text normalises to the empty string |
| SqlHelper.StripSingleLine | src/main/java/com/wuya/mybatis/optimizer/helper/SqlHepler.java:138 | on one line that starts visibly, no whitespace is at a line start, so nothing is removed |
| SqlHelper.PrepareSqlSeparatesWords | src/main/java/com/wuya/mybatis/optimizer/helper/SqlHepler.java:138-140 | two words separated by blanks or tabs on one line normalise to the two words with exactly one space between them |
| ParameterWrapper.Wrap | src/main/java/com/wuya/mybatis/optimizer/helper/ParameterWrapper.java:30-52 | null gives an empty map; a map is copied as it is; a collection (list or not) or array starts with the keys collection then list; every other parameter binds at least one key |
| ParameterWrapper.ArrayWrapsAsList | src/main/java/com/wuya/mybatis/optimizer/helper/ParameterWrapper.java:140-145 | an array is wrapped exactly as the list of its elements |
| ParameterWrapper.CollectionBindings | src/main/java/com/wuya/mybatis/optimizer/helper/ParameterWrapper.java:59-72 | collection and list are bound to the collection object itself, and __frch_item_i to item i, for every i below the size |
| ParameterWrapper.SetBindsItself | src/main/java/com/wuya/mybatis/optimizer/helper/ParameterWrapper.java:38-39 | a collection that is not a list is bound itself under collection and list, not converted, with its items numbered in iteration order |
| ParameterWrapper.ScalarCollectionKeys | src/main/java/com/wuya/mybatis/optimizer/helper/ParameterWrapper.java:59-72 | for a collection of non-complex items the keys are exactly collection, list, __frch_item_0 .. __frch_item_(n-1), in that order |
| ParameterWrapper.ScalarItemsKeys | src/main/java/com/wuya/mybatis/optimizer/helper/ParameterWrapper.java:63-71 | the item loop over non-complex items appends exactly the item keys, in order |
| ParameterWrapper.ItemsGet | src/main/java/com/wuya/mybatis/optimizer/helper/ParameterWrapper.java:64-70 | item i is bound under its own item key, whatever the other items' expansions add |
| ParameterWrapper.ItemKeysApart | src/main/java/com/wuya/mybatis/optimizer/helper/ParameterWrapper.java:65 | two item keys neither coincide nor nest (one is never the dotted prefix of the other) |
| ParameterWrapper.ItemKeyInjective | src/main/java/com/wuya/mybatis/optimizer/helper/ParameterWrapper.java:65 | distinct indices give distinct item keys |
| ParameterWrapper.BeanBindsProperty | src/main/java/com/wuya/mybatis/optimizer/helper/ParameterWrapper.java:79-95 | a bean binds every readable property other than class under its own name |
| ParameterWrapper.BeanParamAndClass | src/main/java/com/wuya/mybatis/optimizer/helper/ParameterWrapper.java:80-89 | param holds the bean itself whenever no readable property is named param; class is never bound |
| ParameterWrapper.PropsBind | src/main/java/com/wuya/mybatis/optimizer/helper/ParameterWrapper.java:83-119 | every readable property is bound under its key at any depth: name at the top, prefix.name inside an expansion |
| ParameterWrapper.BeanValueExpanded | src/main/java/com/wuya/mybatis/optimizer/helper/ParameterWrapper.java:103-120 | a bean value is bound under its key and each readable property under key.name |
| ParameterWrapper.ScalarNotExpanded | src/main/java/com/wuya/mybatis/optimizer/helper/ParameterWrapper.java:127-133 | a value that is not complex adds only its own key |
| ParameterWrapper.PutValueGet | src/main/java/com/wuya/mybatis/optimizer/helper/ParameterWrapper.java:66-70 | a value is bound under its own key, whatever its expansion adds |
| ParameterWrapper.PutValueFrame | src/main/java/com/wuya/mybatis/optimizer/helper/ParameterWrapper.java:103-120 | binding and expanding under a key leaves every key outside it (not equal, not dotted below it) alone |
| ParameterWrapper.ItemsFrame | src/main/java/com/wuya/mybatis/optimizer/helper/ParameterWrapper.java:63-71 | the item loop leaves every key outside all item keys alone |
| ParameterWrapper.PropsFrame | src/main/java/com/wuya/mybatis/optimizer/helper/ParameterWrapper.java:107-119 | the property loop leaves every key outside all property keys alone |
| ParameterWrapper.KeysGrowValue | src/main/java/com/wuya/mybatis/optimizer/helper/ParameterWrapper.java:66-70 | binding a value never removes or reorders existing keys (insertion order of LinkedHashMap) |
| ParameterWrapper.KeysGrowItems | src/main/java/com/wuya/mybatis/optimizer/helper/ParameterWrapper.java:63-71 | the item loop never removes or reorders existing keys |
| ParameterWrapper.KeysGrowProps | src/main/java/com/wuya/mybatis/optimizer/helper/ParameterWrapper.java:83-94 | the property loop never removes or reorders existing keys |
| PgBinder.Split | src/main/java/com/wuya/mybatis/optimizer/helper/PgParameterBinder.java:83-117 | a path without any delimiter is a single part; otherwise the parts are a prefix of the delimiter-free pieces that drops exactly the trailing empty ones |
| PgBinder.SplitJoin | src/main/java/com/wuya/mybatis/optimizer/helper/PgParameterBinder.java:117 | splitting at the dot and joining the pieces back with dots gives the path back |
| PgBinder.TrailingDotDropped | src/main/java/com/wuya/mybatis/optimizer/helper/PgParameterBinder.java:117-125 | a trailing dot is dropped by the split, so a. resolves like a |
| PgBinder.Lookup | src/main/java/com/wuya/mybatis/optimizer/helper/PgParameterBinder.java:155-158 | a map answers its entry (null when absent); a bean answers exactly when it has a readable property of that name; a collection, list or not, throws unsupported operation; names are taken literally (simple property names) |
| PgBinder.Getter | src/main/java/com/wuya/mybatis/optimizer/helper/PgParameterBinder.java:155-158 | a bean property read succeeds exactly when a readable property has the name, yields that property's value, and otherwise fails with no getter for the name |
| PgBinder.ElementAt | src/main/java/com/wuya/mybatis/optimizer/helper/PgParameterBinder.java:136-145 | a list or array is indexed and succeeds exactly for an index in range; a map answers null (the boxed index is never a string key); any other value throws unsupported collection, a collection that is not a list included |
| PgBinder.WalkIndexed | src/main/java/com/wuya/mybatis/optimizer/helper/PgParameterBinder.java:86-103 | the indexed walk over a null value yields null, whatever parts remain |
| PgBinder.WalkNested | src/main/java/com/wuya/mybatis/optimizer/helper/PgParameterBinder.java:120-125 | the nested walk over a null value yields null; with no parts left it yields the current value |
| PgBinder.First | src/main/java/com/wuya/mybatis/optimizer/helper/PgParameterBinder.java:84-118 | no parts throws out of bounds before the null parameter is dereferenced; a null parameter then throws null pointer; otherwise the first part is looked up |
| PgBinder.Resolve | src/main/java/com/wuya/mybatis/optimizer/helper/PgParameterBinder.java:55-70 | a path with both brackets goes the indexed route, else a path with a dot goes the nested route, else a null parameter gives null and any other parameter is looked up |
| PgBinder.SetParameter | src/main/java/com/wuya/mybatis/optimizer/helper/PgParameterBinder.java:169-189 | null binds SQL NULL of the declared type or OTHER when none is declared; a UUID binds as OTHER; an enum binds its name as a string; anything else binds as an object |
| PgBinder.BindOne | src/main/java/com/wuya/mybatis/optimizer/helper/PgParameterBinder.java:40-43 | a mapping binds exactly when its path resolves, with the setter chosen for the resolved value; otherwise the resolution's error is thrown |
| PgBinder.BindFrom | src/main/java/com/wuya/mybatis/optimizer/helper/PgParameterBinder.java:39-44 | the loop succeeds exactly when every remaining mapping binds; then mapping i is bound at position i+1 with its own action |
| PgBinder.BindParameters | src/main/java/com/wuya/mybatis/optimizer/helper/PgParameterBinder.java:30-45 | binding succeeds exactly when every mapping's path resolves; then there is one binding per mapping, mapping i at position i+1 with the setter for its resolved value |
| PgBinder.PositionsDistinct | src/main/java/com/wuya/mybatis/optimizer/helper/PgParameterBinder.java:39-43 | a later mapping is bound at a strictly later position, so no position is bound twice |
| PgBinder.NullParameterBindsNull | src/main/java/com/wuya/mybatis/optimizer/helper/PgParameterBinder.java:36-69 | with a null parameter object a plain path binds SQL NULL of its declared type (OTHER when undeclared) |
| PgBinder.NullAbsorbs | src/main/java/com/wuya/mybatis/optimizer/helper/PgParameterBinder.java:87-121 | once either walk meets null it yields null, whatever parts remain |
| PgBinder.BlankPartSkipped | src/main/java/com/wuya/mybatis/optimizer/helper/PgParameterBinder.java:89-90 | a blank part of an indexed path is skipped |
| PgBinder.WalkStep | src/main/java/com/wuya/mybatis/optimizer/helper/PgParameterBinder.java:89-100 | one step of the indexed walk over a non-blank part: a throwing step ends the walk with its error, otherwise the walk goes on from the step's value |
| PgBinder.AdvanceDigits | src/main/java/com/wuya/mybatis/optimizer/helper/PgParameterBinder.java:93-95 | a part that is the decimal rendering of an index within int range indexes the current value |
| PgBinder.DigitsParse | src/main/java/com/wuya/mybatis/optimizer/helper/PgParameterBinder.java:93-94 | the decimal rendering of an index within int range is all digits, trims to itself and parses back to the index |
| PgBinder.DigitsIndexList | src/main/java/com/wuya/mybatis/optimizer/helper/PgParameterBinder.java:93-95 | an index part selects that element of a list and the walk continues from it |
| PgBinder.ScalarCannotBeIndexed | src/main/java/com/wuya/mybatis/optimizer/helper/PgParameterBinder.java:136-145 | indexing a string, number, bean, enum, UUID or non-list collection throws unsupported collection |
| PgBinder.NestedMapPath | src/main/java/com/wuya/mybatis/optimizer/helper/PgParameterBinder.java:114-126 | a.b on nested maps resolves to the entry b of the map under a |

## Left out

- Database I/O is not modelled. This covers the MySQL and Oracle plan acquirers, the PostgreSQL `EXPLAIN` executor, `SqlHepler.getResult` and opening the connection. They appear only as the URL and `acquire` parameters of `Interceptor.Env`.
- Caffeine is not modelled beyond sequential get-or-compute over a map. Eviction, expiry, statistics (`logCacheStats`) and single-flight loading under concurrency are out of scope.
- The worker pool's concurrency is not modelled. Only whether a submitted task is accepted or rejected (the abort policy) is. A pooled task's effect on the cache is recorded, but its interleaving with later calls is not.
- Shutting the pool down (`destroy`) has no effect on the modelled logic.
- The two logging reporters are not modelled; a reporter is reduced to whether its call returns.
- A null list of analyzers or reporters is not modelled. The model takes both lists as given, so it has no null-pointer case for them.
- Advisory message texts, including the `%.2f` formatting of numbers, are not modelled. Each advisory carries the values the message prints.
- Floating point is exact: doubles are reals, and `Double.parseDouble` is modelled on plain decimal text only. Exponents, `NaN` and `Infinity` are not accepted.
- `BigDecimal` and other `Number` subclasses are not distinguished from the boxed primitives.
- Case mapping and the regex classes `\s`, `\w` and `\b` are ASCII only. Java's locale- and Unicode-aware behaviour is not modelled.
- JSqlParser, Jackson and the JavaBeans `Introspector` are inputs, not models. Property order is the order the bean value lists. MyBatis's `MetaObject` is modelled only for simple property names (`PgBinder.Lookup`).
- PgBinder.Lookup: a name holding `[` is looked up literally. MyBatis's `PropertyTokenizer` would split it into a name and an index and index the named collection (so `ids[0` reads `ids` with the index `""`). MyBatis is not part of this model, so names with `[` reach `Lookup` (from `PgBinder.Resolve` when the path has `[` but no `]`, and from `PgBinder.WalkNested`) without that reading.
- `Values.Value` cannot represent a cyclic object graph, so `ParameterWrapper.wrap`'s behaviour on a cycle (unbounded recursion) is not modelled.
- The JDK-defined properties of non-bean objects are not modelled. `ParameterWrapper.Wrap` drops a UUID's `mostSignificantBits` and `leastSignificantBits` and an enum's `declaringClass`. `SqlHelper.GetParameterValue` likewise finds no getter on a UUID, an enum, an array or a collection.
- `SqlHepler.prepareSql`'s comment-removal regexes are not modelled. `SqlHelper.PrepareSql` is its whitespace part applied to comment-free text.
- A null statement text is not modelled: every statement has a text.
- A JDBC prepared statement is not driven. `PgBinder.BindParameters` returns the list of setter calls instead, and a failure drops the calls made before it.
- Integer widths are modelled where the source parses text (`Integer.parseInt`, `Long.parseLong` range checks). Arithmetic on `long` values such as the execution time is unbounded.
- `PgBinder.ElementAt`: a map is indexed by a boxed `Integer` key, which never equals a string key. Maps with non-string keys are not modelled, so the result is always null.
- Identity hash codes in `Object.toString` renderings are dropped.
- The PostgreSQL plan acquirer (`PostgresAnalyzer.Analyze`) keeps only the reading of result lines. The query it sends is left out.

=== FILE: advice.dfy ===
/** The advisories the rules emit. Each generator renders its advisory as a
    (Chinese or English) message string; here every message is one constructor
    carrying the values the message interpolates, so two advisories are equal
    exactly when the rule and its payload agree. */
module Advisories {

  datatype Advice =
    // MySqlAdviceGenerator
    | MyFullTableScan(table: string)
    | MyFullIndexScan(key: string)
    | MyNoIndexUsed(table: string)
    | MyTemporaryTable
    | MyFilesort
    | MyIndexMerge(table: string)
    | MyRangeScan(key: string)
    | MyDependentSubquery
    | MyDerivedTable
    | MyLowSelectivity(key: string, filtered: real)
    | MyLargeJoin(rows: int)
    | MyNoCoveringIndex
    // IndexAdviceGenerator
    | IdxFullTableScan(table: string)
    | IdxFullIndexScan(key: string)
    // JoinAdviceGenerator
    | JoinFullScan
    | JoinSeqScan
    // SelectAdviceGenerator and SelectRuleAnalyzer
    | SelectStar
    | UnconditionalDistinct
    // CommonAdviceGenerator
    | SlowExecution
    // LimitAdviceGenerator
    | DeepOffset(offset: int)
    | LargeLimit(rowCount: int)
    | SingleRowLimit
    | MissingOrderBy
    | HardcodedLimit
    // WhereClauseAdviceGenerator
    | LeadingWildcard
    | FunctionOnColumn(column: string, functionName: string, allowed: seq<string>)
    | OrConditions
    // PostgreSQLAdviceGenerator: global metrics
    | PgSlowPlanning(planningMs: real)
    | PgPlanningShare(planningMs: real, executionMs: int)
    | PgSharedReads(blocks: int)
    | PgTempUsage(blocks: int)
    // PostgreSQLAdviceGenerator: plan nodes
    | PgSeqScan(relation: string, rows: int)
    | PgUnindexedFilter(relation: string, filter: string)
    | PgLargeIndexScan(nodeType: string, rows: int, index: string, relation: string)
    | PgHeapFetches(fetches: int, index: string)
    | PgCostlyJoin(nodeType: string, ms: real)
    | PgNonUniqueInner
    | PgSortKey(keys: string)
    | PgExternalSort
    | PgHashAggregate
    | PgSortedAggregate
    | PgGroupKey(keys: string)
    | PgWideRows(nodeType: string, width: int)
    | PgHashBatches(batches: int)
    | PgWorkerShortage(planned: int, actual: int)
    | PgParallel(workers: int)
    // PostgreSQLAdviceGenerator: configuration
    | PgLowHitRatio(hit: int, total: int)
    | PgTempFiles(blocks: int)
    | PgJit
}

=== FILE: common_rules.dfy ===
/** `CommonAdviceGenerator`: the execution-time rule. */
module CommonRules {
  import opened Advisories
  import opened Dialects
  import opened ExplainResults

  const SLOW_MILLIS: int := 5000

  /** `generateAdvice`: one advisory when the statement ran longer than five seconds. */
  function Generate(e: SqlExplainResult): (r: seq<Advice>)
    ensures e.executionTime > SLOW_MILLIS ==> r == [SlowExecution]
    ensures e.executionTime <= SLOW_MILLIS ==> r == []
  {
    if e.executionTime > SLOW_MILLIS then [SlowExecution] else []
  }

  /** `supports`: every dialect. */
  predicate Supports(d: DatabaseType) {
    true
  }

  /** Plan rows, statement text and metrics do not matter, only the time. */
  lemma OnlyTimeMatters(e: SqlExplainResult, f: SqlExplainResult)
    requires e.executionTime == f.executionTime
    ensures Generate(e) == Generate(f)
  {
  }
}

=== FILE: dialect.dfy ===
/** The database dialects the optimizer knows, and how one is read off a JDBC URL. */
module Dialects {
  import opened Wrappers
  import opened Strings

  datatype DatabaseType = MySql | Postgre | Oracle | Unknown

  const MYSQL_MARKER: string := ":mysql:"
  const POSTGRES_MARKER: string := ":postgresql:"
  const ORACLE_MARKER: string := ":oracle:"

  /** The display name each dialect carries. */
  function Name(d: DatabaseType): (r: string)
    ensures d == MySql ==> r == "MySQL"
    ensures d == Postgre ==> r == "PostgreSQL"
    ensures d == Oracle ==> r == "Oracle"
    ensures d == Unknown ==> r == "Unknown"
  {
    match d
    case MySql => "MySQL"
    case Postgre => "PostgreSQL"
    case Oracle => "Oracle"
    case Unknown => "Unknown"
  }

  /** The enum constant's own name. The enum declares no `toString`, so this,
      not the display name, is what string concatenation prints. */
  function ConstantName(d: DatabaseType): (r: string)
    ensures d == MySql ==> r == "MYSQL"
    ensures d == Postgre ==> r == "POSTGRE"
    ensures d == Oracle ==> r == "ORACLE"
    ensures d == Unknown ==> r == "UNKNOWN"
  {
    match d
    case MySql => "MYSQL"
    case Postgre => "POSTGRE"
    case Oracle => "ORACLE"
    case Unknown => "UNKNOWN"
  }

  /** The dialect of a connection URL (`None` is a null URL): the first marker
      found, testing MySQL, then PostgreSQL, then Oracle. */
  function FromUrl(url: Option<string>): (r: DatabaseType)
    ensures url.None? ==> r == Unknown
    ensures url.Some? && Contains(url.value, MYSQL_MARKER) ==> r == MySql
    ensures r == Postgre <==>
      url.Some? && !Contains(url.value, MYSQL_MARKER) && Contains(url.value, POSTGRES_MARKER)
    ensures r == Oracle <==>
      url.Some? && !Contains(url.value, MYSQL_MARKER) && !Contains(url.value, POSTGRES_MARKER)
      && Contains(url.value, ORACLE_MARKER)
  {
    if url.None? then Unknown
    else if Contains(url.value, MYSQL_MARKER) then MySql
    else if Contains(url.value, POSTGRES_MARKER) then Postgre
    else if Contains(url.value, ORACLE_MARKER) then Oracle
    else Unknown
  }

  /** Unknown is the answer exactly when no marker occurs in the URL. */
  lemma UnknownIffNoMarker(url: Option<string>)
    ensures FromUrl(url) == Unknown <==>
      url.None? || (!Contains(url.value, MYSQL_MARKER) && !Contains(url.value, POSTGRES_MARKER)
                    && !Contains(url.value, ORACLE_MARKER))
  {
  }

  /** A marker placed anywhere in a URL is found, at any position. */
  lemma MarkerAnywhere(prefix: string, suffix: string)
    ensures FromUrl(Some(prefix + MYSQL_MARKER + suffix)) == MySql
  {
    var s := prefix + MYSQL_MARKER + suffix;
    assert s[|prefix|..|prefix| + |MYSQL_MARKER|] == MYSQL_MARKER;
    ContainsAt(s, MYSQL_MARKER, |prefix|);
  }

  /** A URL naming both MySQL and PostgreSQL resolves to MySQL, whatever the order. */
  lemma MySqlBeatsPostgres(a: string, b: string, c: string)
    ensures FromUrl(Some(a + POSTGRES_MARKER + b + MYSQL_MARKER + c)) == MySql
  {
    MarkerAnywhere(a + POSTGRES_MARKER + b, c);
    assert a + POSTGRES_MARKER + b + MYSQL_MARKER + c == (a + POSTGRES_MARKER + b) + MYSQL_MARKER + c;
  }

  /** No constant name is a display name, so a message naming a dialect tells
      which of the two names it used. */
  lemma ConstantNameNotDisplayName(d: DatabaseType, e: DatabaseType)
    ensures ConstantName(d) != Name(e)
  {
    // The second letter is upper case in every constant name, lower case in every display name.
    assert 'A' <= ConstantName(d)[1] <= 'Z' && 'a' <= Name(e)[1] <= 'z';
  }
}

=== FILE: engine.dfy ===
/** The advice engine: the registered generators, their composition for one
    analysis, and the choice of plan acquirer for a dialect. */
module Engine {
  import opened Wrappers
  import opened Errors
  import opened Advisories
  import opened Dialects
  import opened ExplainResults
  import opened Statements
  import opened Sequences
  import MySqlRules
  import PostgresRules
  import IndexRules
  import JoinRules
  import SelectRules
  import CommonRules
  import LimitRules
  import WhereRules

  /** The `SqlOptimizationAdvice` implementations. The WHERE rules carry the
      configured allow-list of function names. */
  datatype Generator =
    | MySqlGen
    | PostgresGen
    | IndexGen
    | JoinGen
    | SelectGen
    | SelectRuleGen
    | CommonGen
    | LimitGen
    | WhereGen(allowed: seq<string>)

  /** `supports(dbType)` of each generator. */
  predicate Supports(g: Generator, d: DatabaseType) {
    match g
    case MySqlGen => MySqlRules.Supports(d)
    case PostgresGen => PostgresRules.Supports(d)
    case IndexGen => IndexRules.Supports(d)
    case JoinGen => JoinRules.Supports(d)
    case SelectGen => SelectRules.Supports(d)
    case SelectRuleGen => SelectRules.Supports(d)
    case CommonGen => CommonRules.Supports(d)
    case LimitGen => LimitRules.Supports(d)
    case WhereGen(_) => WhereRules.Supports(d)
  }

  /** `generateAdvice(explainResult)` of each generator; the statement parser
      is passed to the two that parse. */
  function Run(g: Generator, e: SqlExplainResult, parse: Parser): Result<seq<Advice>, Error> {
    match g
    case MySqlGen => MySqlRules.Generate(e)
    case PostgresGen => PostgresRules.Generate(e)
    case IndexGen => Success(IndexRules.Generate(e))
    case JoinGen => JoinRules.Generate(e)
    case SelectGen => Success(SelectRules.Generate(e))
    case SelectRuleGen => Success(SelectRules.RuleAnalyzerGenerate(e))
    case CommonGen => Success(CommonRules.Generate(e))
    case LimitGen => LimitRules.Generate(e, parse)
    case WhereGen(allowed) => WhereRules.Generate(e, allowed, parse)
  }

  /** What one generator contributes for dialect `d`: nothing when it does
      not support the dialect. */
  function Contribution(d: DatabaseType, e: SqlExplainResult, parse: Parser): Generator -> Result<seq<Advice>, Error> {
    g => if Supports(g, d) then Run(g, e, parse) else Success([])
  }

  /** The stream `filter(supports).flatMap(generateAdvice)`: every supporting
      generator's advice, in registration order, without deduplication; the
      first generator that throws ends the analysis. */
  function Compose(gens: seq<Generator>, d: DatabaseType, e: SqlExplainResult, parse: Parser): (r: Result<seq<Advice>, Error>)
    ensures r.Success? <==> forall i | 0 <= i < |gens| :: Supports(gens[i], d) ==> Run(gens[i], e, parse).Success?
  {
    var f := Contribution(d, e, parse);
    assert forall i | 0 <= i < |gens| :: f(gens[i]) == (if Supports(gens[i], d) then Run(gens[i], e, parse) else Success([]));
    ConcatResult(gens, f)
  }

  // ---------------------------------------------------------------------------
  // Properties of the composition
  // ---------------------------------------------------------------------------

  /** An advisory is in the composed list exactly when some supporting
      generator produced it. */
  lemma ComposeMember(gens: seq<Generator>, d: DatabaseType, e: SqlExplainResult, parse: Parser, a: Advice)
    requires Compose(gens, d, e, parse).Success?
    ensures a in Compose(gens, d, e, parse).value <==>
      exists i :: 0 <= i < |gens| && Supports(gens[i], d) && a in Run(gens[i], e, parse).value
  {
    var f := Contribution(d, e, parse);
    ConcatResultMember(gens, f, a);
    if a in Compose(gens, d, e, parse).value {
      var i :| 0 <= i < |gens| && a in f(gens[i]).value;
      assert Supports(gens[i], d);
    }
  }

  /** Registering more generators appends their advice after the earlier ones'. */
  lemma ComposeAppend(xs: seq<Generator>, ys: seq<Generator>, d: DatabaseType, e: SqlExplainResult, parse: Parser)
    requires Compose(xs, d, e, parse).Success? && Compose(ys, d, e, parse).Success?
    ensures Compose(xs + ys, d, e, parse) == Success(Compose(xs, d, e, parse).value + Compose(ys, d, e, parse).value)
  {
    ConcatResultAppend(xs, ys, Contribution(d, e, parse));
  }

  /** A generator that does not support the dialect contributes nothing. */
  lemma UnsupportedSkipped(g: Generator, d: DatabaseType, e: SqlExplainResult, parse: Parser)
    requires !Supports(g, d)
    ensures Compose([g], d, e, parse) == Success([])
  {
    var f := Contribution(d, e, parse);
    var none: seq<Advice> := [];
    assert f(g) == Success(none);
    assert [g][1..] == [];
    assert ConcatResult([g][1..], f) == Success(none);
    assert none + none == none;
  }

  /** A generator registered twice reports twice: there is no deduplication. */
  lemma NoDeduplication(g: Generator, d: DatabaseType, e: SqlExplainResult, parse: Parser)
    requires Supports(g, d) && Run(g, e, parse).Success?
    ensures Compose([g, g], d, e, parse) == Success(Run(g, e, parse).value + Run(g, e, parse).value)
  {
    var f := Contribution(d, e, parse);
    var v := Run(g, e, parse).value;
    var none: seq<Advice> := [];
    assert f(g) == Success(v);
    assert [g][1..] == [];
    assert ConcatResult([g][1..], f) == Success(none);
    assert ConcatResult([g], f) == Success(v + none);
    assert v + none == v;
    assert [g, g][1..] == [g];
  }

  /** The two SELECT generators, both registered, report every SELECT
      advisory twice. */
  lemma SelectTwinsDoubleUp(d: DatabaseType, e: SqlExplainResult, parse: Parser)
    ensures Compose([SelectGen, SelectRuleGen], d, e, parse)
            == Success(SelectRules.Generate(e) + SelectRules.Generate(e))
  {
    SelectRules.RuleAnalyzerAgrees(e);
    var f := Contribution(d, e, parse);
    var v := SelectRules.Generate(e);
    var none: seq<Advice> := [];
    assert f(SelectGen) == Success(v);
    assert f(SelectRuleGen) == Success(v);
    assert [SelectRuleGen][1..] == [];
    assert ConcatResult([SelectRuleGen][1..], f) == Success(none);
    assert ConcatResult([SelectRuleGen], f) == Success(v + none);
    assert v + none == v;
    assert [SelectGen, SelectRuleGen][1..] == [SelectRuleGen];
  }

  /** No generator reads the advice field it is about to fill, so a stale
      list left on a cached record cannot change the new one. */
  lemma IgnoresAdviceField(g: Generator, e: SqlExplainResult, stale: seq<Advice>, parse: Parser)
    ensures Run(g, e.(advice := stale), parse) == Run(g, e, parse)
  {
    var e' := e.(advice := stale);
    match g
    case MySqlGen => assert e'.rows == e.rows;
    case PostgresGen => PostgresIgnoresAdviceField(e, stale);
    case IndexGen => assert e'.rows == e.rows;
    case JoinGen => assert e'.rows == e.rows;
    case SelectGen => SelectRules.OnlySqlMatters(e', e);
    case SelectRuleGen => assert e'.sql == e.sql;
    case CommonGen => CommonRules.OnlyTimeMatters(e', e);
    case LimitGen => assert e'.sql == e.sql;
    case WhereGen(_) => assert e'.sql == e.sql;
  }

  lemma PostgresIgnoresAdviceField(e: SqlExplainResult, stale: seq<Advice>)
    ensures PostgresRules.Generate(e.(advice := stale)) == PostgresRules.Generate(e)
  {
    PostgresPartsIgnoreAdvice(e, stale);
    PostgresNodesIgnoreAdvice(e, stale);
  }

  lemma PostgresPartsIgnoreAdvice(e: SqlExplainResult, stale: seq<Advice>)
    ensures PostgresRules.BasicAdvice(e.(advice := stale)) == PostgresRules.BasicAdvice(e)
    ensures PostgresRules.ConfigAdvice(e.(advice := stale)) == PostgresRules.ConfigAdvice(e)
  {
  }

  lemma PostgresNodesIgnoreAdvice(e: SqlExplainResult, stale: seq<Advice>)
    ensures PostgresRules.NodesAdvice(e.(advice := stale)) == PostgresRules.NodesAdvice(e)
  {
  }

  lemma {:induction false} ComposeIgnoresAdviceField(gens: seq<Generator>, d: DatabaseType, e: SqlExplainResult,
                                                      stale: seq<Advice>, parse: Parser)
    ensures Compose(gens, d, e.(advice := stale), parse) == Compose(gens, d, e, parse)
  {
    if gens != [] {
      IgnoresAdviceField(gens[0], e, stale, parse);
      ComposeIgnoresAdviceField(gens[1..], d, e, stale, parse);
    }
  }

  /** The execution time is set before the generators run, so the
      execution-time rule sees it. */
  lemma SlowCallAdvised(gens: seq<Generator>, d: DatabaseType, e: SqlExplainResult, elapsed: int, parse: Parser, i: nat)
    requires i < |gens| && gens[i] == CommonGen
    requires elapsed > CommonRules.SLOW_MILLIS
    requires Compose(gens, d, e.(executionTime := elapsed), parse).Success?
    ensures SlowExecution in Compose(gens, d, e.(executionTime := elapsed), parse).value
  {
    ComposeMember(gens, d, e.(executionTime := elapsed), parse, SlowExecution);
  }

  // ---------------------------------------------------------------------------
  // Plan acquirer selection
  // ---------------------------------------------------------------------------

  /** `analyzers.stream().filter(a -> a.getDatabaseType() == dbType).findFirst()`,
      over the acquirers' dialect tags: the index of the first match. */
  function SelectAnalyzer(tags: seq<DatabaseType>, d: DatabaseType): (r: Option<nat>)
    ensures r.None? <==> d !in tags
    ensures r.Some? ==> r.value < |tags| && tags[r.value] == d
    ensures r.Some? ==> forall j | 0 <= j < r.value :: tags[j] != d
  {
    if tags == [] then None
    else if tags[0] == d then Some(0)
    else
      match SelectAnalyzer(tags[1..], d)
      case None => None
      case Some(i) => Some(i + 1)
  }

  /** The supplier inside the task: run the selected acquirer (`acquire(i)` is
      what acquirer `i` returns, `None` for a null record) and wrap any failure,
      including a missing acquirer, as an analysis failure. */
  function Load(tags: seq<DatabaseType>, d: DatabaseType, acquire: nat -> Result<Option<SqlExplainResult>, Error>)
    : (r: Result<Option<SqlExplainResult>, Error>)
    ensures d !in tags ==> r == Failure(AnalysisFailed(NoAnalyzer(ConstantName(d))))
    ensures d in tags ==> (r.Success? <==> acquire(SelectAnalyzer(tags, d).value).Success?)
    ensures d in tags && r.Success? ==> r == acquire(SelectAnalyzer(tags, d).value)
    ensures d in tags && r.Failure? ==> r.error == AnalysisFailed(acquire(SelectAnalyzer(tags, d).value).error)
  {
    match SelectAnalyzer(tags, d)
    case None => Failure(AnalysisFailed(NoAnalyzer(ConstantName(d))))
    case Some(i) =>
      match acquire(i)
      case Failure(e) => Failure(AnalysisFailed(e))
      case Success(x) => Success(x)
  }

  /** With several acquirers for one dialect, the earliest registered wins. */
  lemma EarliestAcquirerWins(tags: seq<DatabaseType>, d: DatabaseType, i: nat)
    requires i < |tags| && tags[i] == d
    ensures SelectAnalyzer(tags, d).Some? && SelectAnalyzer(tags, d).value <= i
  {
  }
}

=== FILE: errors.dfy ===
/** The Java exceptions that can escape the modelled code, as data. */
module Errors {

  datatype Error =
    | NullPointer(what: string)          // dereference of a Java null
    | NumberFormat(input: string)        // Long.parseLong / Integer.parseInt / Double.parseDouble
    | ClassCast(what: string)            // an unchecked cast that does not hold
    | IndexOutOfBounds(index: int)       // List.get / Array.get / parts[0] on an empty split
    | UnsupportedCollection              // indexing a value that is neither list, array nor map
    | UnsupportedOperation               // MyBatis CollectionWrapper.get on a collection
    | NoGetter(property: string)         // MyBatis ReflectionException: no getter for a property
    | AuditFailed                        // JSQLParserException: the WHERE audit could not parse the statement
    | WhereAuditFailed(cause: Error)     // RuntimeException rethrown around any failure of the WHERE audit
    | NoAnalyzer(dialect: string)        // no plan acquirer registered for the dialect (its constant name)
    | AcquisitionFailed(reason: string)  // the plan acquirer itself failed (database I/O)
    | AnalysisFailed(cause: Error)       // SqlOptimizerException wrapping a task failure
    | Rejected                           // the async pool's queue is full (AbortPolicy)
    | ReporterFailed(reporter: nat)      // a reporting sink threw
    | StatementFailed(reason: string)    // the intercepted statement itself threw
}

=== FILE: explain_result.dfy ===
/** The analysis record that flows from a plan acquirer through the advice
    generators to the reporters (`SqlExplainResult`). */
module ExplainResults {
  import opened Wrappers
  import opened Values
  import opened Advisories

  /** `rows` are the plan rows, one string-keyed map each. The PostgreSQL
      metrics are boxed in Java, so each may be absent (`None`). */
  datatype SqlExplainResult = SqlExplainResult(
    sql: string,
    rows: seq<Row>,
    executionTime: int,
    advice: seq<Advice>,
    planningTime: Option<real>,
    sharedHitBlocks: Option<int>,
    sharedReadBlocks: Option<int>,
    tempReadBlocks: Option<int>,
    tempWrittenBlocks: Option<int>)

  /** A fresh record as a plan acquirer builds it: the statement and its rows,
      every other field at its Java default. */
  function Fresh(sql: string, rows: seq<Row>): (r: SqlExplainResult)
    ensures r.sql == sql && r.rows == rows
    ensures r.executionTime == 0 && r.advice == []
    ensures r.planningTime.None? && r.sharedHitBlocks.None? && r.sharedReadBlocks.None?
    ensures r.tempReadBlocks.None? && r.tempWrittenBlocks.None?
  {
    SqlExplainResult(sql, rows, 0, [], None, None, None, None, None)
  }
}

=== FILE: function_audit.dfy ===
/** `SqlFunctionHelper.audit`: warn about functions applied to columns in the
    WHERE clause of a plain SELECT, unless the function is allow-listed. */
module FunctionAudit {
  import opened Wrappers
  import opened Errors
  import opened Strings
  import opened Advisories
  import opened Statements
  import opened Sequences

  /** The allow-list test: the function's name, upper-cased, is a substring of
      some upper-cased entry (so "DATE_FORMAT" also exempts DATE and FORMAT). */
  predicate Exempt(name: string, allowed: seq<string>) {
    exists i | 0 <= i < |allowed| :: Contains(Upper(allowed[i]), Upper(name))
  }

  /** `isFunctionOnColumn`: some direct parameter is a column. */
  predicate OnColumn(params: seq<Expr>) {
    exists i | 0 <= i < |params| :: params[i].Column?
  }

  /** `getColumnName`: the first column among the direct parameters. */
  function FirstColumn(params: seq<Expr>): (r: string)
    ensures OnColumn(params) ==>
      exists i :: (0 <= i < |params| && params[i] == Column(r) && forall j :: 0 <= j < i ==> !params[j].Column?)
    ensures !OnColumn(params) ==> r == "unknown"
  {
    if params == [] then "unknown"
    else if params[0].Column? then params[0].name
    else
      var r := FirstColumn(params[1..]);
      assert OnColumn(params) ==> OnColumn(params[1..]) by {
        if OnColumn(params) {
          var i :| 0 <= i < |params| && params[i].Column?;
          assert params[1..][i - 1].Column?;
        }
      }
      assert OnColumn(params) ==>
        exists i :: (0 <= i < |params| && params[i] == Column(r) && forall j :: 0 <= j < i ==> !params[j].Column?) by {
        if OnColumn(params) {
          var i :| 0 <= i < |params[1..]| && params[1..][i] == Column(r)
            && forall j :: 0 <= j < i ==> !params[1..][j].Column?;
          assert params[i + 1] == Column(r);
          forall j | 0 <= j < i + 1 ensures !params[j].Column? {
            if j > 0 { assert params[j] == params[1..][j - 1]; }
          }
        }
      }
      r
  }

  /** The overridden `visit(Function)`: the warning for one call. Reading the
      parameter list of a call without arguments throws. */
  function CheckFunction(name: string, params: Option<seq<Expr>>, allowed: seq<string>): (r: Result<seq<Advice>, Error>)
    ensures Exempt(name, allowed) ==> r == Success([])
    ensures r.Failure? <==> !Exempt(name, allowed) && params.None?
    ensures r.Success? && r.value != [] <==> !Exempt(name, allowed) && params.Some? && OnColumn(params.value)
    ensures r.Success? && r.value != [] ==> r.value == [FunctionOnColumn(FirstColumn(params.value), name, allowed)]
  {
    if Exempt(name, allowed) then Success([])
    else if params.None? then Failure(NullPointer("getParameters"))
    else if OnColumn(params.value) then Success([FunctionOnColumn(FirstColumn(params.value), name, allowed)])
    else Success([])
  }

  /** The visitor walk (`ExpressionVisitorAdapter`): binary operators are
      descended left then right; a function is checked but its own parameters
      are not visited; columns and literals yield nothing. */
  function Analyze(x: Expr, allowed: seq<string>): (r: Result<seq<Advice>, Error>)
    ensures r.Success? ==> forall a | a in r.value :: a.FunctionOnColumn? && a.allowed == allowed
  {
    match x
    case Column(_) => Success([])
    case Literal(_) => Success([])
    case Function(name, params) => CheckFunction(name, params, allowed)
    case Binary(_, l, rt) =>
      var a :- Analyze(l, allowed);
      var b :- Analyze(rt, allowed);
      Success(a + b)
  }

  /** `audit`: parse the statement (a parse failure throws) and analyse the
      WHERE clause of a plain SELECT; anything else yields no warnings. */
  function Audit(sql: string, allowed: seq<string>, parse: Parser): (r: Result<seq<Advice>, Error>)
    ensures parse(sql).None? ==> r.Failure?
    ensures parse(sql).Some? && !parse(sql).value.PlainSelect? ==> r == Success([])
    ensures parse(sql).Some? && parse(sql).value.PlainSelect? && parse(sql).value.where.None? ==> r == Success([])
    ensures parse(sql).Some? && parse(sql).value.PlainSelect? && parse(sql).value.where.Some? ==>
      r == Analyze(parse(sql).value.where.value, allowed)
    ensures r.Success? ==> forall a | a in r.value :: a.FunctionOnColumn?
  {
    match parse(sql)
    case None => Failure(AuditFailed)
    case Some(PlainSelect(where, _, _)) =>
      if where.None? then Success([]) else Analyze(where.value, allowed)
    case Some(_) => Success([])
  }

  // ---------------------------------------------------------------------------
  // A reference definition of the walk and its agreement with the visitor
  // ---------------------------------------------------------------------------

  /** The function calls the walk reaches, in visiting order. */
  function Reached(x: Expr): (r: seq<Expr>)
    ensures forall i | 0 <= i < |r| :: r[i].Function?
  {
    match x
    case Function(_, _) => [x]
    case Binary(_, l, rt) => Reached(l) + Reached(rt)
    case _ => []
  }

  /** `CheckFunction` lifted to a reached call. */
  function CheckReached(allowed: seq<string>): Expr -> Result<seq<Advice>, Error> {
    (f: Expr) => if f.Function? then CheckFunction(f.name, f.parameters, allowed) else Success([])
  }

  /** The visitor's output is the concatenation, in visiting order, of the
      checks of the reached calls. */
  lemma {:induction false} AnalyzeIsReachedChecks(x: Expr, allowed: seq<string>)
    ensures Analyze(x, allowed) == ConcatResult(Reached(x), CheckReached(allowed))
  {
    match x
    case Column(_) =>
    case Literal(_) =>
    case Function(name, params) =>
      assert [x][1..] == [];
      if CheckFunction(name, params, allowed).Success? {
        var a := CheckFunction(name, params, allowed).value;
        assert a + [] == a;
      }
    case Binary(_, l, rt) =>
      AnalyzeIsReachedChecks(l, allowed);
      AnalyzeIsReachedChecks(rt, allowed);
      ConcatResultAppend(Reached(l), Reached(rt), CheckReached(allowed));
  }

  /** With an empty allow-list every reached call on a column is warned about,
      exactly once, and the audit fails only on a reached call without
      parameters. */
  lemma EmptyAllowList(x: Expr)
    ensures Analyze(x, []).Success? <==>
      forall i | 0 <= i < |Reached(x)| :: Reached(x)[i].parameters.Some?
    ensures Analyze(x, []).Success? ==>
      forall i | 0 <= i < |Reached(x)| ::
        CheckReached([])(Reached(x)[i]).value != [] <==> OnColumn(Reached(x)[i].parameters.value)
  {
    AnalyzeIsReachedChecks(x, []);
    assert forall n :: !Exempt(n, []);
  }

  /** An allow-list entry exempts every function whose name occurs inside it,
      ignoring case: an entry "DATE_FORMAT" exempts DATE and FORMAT too. */
  lemma InfixExempts(name: string, pre: string, post: string, allowed: seq<string>, i: nat)
    requires i < |allowed| && EqualsIgnoreCase(allowed[i], pre + name + post)
    ensures Exempt(name, allowed)
  {
    EqualsIgnoreCaseUpper(allowed[i], pre + name + post);
    UpperAppend(pre + name, post);
    UpperAppend(pre, name);
    var u := Upper(allowed[i]);
    assert u == Upper(pre) + Upper(name) + Upper(post);
    assert u[|pre|..|pre| + |name|] == Upper(name);
    ContainsAt(u, Upper(name), |pre|);
  }

  /** A name longer than every allow-list entry is never exempt. */
  lemma LongNameNotExempt(name: string, allowed: seq<string>)
    requires forall i | 0 <= i < |allowed| :: |allowed[i]| < |name|
    ensures !Exempt(name, allowed)
  {
    forall i | 0 <= i < |allowed| ensures !Contains(Upper(allowed[i]), Upper(name)) {
      ContainsNotLonger(Upper(allowed[i]), Upper(name));
    }
  }

  /** A function applied only to literals is never warned about, and the
      parameters of a function are not themselves searched: in
      `UPPER(TRIM(name)) = 'X'` neither call is reported. */
  lemma NoDescentIntoParameters(col: string, lit: string)
    ensures Analyze(Binary("=", Function("UPPER", Some([Function("TRIM", Some([Column(col)]))])), Literal(lit)), [])
      == Success([])
    ensures Analyze(Function("ABS", Some([Literal(lit)])), []) == Success([])
  {
    assert !OnColumn([Function("TRIM", Some([Column(col)]))]);
    assert !Exempt("UPPER", []) && !Exempt("ABS", []);
    assert !OnColumn([Literal(lit)]);
    assert Analyze(Function("UPPER", Some([Function("TRIM", Some([Column(col)]))])), []) == Success([]);
    assert Analyze(Literal(lit), []) == Success([]);
    var none: seq<Advice> := [];
    assert none + none == none;
  }
}

=== FILE: index_rules.dfy ===
/** `IndexAdviceGenerator`: a second, smaller set of MySQL access-type rules. */
module IndexRules {
  import opened Wrappers
  import opened Strings
  import opened Values
  import opened Advisories
  import opened Dialects
  import opened ExplainResults
  import opened Sequences

  /** One row. The key is compared with a Java null reference after
      `String.valueOf`, which never returns null, so `key` is always present and
      the full-table-scan branch cannot be taken. */
  function RowAdvice(row: Row): (r: seq<Advice>)
    ensures |r| <= 1
    ensures r == [IdxFullIndexScan(Text(Get(row, "key")))] <==> EqualsIgnoreCase("index", Text(Get(row, "type")))
    ensures r == [] <==> !EqualsIgnoreCase("index", Text(Get(row, "type")))
  {
    var ty := Text(Get(row, "type"));
    var key: Option<string> := Some(Text(Get(row, "key")));
    if EqualsIgnoreCase("ALL", ty) && key.None? then [IdxFullTableScan(Text(Get(row, "table")))]
    else if EqualsIgnoreCase("index", ty) then [IdxFullIndexScan(key.value)]
    else []
  }

  /** `generateAdvice`: the rows' advice in row order. */
  function Generate(e: SqlExplainResult): (r: seq<Advice>)
    ensures |r| <= |e.rows|
  {
    ConcatBound(e.rows, RowAdvice, 1);
    Concat(e.rows, RowAdvice)
  }

  /** `supports`: MySQL only. */
  predicate Supports(d: DatabaseType) {
    d == MySql
  }

  /** The full-table-scan advisory is never produced. */
  lemma NoFullTableScan(e: SqlExplainResult, t: string)
    ensures IdxFullTableScan(t) !in Generate(e)
  {
    ConcatMember(e.rows, RowAdvice, IdxFullTableScan(t));
  }

  /** Every advisory is a full-index scan of some row typed "index", and every
      such row is reported with its key. */
  lemma FullIndexScanReported(e: SqlExplainResult, k: string)
    ensures IdxFullIndexScan(k) in Generate(e) <==>
      exists i :: 0 <= i < |e.rows| && EqualsIgnoreCase("index", Text(Get(e.rows[i], "type")))
        && Text(Get(e.rows[i], "key")) == k
  {
    ConcatMember(e.rows, RowAdvice, IdxFullIndexScan(k));
  }

  /** Output order is row order. */
  lemma GenerateAppend(e: SqlExplainResult, more: seq<Row>)
    ensures Generate(e.(rows := e.rows + more)) == Generate(e) + Concat(more, RowAdvice)
  {
    ConcatAppend(e.rows, more, RowAdvice);
  }
}

=== FILE: interceptor.dfy ===
/** The MyBatis interceptor (`SqlAnalysisInterceptor`): the gate in front of
    every statement, and the analysis task it dispatches, synchronously or to
    the worker pool. The database, the clock, the random draw and the pool
    are parameters: the connection's URL, the measured execution time, the
    drawn number and whether the pool accepted the task. */
module Interceptor {
  import opened Wrappers
  import opened Errors
  import opened Dialects
  import opened ExplainResults
  import opened Statements
  import opened Engine
  import opened Advisories
  import CommonRules
  import SqlHelper

  /** The configuration the gate and the task read. */
  datatype Settings = Settings(
    enabled: bool,
    sampleRate: real,
    explainAll: bool,
    thresholdMillis: int,
    asyncAnalysis: bool)

  /** A reporting sink: `false` stands for a `report` call that throws. */
  type Reporter = (SqlExplainResult, DatabaseType, string) -> bool

  /** The analysis cache, keyed by the statement text; `None` when no cache
      is configured. */
  type Cache = Option<map<string, SqlExplainResult>>

  /** What the task needs from the outside world and the registered beans:
      the connection's URL (`Failure` when no connection could be opened,
      `None` for a null URL), the plan acquirers' dialect tags with what
      each returns, the advice generators, the statement parser and the
      reporters. */
  datatype Env = Env(
    url: Result<Option<string>, Error>,
    tags: seq<DatabaseType>,
    acquire: nat -> Result<Option<SqlExplainResult>, Error>,
    gens: seq<Generator>,
    parse: Parser,
    reporters: seq<Reporter>)

  // ---------------------------------------------------------------------------
  // The gate
  // ---------------------------------------------------------------------------

  /** The first test of `intercept`: the call only proceeds. The random draw
      is consulted only when the sample rate is below one. */
  predicate Bypass(s: Settings, draw: real) {
    !s.enabled || (s.sampleRate < 1.0 && draw >= s.sampleRate)
  }

  /** The second test: only slow statements are analysed, unless every
      statement is; a call exactly at the threshold is not slow. */
  predicate SlowEnough(s: Settings, elapsed: int) {
    s.explainAll || elapsed > s.thresholdMillis
  }

  // ---------------------------------------------------------------------------
  // The cache
  // ---------------------------------------------------------------------------

  /** The record the task works on, the cache afterwards and how many times
      the loader ran. */
  datatype Fetched = Fetched(value: Result<Option<SqlExplainResult>, Error>, cache: Cache, loads: nat)

  /** `analysisCache.get(sql, loader)` when there is a cache, a plain call of
      the loader otherwise. A hit returns the cached record without loading;
      a loader that throws or returns null leaves the cache unchanged. */
  function Obtain(cache: Cache, sql: string, load: Result<Option<SqlExplainResult>, Error>): (r: Fetched)
    ensures cache.None? ==> r == Fetched(load, None, 1)
    ensures cache.Some? && sql in cache.value ==> r == Fetched(Success(Some(cache.value[sql])), cache, 0)
    ensures cache.Some? && sql !in cache.value ==> r.value == load && r.loads == 1
    ensures cache.Some? ==> r.cache.Some? && (sql in r.cache.value <==> sql in cache.value || (load.Success? && load.value.Some?))
    ensures cache.Some? && r.value.Success? && r.value.value.Some? ==>
      sql in r.cache.value && r.cache.value[sql] == r.value.value.value
    ensures cache.Some? ==> forall k | k in cache.value :: k in r.cache.value
    ensures cache.Some? ==> forall k | k in r.cache.value && k != sql :: k in cache.value && r.cache.value[k] == cache.value[k]
  {
    match cache
    case None => Fetched(load, None, 1)
    case Some(m) =>
      if sql in m then Fetched(Success(Some(m[sql])), cache, 0)
      else
        match load
        case Success(Some(x)) => Fetched(load, Some(m[sql := x]), 1)
        case _ => Fetched(load, cache, 1)
  }

  /** The cached entry is the very object the task then mutates, so each
      setter on the record is also a write to its cache entry. */
  function Alias(cache: Cache, sql: string, x: SqlExplainResult): (r: Cache)
    ensures cache.None? ==> r.None?
    ensures cache.Some? && sql !in cache.value ==> r == cache
    ensures cache.Some? && sql in cache.value ==> r == Some(cache.value[sql := x])
  {
    if cache.Some? && sql in cache.value then Some(cache.value[sql := x]) else cache
  }

  // ---------------------------------------------------------------------------
  // The reporters
  // ---------------------------------------------------------------------------

  /** `reporters.forEach(report)`: the position of the first reporter that
      throws, which ends the loop; `None` when all of them return. */
  function FirstRefusal(reporters: seq<Reporter>, x: SqlExplainResult, d: DatabaseType, id: string): (r: Option<nat>)
    ensures r.None? <==> forall i | 0 <= i < |reporters| :: reporters[i](x, d, id)
    ensures r.Some? ==> r.value < |reporters| && !reporters[r.value](x, d, id)
    ensures r.Some? ==> forall j | 0 <= j < r.value :: reporters[j](x, d, id)
  {
    if reporters == [] then None
    else if !reporters[0](x, d, id) then Some(0)
    else
      match FirstRefusal(reporters[1..], x, d, id)
      case None => None
      case Some(i) => Some(i + 1)
  }

  // ---------------------------------------------------------------------------
  // The analysis task
  // ---------------------------------------------------------------------------

  /** What one run of the task leaves behind: the record handed to the
      reporters (or the `SqlOptimizerException` the task throws), the cache
      and the number of loader runs. */
  datatype TaskOutcome = TaskOutcome(result: Result<SqlExplainResult, Error>, cache: Cache, loads: nat)

  /** The task after a record is in hand: stamp the execution time, compose
      the advice, store it and report. Each setter writes through to the
      cache entry. */
  function Finish(sql: string, id: string, elapsed: int, env: Env, d: DatabaseType, x: SqlExplainResult,
                  cache: Cache, loads: nat): (r: TaskOutcome)
    ensures r.loads == loads
    ensures r.result.Failure? ==> r.result.error.AnalysisFailed?
    ensures r.result.Success? ==> r.result.value.executionTime == elapsed
    ensures r.result.Success? ==> forall i | 0 <= i < |env.reporters| :: env.reporters[i](r.result.value, d, id)
    ensures cache.None? <==> r.cache.None?
    ensures cache.Some? ==> forall k | k != sql :: (k in r.cache.value <==> k in cache.value)
    ensures cache.Some? ==> forall k | k != sql && k in cache.value :: r.cache.value[k] == cache.value[k]
  {
    var x1 := x.(executionTime := elapsed);
    var c1 := Alias(cache, sql, x1);
    match Compose(env.gens, d, x1, env.parse)
    case Failure(e) => TaskOutcome(Failure(AnalysisFailed(e)), c1, loads)
    case Success(adv) =>
      var x2 := x1.(advice := adv);
      var c2 := Alias(cache, sql, x2);
      match FirstRefusal(env.reporters, x2, d, id)
      case Some(i) => TaskOutcome(Failure(AnalysisFailed(ReporterFailed(i))), c2, loads)
      case None => TaskOutcome(Success(x2), c2, loads)
  }

  /** The `Runnable` of `analyzeSql`: open a connection and read the dialect
      off its URL, get the record through the cache, then finish. Anything
      thrown inside is rethrown wrapped as an analysis failure. */
  function Task(sql: string, id: string, elapsed: int, env: Env, cache: Cache): (r: TaskOutcome)
    ensures r.loads <= 1
    ensures env.url.Failure? ==> r == TaskOutcome(Failure(AnalysisFailed(env.url.error)), cache, 0)
    ensures r.result.Failure? ==> r.result.error.AnalysisFailed?
    ensures r.result.Success? ==> r.result.value.executionTime == elapsed
    ensures r.result.Success? ==> forall i | 0 <= i < |env.reporters| ::
      env.reporters[i](r.result.value, FromUrl(env.url.value), id)
    ensures cache.None? <==> r.cache.None?
  {
    match env.url
    case Failure(e) => TaskOutcome(Failure(AnalysisFailed(e)), cache, 0)
    case Success(u) =>
      var d := FromUrl(u);
      var f := Obtain(cache, sql, Load(env.tags, d, env.acquire));
      match f.value
      case Failure(e) => TaskOutcome(Failure(AnalysisFailed(e)), f.cache, f.loads)
      case Success(None) => TaskOutcome(Failure(AnalysisFailed(NullPointer("explainResult"))), f.cache, f.loads)
      case Success(Some(x)) => Finish(sql, id, elapsed, env, d, x, f.cache, f.loads)
  }

  // ---------------------------------------------------------------------------
  // One intercepted call
  // ---------------------------------------------------------------------------

  /** What the caller of the statement sees. */
  datatype Outcome<T> = Returned(value: T) | Raised(error: Error)

  /** The caller's outcome, and the task's outcome when a task ran. In
      asynchronous mode the task runs later on a worker; its outcome is
      recorded here but never reaches the caller. */
  datatype Call<T> = Call(outcome: Outcome<T>, task: Option<TaskOutcome>)

  /** The statement's own outcome, as `invocation.proceed()` gives it. */
  function Proceeded<T>(proceed: Result<T, Error>): (r: Outcome<T>)
    ensures proceed.Success? <==> r.Returned?
    ensures proceed.Success? ==> r.value == proceed.value
    ensures proceed.Failure? ==> r.error == proceed.error
  {
    match proceed
    case Success(v) => Returned(v)
    case Failure(e) => Raised(e)
  }

  /** Does `analyzeSql` create a task for this call? */
  predicate Dispatches<T>(s: Settings, draw: real, proceed: Result<T, Error>, elapsed: int, sql: string) {
    !Bypass(s, draw) && proceed.Success? && SlowEnough(s, elapsed) && SqlHelper.ShouldExplain(sql)
  }

  /** `intercept`: `proceed` is what the one call of `invocation.proceed()`
      returns or throws, `elapsed` the time it took, `pooled` whether an
      asynchronous executor was built, `accepted` whether it takes the task. */
  function Intercept<T>(s: Settings, draw: real, proceed: Result<T, Error>, elapsed: int,
                        sql: string, id: string, env: Env, cache: Cache, pooled: bool, accepted: bool): (r: Call<T>)
    ensures !Dispatches(s, draw, proceed, elapsed, sql) ==> r == Call(Proceeded(proceed), None)
    ensures r.outcome.Returned? ==> proceed == Success(r.outcome.value)
    ensures r.task.Some? <==> Dispatches(s, draw, proceed, elapsed, sql) && (!(s.asyncAnalysis && pooled) || accepted)
    ensures r.task.Some? ==> r.task.value == Task(sql, id, elapsed, env, cache)
    ensures r.task.Some? && !(s.asyncAnalysis && pooled) ==>
      (r.outcome.Returned? <==> r.task.value.result.Success?)
    ensures r.task.Some? && !(s.asyncAnalysis && pooled) && r.task.value.result.Failure? ==>
      r.outcome == Raised(r.task.value.result.error)
    ensures Dispatches(s, draw, proceed, elapsed, sql) && s.asyncAnalysis && pooled ==>
      r.outcome == (if accepted then Proceeded(proceed) else Raised(Rejected))
  {
    if Bypass(s, draw) then Call(Proceeded(proceed), None)
    else
      match proceed
      case Failure(e) => Call(Raised(e), None)
      case Success(v) =>
        if !SlowEnough(s, elapsed) || !SqlHelper.ShouldExplain(sql) then Call(Returned(v), None)
        else if s.asyncAnalysis && pooled then
          if accepted then Call(Returned(v), Some(Task(sql, id, elapsed, env, cache)))
          else Call(Raised(Rejected), None)
        else
          var t := Task(sql, id, elapsed, env, cache);
          Call(if t.result.Success? then Returned(v) else Raised(t.result.error), Some(t))
  }

  /** The cache after the call. */
  function CacheAfter<T>(c: Call<T>, cache: Cache): Cache {
    if c.task.Some? then c.task.value.cache else cache
  }

  // ---------------------------------------------------------------------------
  // Properties across calls
  // ---------------------------------------------------------------------------

  /** With every call sampled, the random draw makes no difference. */
  lemma FullRateIgnoresDraw<T>(s: Settings, d1: real, d2: real, proceed: Result<T, Error>, elapsed: int,
                               sql: string, id: string, env: Env, cache: Cache, pooled: bool, accepted: bool)
    requires s.sampleRate >= 1.0
    ensures Intercept(s, d1, proceed, elapsed, sql, id, env, cache, pooled, accepted)
         == Intercept(s, d2, proceed, elapsed, sql, id, env, cache, pooled, accepted)
  {
  }

  /** A call exactly at the threshold is not analysed; one millisecond more is. */
  lemma ThresholdIsStrict<T>(s: Settings, draw: real, v: T, sql: string)
    requires s.enabled && s.sampleRate >= 1.0 && !s.explainAll && SqlHelper.ShouldExplain(sql)
    ensures !Dispatches(s, draw, Success(v), s.thresholdMillis, sql)
    ensures Dispatches(s, draw, Success(v), s.thresholdMillis + 1, sql)
  {
  }

  /** Without a cache, every task that reaches the database loads once. */
  lemma NoCacheLoadsEveryTime(sql: string, id: string, elapsed: int, env: Env)
    requires env.url.Success?
    ensures Task(sql, id, elapsed, env, None).loads == 1
  {
  }

  /** Once a task has obtained a record for a statement, the cache holds the
      very record it delivered, and the next task for the same text does
      not load again. */
  lemma SecondCallHitsCache(sql: string, id1: string, id2: string, e1: int, e2: int, env1: Env, env2: Env,
                            cache: Cache)
    requires cache.Some? && Task(sql, id1, e1, env1, cache).result.Success?
    requires env2.url.Success?
    ensures sql in Task(sql, id1, e1, env1, cache).cache.value
    ensures Task(sql, id1, e1, env1, cache).cache.value[sql] == Task(sql, id1, e1, env1, cache).result.value
    ensures Task(sql, id2, e2, env2, Task(sql, id1, e1, env1, cache).cache).loads == 0
  {
    var d := FromUrl(env1.url.value);
    var f := Obtain(cache, sql, Load(env1.tags, d, env1.acquire));
    assert f.value.Success? && f.value.value.Some?;
    assert sql in f.cache.value;
  }

  /** A task leaves the cache entries of other statements alone. */
  lemma OtherEntriesUntouched(sql: string, id: string, elapsed: int, env: Env, cache: Cache, k: string)
    requires cache.Some? && k != sql
    ensures k in Task(sql, id, elapsed, env, cache).cache.value <==> k in cache.value
    ensures k in cache.value ==> Task(sql, id, elapsed, env, cache).cache.value[k] == cache.value[k]
  {
    if env.url.Success? {
      var d := FromUrl(env.url.value);
      var f := Obtain(cache, sql, Load(env.tags, d, env.acquire));
      assert k in f.cache.value <==> k in cache.value;
    }
  }

  /** The advice a task delivers is exactly what the generators compose for
      the record it delivers: the stale advice a cached record carries plays
      no part. */
  lemma DeliveredAdviceComposed(sql: string, id: string, elapsed: int, env: Env, cache: Cache)
    requires Task(sql, id, elapsed, env, cache).result.Success?
    ensures Compose(env.gens, FromUrl(env.url.value), Task(sql, id, elapsed, env, cache).result.value, env.parse)
         == Success(Task(sql, id, elapsed, env, cache).result.value.advice)
  {
    var d := FromUrl(env.url.value);
    var f := Obtain(cache, sql, Load(env.tags, d, env.acquire));
    var x1 := f.value.value.value.(executionTime := elapsed);
    var adv := Compose(env.gens, d, x1, env.parse).value;
    assert Task(sql, id, elapsed, env, cache).result.value == x1.(advice := adv);
    ComposeIgnoresAdviceField(env.gens, d, x1, adv, env.parse);
  }

  /** A cache hit reports what a fresh load of the same record would: the
      cached copy differs from the loaded one only in the execution time and
      the advice, and the task overwrites both. */
  lemma HitMatchesFresh(sql: string, id: string, e1: int, e2: int, env: Env, m: map<string, SqlExplainResult>,
                        x: SqlExplainResult, stale: seq<Advice>)
    requires env.url.Success?
    requires Load(env.tags, FromUrl(env.url.value), env.acquire) == Success(Some(x))
    requires sql in m && m[sql] == x.(executionTime := e1, advice := stale)
    ensures Task(sql, id, e2, env, Some(m)).result == Task(sql, id, e2, env, None).result
  {
    assert m[sql].(executionTime := e2) == x.(executionTime := e2).(advice := stale);
    ComposeIgnoresAdviceField(env.gens, FromUrl(env.url.value), x.(executionTime := e2), stale, env.parse);
  }

  /** A slow statement gets the slow-execution advisory whenever the
      execution-time rule is registered, because the time is stamped before
      the generators run. */
  lemma SlowStatementAdvised(sql: string, id: string, elapsed: int, env: Env, cache: Cache, i: nat)
    requires i < |env.gens| && env.gens[i] == CommonGen
    requires elapsed > CommonRules.SLOW_MILLIS
    requires Task(sql, id, elapsed, env, cache).result.Success?
    ensures SlowExecution in Task(sql, id, elapsed, env, cache).result.value.advice
  {
    var d := FromUrl(env.url.value);
    var f := Obtain(cache, sql, Load(env.tags, d, env.acquire));
    var x := f.value.value.value;
    SlowCallAdvised(env.gens, d, x, elapsed, env.parse, i);
  }
}

=== FILE: join_rules.dfy ===
/** `JoinAdviceGenerator`: a full-scan test on MySQL rows and a sequential-scan
    test on the raw PostgreSQL fallback rows. */
module JoinRules {
  import opened Wrappers
  import opened Errors
  import opened Strings
  import opened Values
  import opened Advisories
  import opened Dialects
  import opened ExplainResults
  import opened Sequences

  /** `"ALL".equals(row.get("type"))`: only the string "ALL", case-sensitively. */
  predicate FullScan(row: Row) {
    Get(row, "type") == Str("ALL")
  }

  /** One row: the full-scan advisory, then the sequential-scan advisory. The
      second calls `toString()` on the `EXPLAIN` value, which throws when the
      key is present with a null value. */
  function RowAdvice(row: Row): (r: Result<seq<Advice>, Error>)
    ensures r.Failure? <==> Has(row, "EXPLAIN") && Get(row, "EXPLAIN") == Null
    ensures r.Success? ==> |r.value| <= 2
    ensures r.Success? ==> (JoinFullScan in r.value <==> FullScan(row))
    ensures r.Success? ==> (JoinSeqScan in r.value <==> Has(row, "EXPLAIN") && Contains(Text(Get(row, "EXPLAIN")), "Seq Scan"))
    ensures r.Success? && JoinFullScan in r.value ==> r.value[0] == JoinFullScan
  {
    var full := if FullScan(row) then [JoinFullScan] else [];
    if Has(row, "EXPLAIN") then
      var plan :- ToStr(Get(row, "EXPLAIN"));
      Success(full + if Contains(plan, "Seq Scan") then [JoinSeqScan] else [])
    else Success(full)
  }

  /** `generateAdvice`: the rows' advice in row order; a throwing row throws. */
  function Generate(e: SqlExplainResult): (r: Result<seq<Advice>, Error>)
    ensures r.Failure? <==> exists i :: 0 <= i < |e.rows| && Has(e.rows[i], "EXPLAIN") && Get(e.rows[i], "EXPLAIN") == Null
    ensures r.Success? ==> |r.value| <= 2 * |e.rows|
  {
    var r := ConcatResult(e.rows, RowAdvice);
    if r.Success? then ConcatResultBound(e.rows, RowAdvice, 2); r else r
  }

  /** `supports`: every dialect. */
  predicate Supports(d: DatabaseType) {
    true
  }

  /** The type test is case-sensitive: a lower-case "all" is not reported. */
  lemma LowerCaseAllIgnored(row: Row)
    requires Get(row, "type") == Str("all") && !Has(row, "EXPLAIN")
    ensures RowAdvice(row) == Success([])
  {
  }

  /** A full-scan advisory is emitted exactly when some row is an ALL scan. */
  lemma FullScanReported(e: SqlExplainResult)
    requires Generate(e).Success?
    ensures JoinFullScan in Generate(e).value <==> exists i :: 0 <= i < |e.rows| && FullScan(e.rows[i])
  {
    ConcatResultMember(e.rows, RowAdvice, JoinFullScan);
  }
}

=== FILE: limit_rules.dfy ===
/** `LimitAdviceGenerator`: rules on the LIMIT clause of a plain SELECT. */
module LimitRules {
  import opened Wrappers
  import opened Errors
  import opened Strings
  import opened Values
  import opened Advisories
  import opened Dialects
  import opened ExplainResults
  import opened Statements

  const DEEP_OFFSET: int := 10000
  const LARGE_LIMIT: int := 1000

  /** `checkDeepOffset`: a numeric offset above 10000. A non-numeric offset
      (a JDBC placeholder, say) throws NumberFormatException, which is caught. */
  function OffsetAdvice(limit: Limit): (r: seq<Advice>)
    ensures r != [] <==> limit.offset.Some? && LongOf(limit.offset.value).Success?
                         && LongOf(limit.offset.value).value > DEEP_OFFSET
    ensures r != [] ==> r == [DeepOffset(LongOf(limit.offset.value).value)]
  {
    if limit.offset.None? then []
    else
      match LongOf(limit.offset.value)
      case Failure(_) => []
      case Success(n) => if n > DEEP_OFFSET then [DeepOffset(n)] else []
  }

  /** `checkLimitValue`: a row count above 1000, or exactly 1. A non-numeric
      row count is caught; a null row count makes `toString()` throw, which is
      not caught. */
  function RowCountAdvice(limit: Limit): (r: Result<seq<Advice>, Error>)
    ensures r.Failure? <==> limit.rowCount.None?
    ensures r.Success? ==> |r.value| <= 1
    ensures r.Success? ==> (r.value == [SingleRowLimit] <==> LongOf(limit.rowCount.value) == Success(1))
    ensures r.Success? ==> (r.value != [] && r.value != [SingleRowLimit] <==>
      LongOf(limit.rowCount.value).Success? && LongOf(limit.rowCount.value).value > LARGE_LIMIT)
    ensures r.Success? && r.value != [] && r.value != [SingleRowLimit] ==>
      r.value == [LargeLimit(LongOf(limit.rowCount.value).value)]
  {
    var text :- if limit.rowCount.None? then Failure(NullPointer("getRowCount")) else Success(limit.rowCount.value);
    match LongOf(text)
    case Failure(_) => Success([])
    case Success(n) =>
      if n > LARGE_LIMIT then Success([LargeLimit(n)])
      else if n == 1 then Success([SingleRowLimit])
      else Success([])
  }

  /** `checkMissingOrderBy`: a LIMIT without ORDER BY elements. */
  function OrderByAdvice(limit: Option<Limit>, orderBy: Option<seq<Expr>>): (r: seq<Advice>)
    ensures r == [MissingOrderBy] <==> limit.Some? && orderBy.None?
    ensures r == [] <==> !(limit.Some? && orderBy.None?)
  {
    if limit.Some? && orderBy.None? then [MissingOrderBy] else []
  }

  /** The number of leading regex-whitespace characters. */
  function LeadingSpaces(s: string): (r: nat)
    ensures r <= |s|
    ensures forall k | 0 <= k < r :: IsSpace(s[k])
    ensures r < |s| ==> !IsSpace(s[r])
  {
    if s != [] && IsSpace(s[0]) then 1 + LeadingSpaces(s[1..]) else 0
  }

  /** `limit.toString().matches("(?i)LIMIT\\s+\\d+")`: the whole text is the
      keyword in any case, then one or more whitespace characters, then one or
      more digits. Whitespace and digits are disjoint, so the split is unique. */
  predicate Hardcoded(s: string) {
    |s| > 5 && EqualsIgnoreCase(s[..5], "LIMIT")
    && var n := LeadingSpaces(s[5..]);
       n >= 1 && 5 + n < |s| && AllDigits(s[5 + n..])
  }

  /** `checkHardcodedLimit`. */
  function HardcodedAdvice(limit: Limit): (r: seq<Advice>)
    ensures r == [HardcodedLimit] <==> Hardcoded(limit.rendered)
    ensures r == [] <==> !Hardcoded(limit.rendered)
  {
    if Hardcoded(limit.rendered) then [HardcodedLimit] else []
  }

  /** `generateAdvice`: parse the upper-cased statement; only a plain SELECT with
      a LIMIT is examined, and a parse failure is swallowed. */
  function Generate(e: SqlExplainResult, parse: Parser): (r: Result<seq<Advice>, Error>)
    ensures parse(Upper(e.sql)).None? ==> r == Success([])
    ensures (!(parse(Upper(e.sql)).Some? && parse(Upper(e.sql)).value.PlainSelect?
               && parse(Upper(e.sql)).value.limit.Some?)) ==> r == Success([])
    ensures r.Failure? <==>
      (parse(Upper(e.sql)).Some? && parse(Upper(e.sql)).value.PlainSelect?
       && parse(Upper(e.sql)).value.limit.Some? && parse(Upper(e.sql)).value.limit.value.rowCount.None?)
    ensures r.Success? ==> |r.value| <= 4
  {
    match parse(Upper(e.sql))
    case Some(PlainSelect(_, Some(limit), orderBy)) =>
      var value :- RowCountAdvice(limit);
      Success(OffsetAdvice(limit) + value + OrderByAdvice(Some(limit), orderBy) + HardcodedAdvice(limit))
    case _ => Success([])
  }

  /** `supports`: every dialect. */
  predicate Supports(d: DatabaseType) {
    true
  }

  // ---------------------------------------------------------------------------
  // Properties
  // ---------------------------------------------------------------------------

  /** The advisories come in rule order: offset, value, ORDER BY, hard-coded. */
  lemma GenerateOrder(e: SqlExplainResult, parse: Parser, where: Option<Expr>, limit: Limit, orderBy: Option<seq<Expr>>)
    requires parse(Upper(e.sql)) == Some(PlainSelect(where, Some(limit), orderBy))
    requires limit.rowCount.Some?
    ensures Generate(e, parse) == Success(OffsetAdvice(limit) + RowCountAdvice(limit).value
                                          + OrderByAdvice(Some(limit), orderBy) + HardcodedAdvice(limit))
  {
  }

  /** A row count is never both too large and exactly one, and 2..1000 gives nothing. */
  lemma MidRangeRowCountSilent(limit: Limit, n: int)
    requires limit.rowCount.Some? && LongOf(limit.rowCount.value) == Success(n) && 2 <= n <= LARGE_LIMIT
    ensures RowCountAdvice(limit) == Success([])
  {
  }

  /** The hard-coded pattern is exactly: keyword, whitespace run, digit run. */
  lemma HardcodedShape(kw: string, spaces: string, digits: string)
    requires EqualsIgnoreCase(kw, "LIMIT")
    requires spaces != [] && forall k | 0 <= k < |spaces| :: IsSpace(spaces[k])
    requires digits != [] && AllDigits(digits)
    ensures Hardcoded(kw + spaces + digits)
  {
    var s := kw + spaces + digits;
    assert s[..5] == kw;
    assert s[5..] == spaces + digits;
    SpacesThenDigits(spaces, digits);
    assert s[5 + |spaces|..] == digits;
  }

  lemma {:induction false} SpacesThenDigits(spaces: string, digits: string)
    requires forall k | 0 <= k < |spaces| :: IsSpace(spaces[k])
    requires digits != [] && AllDigits(digits)
    ensures LeadingSpaces(spaces + digits) == |spaces|
  {
    if spaces != [] {
      assert (spaces + digits)[1..] == spaces[1..] + digits;
      SpacesThenDigits(spaces[1..], digits);
    } else {
      assert spaces + digits == digits;
      assert !IsSpace(digits[0]);
    }
  }

  /** Every text the pattern accepts has that shape. */
  lemma HardcodedOnlyShape(s: string)
    requires Hardcoded(s)
    ensures exists n :: (5 < n < |s| && EqualsIgnoreCase(s[..5], "LIMIT")
                        && (forall k | 5 <= k < n :: IsSpace(s[k])) && AllDigits(s[n..]) && s[n..] != [])
  {
    var n := 5 + LeadingSpaces(s[5..]);
    assert forall k | 5 <= k < n :: IsSpace(s[k]) by {
      forall k | 5 <= k < n ensures IsSpace(s[k]) {
        assert s[k] == s[5..][k - 5];
      }
    }
  }

  /** A rendering that starts with a space (JSqlParser renders the clause with
      a leading blank) never matches, so the advisory never fires for it. */
  lemma LeadingBlankNeverHardcoded(s: string)
    requires s != [] && s[0] == ' '
    ensures !Hardcoded(s)
  {
    assert |s| > 5 ==> UpperChar(s[..5][0]) != UpperChar("LIMIT"[0]);
  }
}

=== FILE: mysql_rules.dfy ===
/** `MySqlAdviceGenerator`: per-row rules over the rows of MySQL `EXPLAIN`. */
module MySqlRules {
  import opened Wrappers
  import opened Errors
  import opened Strings
  import opened Values
  import opened Advisories
  import opened Dialects
  import opened ExplainResults
  import opened Sequences

  const SELECTIVITY_FILTERED: real := 50.0
  const SELECTIVITY_ROWS: int := 1000
  const LARGE_JOIN_ROWS: int := 100000

  /** `String.valueOf(row.get(k))`. */
  function Cell(row: Row, k: string): string {
    Text(Get(row, k))
  }

  /** The access-type rules. They form an `else if` chain, so at most one fires. */
  function ScanAdvice(row: Row): (r: seq<Advice>)
    ensures |r| <= 1
    ensures r == [MyFullTableScan(Cell(row, "table"))] <==>
      EqualsIgnoreCase("ALL", Cell(row, "type")) && Cell(row, "key") == "null"
    ensures r == [MyFullIndexScan(Cell(row, "key"))] <==>
      EqualsIgnoreCase("index", Cell(row, "type"))
    ensures r == [MyNoIndexUsed(Cell(row, "table"))] <==>
      EqualsIgnoreCase("ref", Cell(row, "type")) && Cell(row, "key") == "null"
    ensures r == [] <==>
      !(EqualsIgnoreCase("ALL", Cell(row, "type")) && Cell(row, "key") == "null")
      && !EqualsIgnoreCase("index", Cell(row, "type"))
      && !(EqualsIgnoreCase("ref", Cell(row, "type")) && Cell(row, "key") == "null")
  {
    var ty := Cell(row, "type");
    var key := Cell(row, "key");
    IgnoreCaseExclusive("ALL", "ref", 0, ty);
    IgnoreCaseExclusive("ALL", "index", 0, ty);
    IgnoreCaseExclusive("index", "ref", 0, ty);
    if EqualsIgnoreCase("ALL", ty) && key == "null" then [MyFullTableScan(Cell(row, "table"))]
    else if EqualsIgnoreCase("index", ty) then [MyFullIndexScan(key)]
    else if EqualsIgnoreCase("ref", ty) && key == "null" then [MyNoIndexUsed(Cell(row, "table"))]
    else []
  }

  /** The two `Extra` rules: exact string equality, and only for a non-null value. */
  function ExtraAdvice(row: Row): (r: seq<Advice>)
    ensures MyTemporaryTable in r <==> Get(row, "Extra") != Null && Cell(row, "Extra") == "Using temporary"
    ensures MyFilesort in r <==> Get(row, "Extra") != Null && Cell(row, "Extra") == "Using filesort"
    ensures |r| <= 1
    ensures forall a | a in r :: a == MyTemporaryTable || a == MyFilesort
  {
    var extra := Get(row, "Extra");
    if extra == Null then []
    else
      (if Text(extra) == "Using temporary" then [MyTemporaryTable] else [])
      + (if Text(extra) == "Using filesort" then [MyFilesort] else [])
  }

  /** Four independent access-type tests (index merge, range, dependent or
      uncacheable subquery, derived table). */
  function KindAdvice(row: Row): (r: seq<Advice>)
    ensures MyIndexMerge(Cell(row, "table")) in r <==> EqualsIgnoreCase("index_merge", Cell(row, "type"))
    ensures MyRangeScan(Cell(row, "key")) in r <==> EqualsIgnoreCase("range", Cell(row, "type"))
    ensures MyDependentSubquery in r <==>
      EqualsIgnoreCase("DEPENDENT SUBQUERY", Cell(row, "type")) || EqualsIgnoreCase("UNCACHEABLE SUBQUERY", Cell(row, "type"))
    ensures MyDerivedTable in r <==> EqualsIgnoreCase("DERIVED", Cell(row, "type"))
    ensures |r| <= 1
    ensures forall a | a in r :: a.MyIndexMerge? || a.MyRangeScan? || a == MyDependentSubquery || a == MyDerivedTable
  {
    KindOf(Cell(row, "type"), Cell(row, "table"), Cell(row, "key"))
  }

  /** The access-type tests on the cells already printed. */
  function KindOf(ty: string, table: string, key: string): (r: seq<Advice>)
    ensures MyIndexMerge(table) in r <==> EqualsIgnoreCase("index_merge", ty)
    ensures MyRangeScan(key) in r <==> EqualsIgnoreCase("range", ty)
    ensures MyDependentSubquery in r <==>
      EqualsIgnoreCase("DEPENDENT SUBQUERY", ty) || EqualsIgnoreCase("UNCACHEABLE SUBQUERY", ty)
    ensures MyDerivedTable in r <==> EqualsIgnoreCase("DERIVED", ty)
    ensures |r| <= 1
    ensures forall a | a in r :: a.MyIndexMerge? || a.MyRangeScan? || a == MyDependentSubquery || a == MyDerivedTable
  {
    IgnoreCaseExclusive("DEPENDENT SUBQUERY", "UNCACHEABLE SUBQUERY", 0, ty);
    IgnoreCaseExclusive("index_merge", "range", 0, ty);
    (if EqualsIgnoreCase("index_merge", ty) then [MyIndexMerge(table)] else [])
    + (if EqualsIgnoreCase("range", ty) then [MyRangeScan(key)] else [])
    + (if EqualsIgnoreCase("DEPENDENT SUBQUERY", ty) || EqualsIgnoreCase("UNCACHEABLE SUBQUERY", ty)
       then [MyDependentSubquery] else [])
    + (if EqualsIgnoreCase("DERIVED", ty) then [MyDerivedTable] else [])
  }

  /** Index selectivity: both `rows` and `filtered` present (even if null), both
      parsed (a parse failure throws), and the thresholds exceeded. */
  function SelectivityAdvice(row: Row): (r: Result<seq<Advice>, Error>)
    ensures !(Has(row, "rows") && Has(row, "filtered")) ==> r == Success([])
    ensures r.Failure? <==>
      (Has(row, "rows") && Has(row, "filtered")
       && (LongOf(Cell(row, "rows")).Failure? || DoubleOf(Cell(row, "filtered")).Failure?))
    ensures r.Success? && r.value != [] <==>
      (Has(row, "rows") && Has(row, "filtered")
       && LongOf(Cell(row, "rows")).Success? && DoubleOf(Cell(row, "filtered")).Success?
       && DoubleOf(Cell(row, "filtered")).value > SELECTIVITY_FILTERED
       && LongOf(Cell(row, "rows")).value > SELECTIVITY_ROWS)
    ensures r.Success? && r.value != [] ==>
      r.value == [MyLowSelectivity(Cell(row, "key"), DoubleOf(Cell(row, "filtered")).value)]
    ensures r.Success? ==> forall a | a in r.value :: a.MyLowSelectivity?
  {
    if Has(row, "rows") && Has(row, "filtered") then
      var rows :- LongOf(Cell(row, "rows"));
      var filtered :- DoubleOf(Cell(row, "filtered"));
      if filtered > SELECTIVITY_FILTERED && rows > SELECTIVITY_ROWS
      then Success([MyLowSelectivity(Cell(row, "key"), filtered)])
      else Success([])
    else Success([])
  }

  /** Large join: `join_type` and `rows` present and rows above 100000. */
  function LargeJoinAdvice(row: Row): (r: Result<seq<Advice>, Error>)
    ensures !(Has(row, "join_type") && Has(row, "rows")) ==> r == Success([])
    ensures r.Failure? <==> (Has(row, "join_type") && Has(row, "rows") && LongOf(Cell(row, "rows")).Failure?)
    ensures r.Success? && r.value != [] <==>
      (Has(row, "join_type") && Has(row, "rows") && LongOf(Cell(row, "rows")).Success?
       && LongOf(Cell(row, "rows")).value > LARGE_JOIN_ROWS)
    ensures r.Success? && r.value != [] ==> r.value == [MyLargeJoin(LongOf(Cell(row, "rows")).value)]
    ensures r.Success? ==> forall a | a in r.value :: a.MyLargeJoin?
  {
    if Has(row, "join_type") && Has(row, "rows") then
      var n :- LongOf(Cell(row, "rows"));
      if n > LARGE_JOIN_ROWS then Success([MyLargeJoin(n)]) else Success([])
    else Success([])
  }

  /** Index condition pushdown without a covering index (exact equality again). */
  function CoveringAdvice(row: Row): (r: seq<Advice>)
    ensures r == [MyNoCoveringIndex] <==> Cell(row, "Extra") == "Using index condition"
    ensures r == [] <==> Cell(row, "Extra") != "Using index condition"
  {
    if Cell(row, "Extra") == "Using index condition" then [MyNoCoveringIndex] else []
  }

  /** All the rules for one row, in source order; a parse failure in either
      numeric rule makes the whole row, and so the whole generation, throw. */
  function RowAdvice(row: Row): (r: Result<seq<Advice>, Error>)
    ensures r.Failure? <==> SelectivityAdvice(row).Failure? || LargeJoinAdvice(row).Failure?
    ensures r.Success? ==>
      r.value == ScanAdvice(row) + ExtraAdvice(row) + KindAdvice(row)
                 + SelectivityAdvice(row).value + LargeJoinAdvice(row).value + CoveringAdvice(row)
  {
    var selectivity :- SelectivityAdvice(row);
    var join :- LargeJoinAdvice(row);
    Success(ScanAdvice(row) + ExtraAdvice(row) + KindAdvice(row) + selectivity + join + CoveringAdvice(row))
  }

  /** `generateAdvice`: the rows' advice concatenated in row order. */
  function Generate(e: SqlExplainResult): (r: Result<seq<Advice>, Error>)
    ensures r.Success? <==> forall i :: 0 <= i < |e.rows| ==> RowAdvice(e.rows[i]).Success?
  {
    ConcatResult(e.rows, RowAdvice)
  }

  /** `supports`: MySQL only. */
  predicate Supports(d: DatabaseType) {
    d == MySql
  }

  // ---------------------------------------------------------------------------
  // Properties
  // ---------------------------------------------------------------------------

  /** An absent `key` and a null `key` both print as "null", so both count as
      "no index" for the full-table-scan rule. */
  lemma AbsentKeyIsNull(row: Row)
    requires !Has(row, "key") || Get(row, "key") == Null
    ensures Cell(row, "key") == "null"
  {
  }

  /** The row `{type: ALL, key: null, table: t}` yields exactly one advisory. */
  lemma FullScanRowExample(t: string)
    ensures RowAdvice([Field("type", Str("ALL")), Field("key", Null), Field("table", Str(t))])
      == Success([MyFullTableScan(t)])
  {
    var row := [Field("type", Str("ALL")), Field("key", Null), Field("table", Str(t))];
    ExampleRowCells(t);
    OnlyFullScan(row);
  }

  /** A row of type ALL with no key and none of the other columns yields only
      the full-table-scan advisory. */
  lemma OnlyFullScan(row: Row)
    requires Cell(row, "type") == "ALL" && Cell(row, "key") == "null"
    requires Get(row, "Extra") == Null && Cell(row, "Extra") == "null"
    requires !Has(row, "rows") && !Has(row, "join_type")
    ensures RowAdvice(row) == Success([MyFullTableScan(Cell(row, "table"))])
  {
    var a := MyFullTableScan(Cell(row, "table"));
    assert ScanAdvice(row) == [a];
    assert ExtraAdvice(row) == [];
    assert KindAdvice(row) == [] by {
      var ty := Cell(row, "type");
      assert |ty| == 3;
    }
    assert SelectivityAdvice(row) == Success([]);
    assert LargeJoinAdvice(row) == Success([]);
    assert CoveringAdvice(row) == [];
    assert [a] + [] + [] + [] + [] + [] == [a];
  }

  lemma ExampleRowCells(t: string)
    ensures var row := [Field("type", Str("ALL")), Field("key", Null), Field("table", Str(t))];
      Keys(row) == ["type", "key", "table"]
      && Cell(row, "type") == "ALL" && Cell(row, "key") == "null" && Cell(row, "table") == t
      && Get(row, "Extra") == Null && Cell(row, "Extra") == "null"
      && !Has(row, "Extra") && !Has(row, "rows") && !Has(row, "join_type")
  {
    var row := [Field("type", Str("ALL")), Field("key", Null), Field("table", Str(t))];
    assert Keys(row) == ["type", "key", "table"];
    ExampleKeysAbsent(Keys(row));
  }

  /** The example row has none of the keys the other rules look for. */
  lemma ExampleKeysAbsent(keys: seq<string>)
    requires keys == ["type", "key", "table"]
    ensures "Extra" !in keys && "rows" !in keys && "join_type" !in keys
  {
    assert "Extra" != "table" by { assert "Extra"[0] != "table"[0]; }
    assert "rows" != "type" by { assert "rows"[0] != "type"[0]; }
  }

  /** The `Extra` rules test equality, not containment: MySQL's combined
      "Using temporary; Using filesort" triggers neither of them. */
  lemma CombinedExtraIgnored(row: Row)
    requires Get(row, "Extra") == Str("Using temporary; Using filesort")
    ensures ExtraAdvice(row) == []
  {
  }

  /** Advice follows row order: the rows of a concatenated plan yield the
      concatenated advice, and a throwing row hides everything after it. */
  lemma GenerateAppend(e: SqlExplainResult, more: seq<Row>)
    ensures Generate(e).Failure? ==> Generate(e.(rows := e.rows + more)) == Generate(e)
    ensures Generate(e).Success? && ConcatResult(more, RowAdvice).Success? ==>
      Generate(e.(rows := e.rows + more)) == Success(Generate(e).value + ConcatResult(more, RowAdvice).value)
  {
    ConcatResultAppend(e.rows, more, RowAdvice);
  }

  /** Within one row, the full-table-scan advisory comes only from the scan rules. */
  lemma RowFullTableScan(row: Row, t: string)
    requires RowAdvice(row).Success?
    ensures MyFullTableScan(t) in RowAdvice(row).value <==>
      EqualsIgnoreCase("ALL", Cell(row, "type")) && Cell(row, "key") == "null" && Cell(row, "table") == t
  {
    var a := MyFullTableScan(t);
    assert a !in ExtraAdvice(row);
    assert a !in KindAdvice(row);
    assert a !in SelectivityAdvice(row).value;
    assert a !in LargeJoinAdvice(row).value;
    assert a !in CoveringAdvice(row);
    var s := ScanAdvice(row);
    assert a in s <==> s == [a];
  }

  /** A full-table-scan advisory names a table whose row really is an
      un-indexed ALL scan, and every such row is reported. */
  lemma FullTableScanReported(e: SqlExplainResult, t: string)
    requires Generate(e).Success?
    ensures MyFullTableScan(t) in Generate(e).value <==>
      exists i :: 0 <= i < |e.rows| && EqualsIgnoreCase("ALL", Cell(e.rows[i], "type"))
        && Cell(e.rows[i], "key") == "null" && Cell(e.rows[i], "table") == t
  {
    ConcatResultMember(e.rows, RowAdvice, MyFullTableScan(t));
    forall i | 0 <= i < |e.rows|
      ensures MyFullTableScan(t) in RowAdvice(e.rows[i]).value <==>
        EqualsIgnoreCase("ALL", Cell(e.rows[i], "type")) && Cell(e.rows[i], "key") == "null"
        && Cell(e.rows[i], "table") == t
    {
      RowFullTableScan(e.rows[i], t);
    }
  }
}

=== FILE: parameter_wrapper.dfy ===
/** `ParameterWrapper.wrap`: a statement parameter flattened into one
    insertion-ordered map of named values, as the MySQL plan acquirer binds them. */
module ParameterWrapper {
  import opened Wrappers
  import opened Strings
  import opened Values
  import Sequences

  const COLLECTION_KEY: string := "collection"
  const LIST_KEY: string := "list"
  const ITEM_PREFIX: string := "__frch_item_"
  const PARAM_KEY: string := "param"
  const CLASS_PROPERTY: string := "class"

  /** `isComplexType`: not null, not a primitive wrapper, not a String, not a
      Collection and not a Map. */
  predicate IsComplex(v: Value) {
    v.Arr? || v.Bean? || v.Enum? || v.Uuid?
  }

  /** A property the wrapper copies: it has a read method and is not `class`. */
  predicate Readable(p: Prop) {
    p.reader.Some? && p.name != CLASS_PROPERTY
  }

  /** The key a property is bound under: its name at the top level, or
      `prefix.name` inside an expanded value. */
  function PropKey(prefix: Option<string>, name: string): string {
    match prefix
    case None => name
    case Some(p) => p + "." + name
  }

  function ItemKey(i: nat): string {
    ITEM_PREFIX + NatText(i)
  }

  /** `put(key, v)` followed, for a complex `v`, by the expansion of its properties. */
  function PutValue(m: Row, key: string, v: Value): (r: Row)
    decreases v, 2
  {
    var m1 := Put(m, key, v);
    if IsComplex(v) then ExpandValue(m1, key, v) else m1
  }

  /** `expandObjectProperties(m, key, v)`. Only beans carry properties here;
      the JDK-defined properties of arrays, enums and UUIDs are not modelled. */
  function ExpandValue(m: Row, key: string, v: Value): (r: Row)
    decreases v, 1
  {
    match v
    case Bean(_, props) => PutProps(m, Some(key), props)
    case _ => m
  }

  /** The loop over the property descriptors, skipping the unreadable ones and `class`. */
  function PutProps(m: Row, prefix: Option<string>, props: seq<Prop>): (r: Row)
    decreases props, 0
  {
    if props == [] then m
    else
      var p := props[0];
      var m1 := if Readable(p) then PutValue(m, PropKey(prefix, p.name), p.value) else m;
      PutProps(m1, prefix, props[1..])
  }

  /** The loop of `handleCollection` over the items, numbered from `start`. */
  function PutItems(m: Row, items: seq<Value>, start: nat): (r: Row)
    decreases |items|
  {
    if items == [] then m
    else PutItems(PutValue(m, ItemKey(start), items[0]), items[1..], start + 1)
  }

  /** `handleCollection`: the collection object `whole` under two names, then
      each of its `items` in iteration order. An array is first viewed as a
      list (`Arrays.asList`); any other collection is stored as it is. */
  function WrapCollection(whole: Value, items: seq<Value>): (r: Row)
  {
    var m := Put(Put([], COLLECTION_KEY, whole), LIST_KEY, whole);
    PutItems(m, items, 0)
  }

  /** `wrap(parameter)`. Any parameter that is not null, a collection, an array
      or a map is handled as a bean; scalars contribute only `param`, their
      JDK-defined properties are not modelled. */
  function Wrap(param: Value): (r: Row)
    ensures param == Null ==> r == []
    ensures param.Obj? ==> r == param.fields
    ensures param.List? || param.Arr? || param.Coll? ==> |Keys(r)| >= 2 && Keys(r)[..2] == [COLLECTION_KEY, LIST_KEY]
    ensures !param.Obj? && param != Null ==> r != []
  {
    if param == Null then []
    else if IsCollection(param) then
      var whole := AsCollection(param);
      CollectionHead(whole, Members(whole));
      WrapCollection(whole, Members(whole))
    else if param.Obj? then param.fields
    else if param.Bean? then BeanNonEmpty(param, param.props); PutProps(Put([], PARAM_KEY, param), None, param.props)
    else Put([], PARAM_KEY, param)
  }

  /** `parameter instanceof Collection || parameter.getClass().isArray()`. */
  predicate IsCollection(v: Value) {
    v.List? || v.Coll? || v.Arr?
  }

  /** `convertToCollection`: an array becomes the list of its elements; a
      collection stays itself. */
  function AsCollection(v: Value): (r: Value)
    requires IsCollection(v)
    ensures r.List? || r.Coll?
  {
    if v.Arr? then List(v.elems) else v
  }

  /** The items of a collection, in iteration order. */
  function Members(c: Value): seq<Value>
    requires c.List? || c.Coll?
  {
    if c.List? then c.items else c.members
  }

  /** `collection` and `list` lead the keys of a wrapped collection. */
  lemma CollectionHead(whole: Value, items: seq<Value>)
    ensures |Keys(WrapCollection(whole, items))| >= 2
    ensures Keys(WrapCollection(whole, items))[..2] == [COLLECTION_KEY, LIST_KEY]
  {
    var m := Put(Put([], COLLECTION_KEY, whole), LIST_KEY, whole);
    TwoNames(whole);
    KeysGrowItems(m, items, 0);
  }

  lemma BeanNonEmpty(param: Value, props: seq<Prop>)
    ensures PutProps(Put([], PARAM_KEY, param), None, props) != []
  {
    var m := Put([], PARAM_KEY, param);
    assert Keys(m) == [PARAM_KEY];
    KeysGrowProps(m, None, props);
  }

  // ---------------------------------------------------------------------------
  // Insertion order: existing keys keep their place
  // ---------------------------------------------------------------------------

  lemma PutKeepsKeys(m: Row, k: string, v: Value)
    ensures Keys(m) <= Keys(Put(m, k, v))
  {
  }

  lemma {:induction false} KeysGrowValue(m: Row, key: string, v: Value)
    ensures Keys(m) <= Keys(PutValue(m, key, v))
    decreases v, 2
  {
    PutKeepsKeys(m, key, v);
    if IsComplex(v) {
      KeysGrowExpand(Put(m, key, v), key, v);
    }
  }

  lemma {:induction false} KeysGrowExpand(m: Row, key: string, v: Value)
    ensures Keys(m) <= Keys(ExpandValue(m, key, v))
    decreases v, 1
  {
    if v.Bean? {
      KeysGrowProps(m, Some(key), v.props);
    }
  }

  lemma {:induction false} KeysGrowProps(m: Row, prefix: Option<string>, props: seq<Prop>)
    ensures Keys(m) <= Keys(PutProps(m, prefix, props))
    ensures Keys(PutProps(m, prefix, props)) != [] <== Keys(m) != []
    decreases props, 0
  {
    if props != [] {
      var p := props[0];
      var m1 := if Readable(p) then PutValue(m, PropKey(prefix, p.name), p.value) else m;
      if Readable(p) {
        KeysGrowValue(m, PropKey(prefix, p.name), p.value);
      }
      KeysGrowProps(m1, prefix, props[1..]);
    }
  }

  lemma {:induction false} KeysGrowItems(m: Row, items: seq<Value>, start: nat)
    ensures Keys(m) <= Keys(PutItems(m, items, start))
    decreases |items|
  {
    if items != [] {
      KeysGrowValue(m, ItemKey(start), items[0]);
      KeysGrowItems(PutValue(m, ItemKey(start), items[0]), items[1..], start + 1);
    }
  }

  // ---------------------------------------------------------------------------
  // Frame: what an expansion under a key leaves alone
  // ---------------------------------------------------------------------------

  lemma StartsWithAppend(k: string, a: string, b: string)
    ensures StartsWith(k, a + b) ==> StartsWith(k, a)
    ensures StartsWith(a + b, a)
  {
    if StartsWith(k, a + b) {
      assert k[..|a|] == (a + b)[..|a|] == a;
    }
    assert (a + b)[..|a|] == a;
  }

  /** A key no expansion under `key` can reach. */
  predicate Outside(k: string, key: string) {
    k != key && !StartsWith(k, key + ".")
  }

  lemma OutsideNested(k: string, key: string, name: string)
    requires !StartsWith(k, key + ".")
    ensures Outside(k, PropKey(Some(key), name))
  {
    StartsWithAppend(k, key + ".", name);
    StartsWithAppend(k, key + "." + name, ".");
    StartsWithAppend(key + "." + name, key + ".", name);
  }

  lemma {:induction false} PutValueFrame(m: Row, key: string, v: Value, k: string)
    requires Outside(k, key)
    ensures Get(PutValue(m, key, v), k) == Get(m, k)
    decreases v, 2
  {
    if IsComplex(v) {
      ExpandFrame(Put(m, key, v), key, v, k);
    }
  }

  lemma {:induction false} ExpandFrame(m: Row, key: string, v: Value, k: string)
    requires !StartsWith(k, key + ".")
    ensures Get(ExpandValue(m, key, v), k) == Get(m, k)
    decreases v, 1
  {
    if v.Bean? {
      forall j | 0 <= j < |v.props| && Readable(v.props[j])
        ensures Outside(k, PropKey(Some(key), v.props[j].name))
      {
        OutsideNested(k, key, v.props[j].name);
      }
      PropsFrame(m, Some(key), v.props, k);
    }
  }

  lemma {:induction false} PropsFrame(m: Row, prefix: Option<string>, props: seq<Prop>, k: string)
    requires forall j | 0 <= j < |props| && Readable(props[j]) :: Outside(k, PropKey(prefix, props[j].name))
    ensures Get(PutProps(m, prefix, props), k) == Get(m, k)
    decreases props, 0
  {
    if props != [] {
      var p := props[0];
      var m1 := if Readable(p) then PutValue(m, PropKey(prefix, p.name), p.value) else m;
      if Readable(p) {
        PutValueFrame(m, PropKey(prefix, p.name), p.value, k);
      }
      assert forall j | 0 <= j < |props[1..]| && Readable(props[1..][j]) :: Outside(k, PropKey(prefix, props[1..][j].name)) by {
        forall j | 0 <= j < |props[1..]| && Readable(props[1..][j]) ensures Outside(k, PropKey(prefix, props[1..][j].name)) {
          assert props[1..][j] == props[j + 1];
        }
      }
      PropsFrame(m1, prefix, props[1..], k);
    }
  }

  lemma {:induction false} ItemsFrame(m: Row, items: seq<Value>, start: nat, k: string)
    requires forall j | start <= j < start + |items| :: Outside(k, ItemKey(j))
    ensures Get(PutItems(m, items, start), k) == Get(m, k)
    decreases |items|
  {
    if items != [] {
      PutValueFrame(m, ItemKey(start), items[0], k);
      ItemsFrame(PutValue(m, ItemKey(start), items[0]), items[1..], start + 1, k);
    }
  }

  /** A value is bound under its own key, whatever its expansion adds. */
  lemma PutValueGet(m: Row, key: string, v: Value)
    ensures Get(PutValue(m, key, v), key) == v
  {
    if IsComplex(v) {
      assert !StartsWith(key, key + ".");
      ExpandFrame(Put(m, key, v), key, v, key);
    }
  }

  // ---------------------------------------------------------------------------
  // Item keys
  // ---------------------------------------------------------------------------

  /** Distinct items get keys that neither coincide nor nest. */
  lemma ItemKeysApart(i: nat, j: nat)
    requires i != j
    ensures Outside(ItemKey(i), ItemKey(j))
  {
    var a := ItemKey(i);
    var b := ItemKey(j);
    if a == b {
      assert NatText(i) == a[|ITEM_PREFIX|..] == b[|ITEM_PREFIX|..] == NatText(j);
      IntTextInjective(i, j);
    }
    if |b| + 1 <= |a| {
      assert a[|b|] == NatText(i)[|b| - |ITEM_PREFIX|];
      assert IsDigit(a[|b|]);
      assert (b + ".")[|b|] == '.';
    }
  }

  lemma ItemKeyInjective(i: nat, j: nat)
    requires i != j
    ensures ItemKey(i) != ItemKey(j)
  {
    ItemKeysApart(i, j);
  }

  lemma ItemKeyOwnOutside(i: nat, k: string)
    requires |k| <= |ITEM_PREFIX|
    ensures Outside(k, ItemKey(i))
  {
  }

  /** Item `i` of the collection is bound under `__frch_item_i`. */
  lemma {:induction false} ItemsGet(m: Row, items: seq<Value>, start: nat, i: nat)
    requires start <= i < start + |items|
    ensures Get(PutItems(m, items, start), ItemKey(i)) == items[i - start]
    decreases |items|
  {
    var m1 := PutValue(m, ItemKey(start), items[0]);
    if i == start {
      PutValueGet(m, ItemKey(start), items[0]);
      forall j | start + 1 <= j < start + 1 + |items[1..]| ensures Outside(ItemKey(i), ItemKey(j)) {
        ItemKeysApart(i, j);
      }
      ItemsFrame(m1, items[1..], start + 1, ItemKey(i));
    } else {
      ItemsGet(m1, items[1..], start + 1, i);
    }
  }

  // ---------------------------------------------------------------------------
  // Properties of wrap
  // ---------------------------------------------------------------------------

  /** A collection of n items binds `collection` and `list` to the collection
      itself and `__frch_item_i` to item i, for every i < n. */
  lemma CollectionBindings(whole: Value, items: seq<Value>, i: nat)
    ensures Get(WrapCollection(whole, items), COLLECTION_KEY) == whole
    ensures Get(WrapCollection(whole, items), LIST_KEY) == whole
    ensures i < |items| ==> Get(WrapCollection(whole, items), ItemKey(i)) == items[i]
  {
    var m0 := Put([], COLLECTION_KEY, whole);
    var m := Put(m0, LIST_KEY, whole);
    assert WrapCollection(whole, items) == PutItems(m, items, 0);
    assert Get(m, LIST_KEY) == whole;
    assert Get(m, COLLECTION_KEY) == Get(m0, COLLECTION_KEY) == whole by {
      assert COLLECTION_KEY != LIST_KEY;
    }
    forall j | 0 <= j < |items| ensures Outside(COLLECTION_KEY, ItemKey(j)) && Outside(LIST_KEY, ItemKey(j)) {
      ItemKeyOwnOutside(j, COLLECTION_KEY);
      ItemKeyOwnOutside(j, LIST_KEY);
    }
    ItemsFrame(m, items, 0, COLLECTION_KEY);
    ItemsFrame(m, items, 0, LIST_KEY);
    if i < |items| {
      ItemsGet(m, items, 0, i);
    }
  }

  /** `wrap` treats an array exactly as the list of its elements. */
  lemma ArrayWrapsAsList(elems: seq<Value>)
    ensures Wrap(Arr(elems)) == Wrap(List(elems)) == WrapCollection(List(elems), elems)
  {
    WrapArr(elems);
    WrapList(elems);
  }

  lemma WrapArr(elems: seq<Value>)
    ensures Wrap(Arr(elems)) == WrapCollection(List(elems), elems)
  {
  }

  lemma WrapList(items: seq<Value>)
    ensures Wrap(List(items)) == WrapCollection(List(items), items)
  {
  }

  lemma WrapColl(members: seq<Value>)
    ensures Wrap(Coll(members)) == WrapCollection(Coll(members), members)
  {
  }

  /** A collection that is not a list (a set, say) is bound itself, not as a
      list, while its items are numbered in iteration order as for a list. */
  lemma SetBindsItself(members: seq<Value>, i: nat)
    ensures Get(Wrap(Coll(members)), COLLECTION_KEY) == Coll(members)
    ensures Get(Wrap(Coll(members)), LIST_KEY) == Coll(members)
    ensures i < |members| ==> Get(Wrap(Coll(members)), ItemKey(i)) == members[i]
  {
    WrapColl(members);
    CollectionBindings(Coll(members), members, i);
  }

  /** The item keys `__frch_item_start` .. `__frch_item_(start + n - 1)`, in order. */
  function ItemKeys(start: nat, n: nat): (r: seq<string>)
    ensures |r| == n
    decreases n
  {
    if n == 0 then [] else [ItemKey(start)] + ItemKeys(start + 1, n - 1)
  }

  /** With only scalar items, the keys are exactly `collection`, `list` and
      the item keys in collection order. */
  lemma {:induction false} ScalarItemsKeys(m: Row, items: seq<Value>, start: nat)
    requires AllScalar(items)
    requires FreshItems(m, start, |items|)
    ensures Keys(PutItems(m, items, start)) == Keys(m) + ItemKeys(start, |items|)
    decreases |items|
  {
    if items == [] {
      assert Keys(m) + [] == Keys(m);
    } else {
      var m1 := ScalarStep(m, items, start);
      var tail := PutItems(m1, items[1..], start + 1);
      ScalarItemsKeys(m1, items[1..], start + 1);
      var n := |items[1..]|;
      ScalarItemsJoin(Keys(m), Keys(m1), Keys(tail), start, n);
      assert |items| == n + 1;
    }
  }

  /** The inductive step of `ScalarItemsKeys`: the first key, then the rest. */
  lemma ScalarItemsJoin(keys: seq<string>, keys1: seq<string>, tail: seq<string>, start: nat, n: nat)
    requires keys1 == keys + [ItemKey(start)]
    requires tail == keys1 + ItemKeys(start + 1, n)
    ensures tail == keys + ItemKeys(start, n + 1)
  {
    var key := ItemKey(start);
    var rest := ItemKeys(start + 1, n);
    assert ItemKeys(start, n + 1) == [key] + rest;
    Sequences.Assoc(keys, [key], rest);
  }

  predicate AllScalar(items: seq<Value>) {
    forall j | 0 <= j < |items| :: !IsComplex(items[j])
  }

  /** One scalar item appends exactly its key. */
  lemma ScalarStep(m: Row, items: seq<Value>, start: nat) returns (m1: Row)
    requires items != [] && AllScalar(items) && FreshItems(m, start, |items|)
    ensures PutItems(m, items, start) == PutItems(m1, items[1..], start + 1)
    ensures Keys(m1) == Keys(m) + [ItemKey(start)]
    ensures AllScalar(items[1..]) && FreshItems(m1, start + 1, |items[1..]|)
  {
    m1 := Put(m, ItemKey(start), items[0]);
    assert !IsComplex(items[0]);
    assert !Has(m, ItemKey(start));
    forall j | start + 1 <= j < start + |items| ensures ItemKey(j) !in Keys(m1) {
      ItemKeyInjective(j, start);
      assert ItemKey(j) !in Keys(m);
    }
    assert forall j | 0 <= j < |items[1..]| :: !IsComplex(items[1..][j]) by {
      forall j | 0 <= j < |items[1..]| ensures !IsComplex(items[1..][j]) {
        assert items[1..][j] == items[j + 1];
      }
    }
  }

  lemma {:induction false} ItemKeysAt(start: nat, n: nat, i: nat)
    requires i < n
    ensures ItemKeys(start, n)[i] == ItemKey(start + i)
    decreases n
  {
    if i > 0 {
      ItemKeysAt(start + 1, n - 1, i - 1);
    }
  }

  /** None of the next `n` item keys is bound yet. */
  predicate FreshItems(m: Row, start: nat, n: nat) {
    forall j | start <= j < start + n :: ItemKey(j) !in Keys(m)
  }

  lemma TwoNames(whole: Value)
    ensures Keys(Put(Put([], COLLECTION_KEY, whole), LIST_KEY, whole)) == [COLLECTION_KEY, LIST_KEY]
  {
    var m0 := Put([], COLLECTION_KEY, whole);
    assert Keys(m0) == [COLLECTION_KEY];
    assert LIST_KEY !in Keys(m0);
  }

  lemma ScalarCollectionKeys(whole: Value, items: seq<Value>)
    requires AllScalar(items)
    ensures Keys(WrapCollection(whole, items)) == [COLLECTION_KEY, LIST_KEY] + ItemKeys(0, |items|)
  {
    var m := Put(Put([], COLLECTION_KEY, whole), LIST_KEY, whole);
    TwoNames(whole);
    CollectionNamesFresh(m, items);
    ScalarItemsKeys(m, items, 0);
  }

  lemma CollectionNamesFresh(m: Row, items: seq<Value>)
    requires Keys(m) == [COLLECTION_KEY, LIST_KEY]
    ensures FreshItems(m, 0, |items|)
  {
    forall j | 0 <= j < |items| ensures ItemKey(j) !in Keys(m) {
      ItemKeyOwnOutside(j, COLLECTION_KEY);
      ItemKeyOwnOutside(j, LIST_KEY);
    }
  }

  /** Java property names: distinct, and never containing a dot. */
  predicate PlainNames(props: seq<Prop>) {
    && (forall i, j | 0 <= i < j < |props| :: props[i].name != props[j].name)
    && (forall i | 0 <= i < |props| :: '.' !in props[i].name)
  }

  lemma NoDotNotNested(s: string, n: string)
    requires '.' !in s
    ensures !StartsWith(s, n + ".")
  {
    if |n| + 1 <= |s| {
      assert (n + ".")[|n|] == '.';
      assert s[..|n| + 1][|n|] == s[|n|];
    }
  }

  /** Sibling properties get keys that neither coincide nor nest. */
  lemma OutsideSibling(prefix: Option<string>, a: string, b: string)
    requires a != b && '.' !in a
    ensures Outside(PropKey(prefix, a), PropKey(prefix, b))
  {
    NoDotNotNested(a, b);
    if prefix.Some? {
      var pre := prefix.value + ".";
      var ka := pre + a;
      var kb := pre + b;
      assert ka[|pre|..] == a && kb[|pre|..] == b;
      assert kb + "." == pre + (b + ".");
      if |kb| + 1 <= |ka| {
        assert ka[..|kb| + 1] == pre + a[..|b| + 1];
      }
    }
  }

  /** Every readable property is bound under its key, at any depth: `name` at
      the top level, `prefix.name` inside an expanded value. */
  lemma {:induction false} PropsBind(m: Row, prefix: Option<string>, props: seq<Prop>, i: nat)
    requires PlainNames(props) && i < |props| && Readable(props[i])
    ensures Get(PutProps(m, prefix, props), PropKey(prefix, props[i].name)) == props[i].value
    decreases |props|
  {
    var p := props[0];
    var m1 := if Readable(p) then PutValue(m, PropKey(prefix, p.name), p.value) else m;
    assert PlainNames(props[1..]) by {
      forall a, b | 0 <= a < b < |props[1..]| ensures props[1..][a].name != props[1..][b].name {
        assert props[1..][a] == props[a + 1] && props[1..][b] == props[b + 1];
      }
    }
    if i == 0 {
      PutValueGet(m, PropKey(prefix, p.name), p.value);
      var k := PropKey(prefix, p.name);
      forall j | 0 <= j < |props[1..]| && Readable(props[1..][j]) ensures Outside(k, PropKey(prefix, props[1..][j].name)) {
        assert props[1..][j] == props[j + 1];
        OutsideSibling(prefix, p.name, props[j + 1].name);
      }
      PropsFrame(m1, prefix, props[1..], k);
    } else {
      assert props[1..][i - 1] == props[i];
      PropsBind(m1, prefix, props[1..], i - 1);
    }
  }

  /** A bean binds every readable property other than `class` under its name. */
  lemma BeanBindsProperty(cls: string, props: seq<Prop>, i: nat)
    requires PlainNames(props) && i < |props| && Readable(props[i])
    ensures Get(Wrap(Bean(cls, props)), props[i].name) == props[i].value
  {
    PropsBind(Put([], PARAM_KEY, Bean(cls, props)), None, props, i);
  }

  /** A bean-valued entry is expanded: each of its readable properties `q` is
      also bound under `key.q`, next to the bean itself under `key`. */
  lemma BeanValueExpanded(m: Row, key: string, cls: string, props: seq<Prop>, i: nat)
    requires PlainNames(props) && i < |props| && Readable(props[i])
    ensures Get(PutValue(m, key, Bean(cls, props)), key) == Bean(cls, props)
    ensures Get(PutValue(m, key, Bean(cls, props)), key + "." + props[i].name) == props[i].value
  {
    var b := Bean(cls, props);
    var m1 := Put(m, key, b);
    var k := PropKey(Some(key), props[i].name);
    PutValueGet(m, key, b);
    assert PutValue(m, key, b) == ExpandValue(m1, key, b) == PutProps(m1, Some(key), props);
    PropsBind(m1, Some(key), props, i);
    assert k == key + "." + props[i].name;
  }

  /** A scalar entry is not expanded: it adds at most its own key. */
  lemma ScalarNotExpanded(m: Row, key: string, v: Value)
    requires !IsComplex(v)
    ensures PutValue(m, key, v) == Put(m, key, v)
  {
  }

  /** `param` is the bean itself, unless a readable property is named `param`;
      and `class` is never bound. */
  lemma BeanParamAndClass(cls: string, props: seq<Prop>)
    requires forall j | 0 <= j < |props| :: '.' !in props[j].name
    ensures (forall j | 0 <= j < |props| && Readable(props[j]) :: props[j].name != PARAM_KEY) ==>
      Get(Wrap(Bean(cls, props)), PARAM_KEY) == Bean(cls, props)
    ensures Get(Wrap(Bean(cls, props)), CLASS_PROPERTY) == Null
  {
    var m := Put([], PARAM_KEY, Bean(cls, props));
    assert Wrap(Bean(cls, props)) == PutProps(m, None, props);
    forall j | 0 <= j < |props| && Readable(props[j]) ensures Outside(CLASS_PROPERTY, PropKey(None, props[j].name)) {
      NoDotNotNested(CLASS_PROPERTY, props[j].name);
    }
    PropsFrame(m, None, props, CLASS_PROPERTY);
    if forall j | 0 <= j < |props| && Readable(props[j]) :: props[j].name != PARAM_KEY {
      forall j | 0 <= j < |props| && Readable(props[j]) ensures Outside(PARAM_KEY, PropKey(None, props[j].name)) {
        NoDotNotNested(PARAM_KEY, props[j].name);
      }
      PropsFrame(m, None, props, PARAM_KEY);
    }
  }

}

=== FILE: pg_binder.dfy ===
/** `PgParameterBinder`: how each parameter mapping of a statement is resolved
    against the parameter object and which JDBC setter binds it. The MyBatis
    `MetaObject` is seen through `Lookup`; the prepared statement through the
    returned list of bind actions. */
module PgBinder {
  import opened Wrappers
  import opened Errors
  import opened Strings
  import opened Values

  /** `java.sql.Types.OTHER`. */
  const TYPES_OTHER: int := 1111

  const PATH_DELIMS: set<char> := {'[', ']', '.'}
  const DOT: set<char> := {'.'}

  // ---------------------------------------------------------------------------
  // String.split over single-character delimiters
  // ---------------------------------------------------------------------------

  /** The pieces between delimiters, trailing empty pieces included. */
  function RawSplit(s: string, delims: set<char>): (r: seq<string>)
    ensures |r| >= 1
    ensures forall i | 0 <= i < |r| :: forall k | 0 <= k < |r[i]| :: r[i][k] !in delims
  {
    if s == [] then [[]]
    else
      var rest := RawSplit(s[1..], delims);
      if s[0] in delims then [[]] + rest
      else [[s[0]] + rest[0]] + rest[1..]
  }

  /** The pieces joined back with `c` in place of each delimiter. */
  function Join(parts: seq<string>, c: char): string
    requires |parts| >= 1
  {
    if |parts| == 1 then parts[0] else parts[0] + [c] + Join(parts[1..], c)
  }

  function DropTrailingEmpty(parts: seq<string>): (r: seq<string>)
    ensures r <= parts
    ensures r != [] ==> r[|r| - 1] != []
    ensures forall i | |r| <= i < |parts| :: parts[i] == []
  {
    if parts == [] || parts[|parts| - 1] != [] then parts
    else DropTrailingEmpty(parts[..|parts| - 1])
  }

  predicate HasDelim(s: string, delims: set<char>) {
    exists k | 0 <= k < |s| :: s[k] in delims
  }

  /** `String.split` with a regex that is an alternation of single characters:
      text without any delimiter comes back whole, otherwise the pieces
      without the trailing empty ones. */
  function Split(s: string, delims: set<char>): (r: seq<string>)
    ensures !HasDelim(s, delims) ==> r == [s]
    ensures HasDelim(s, delims) ==> r <= RawSplit(s, delims) && (r != [] ==> r[|r| - 1] != [])
    ensures HasDelim(s, delims) ==> forall i | |r| <= i < |RawSplit(s, delims)| :: RawSplit(s, delims)[i] == []
    ensures forall i | 0 <= i < |r| :: !HasDelim(r[i], delims)
  {
    if HasDelim(s, delims) then
      var r := DropTrailingEmpty(RawSplit(s, delims));
      assert forall i | 0 <= i < |r| :: r[i] == RawSplit(s, delims)[i];
      r
    else [s]
  }

  /** Splitting at a single delimiter and joining back loses nothing. */
  lemma {:induction false} SplitJoin(s: string, c: char)
    ensures Join(RawSplit(s, {c}), c) == s
  {
    if s != [] {
      SplitJoin(s[1..], c);
      var rest := RawSplit(s[1..], {c});
      if s[0] == c {
        assert RawSplit(s, {c}) == [[]] + rest;
        assert ([[]] + rest)[1..] == rest;
        assert s == [] + [c] + s[1..];
      } else {
        var parts := RawSplit(s, {c});
        assert parts == [[s[0]] + rest[0]] + rest[1..];
        if |rest| == 1 {
          assert s == [s[0]] + rest[0];
        } else {
          assert parts[1..] == rest[1..];
          assert Join(rest, c) == rest[0] + [c] + Join(rest[1..], c);
          assert s == [s[0]] + (rest[0] + [c] + Join(rest[1..], c));
        }
      }
    }
  }

  // ---------------------------------------------------------------------------
  // Property and element access
  // ---------------------------------------------------------------------------

  /** `MetaObject.getValue(name)` for a simple name (no `[` index, no `.`)
      on a non-null object, the name taken literally: a map
      answers `get(name)` (null when absent); a bean answers through its getter
      and throws without one; a collection throws (`CollectionWrapper.get`);
      any other object has no getter for the name. */
  function Lookup(v: Value, name: string): (r: Result<Value, Error>)
    ensures v.Obj? ==> r == Success(Get(v.fields, name))
    ensures v.List? || v.Coll? ==> r == Failure(UnsupportedOperation)
    ensures v.Bean? ==> (r.Success? <==> exists i | 0 <= i < |v.props| :: v.props[i].name == name && v.props[i].reader.Some?)
  {
    match v
    case Null => Success(Null)
    case Obj(fs) => Success(Get(fs, name))
    case Bean(_, props) => Getter(props, name)
    case List(_) => Failure(UnsupportedOperation)
    case Coll(_) => Failure(UnsupportedOperation)
    case _ => Failure(NoGetter(name))
  }

  /** The value of the first readable property called `name`. */
  function Getter(props: seq<Prop>, name: string): (r: Result<Value, Error>)
    ensures r.Success? <==> exists i | 0 <= i < |props| :: props[i].name == name && props[i].reader.Some?
    ensures r.Success? ==> exists i | 0 <= i < |props| :: props[i].name == name && props[i].value == r.value
    ensures r.Failure? ==> r.error == NoGetter(name)
  {
    if props == [] then Failure(NoGetter(name))
    else if props[0].name == name && props[0].reader.Some? then Success(props[0].value)
    else
      var r := Getter(props[1..], name);
      assert forall i | 0 <= i < |props[1..]| :: props[1..][i] == props[i + 1];
      r
  }

  /** `getCollectionElement`: a list or an array by position, a map by the
      boxed integer key (never equal to a string key, so always null); any
      other value cannot be indexed, a collection that is not a list included. */
  function ElementAt(v: Value, index: int): (r: Result<Value, Error>)
    ensures (v.List? || v.Arr?) ==> (r.Success? <==> 0 <= index < |if v.List? then v.items else v.elems|)
    ensures v.List? && 0 <= index < |v.items| ==> r == Success(v.items[index])
    ensures v.Arr? && 0 <= index < |v.elems| ==> r == Success(v.elems[index])
    ensures v.Obj? ==> r == Success(Null)
    ensures v.Coll? ==> r == Failure(UnsupportedCollection)
    ensures !(v.List? || v.Arr? || v.Obj? || v == Null) ==> r == Failure(UnsupportedCollection)
  {
    match v
    case List(xs) => if 0 <= index < |xs| then Success(xs[index]) else Failure(IndexOutOfBounds(index))
    case Arr(xs) => if 0 <= index < |xs| then Success(xs[index]) else Failure(IndexOutOfBounds(index))
    case Obj(_) => Success(Null)
    case Null => Failure(NullPointer("collection"))
    case _ => Failure(UnsupportedCollection)
  }

  // ---------------------------------------------------------------------------
  // Path resolution
  // ---------------------------------------------------------------------------

  /** One non-blank part of an indexed path: an all-digit part indexes
      (`Integer.parseInt` may overflow), any other part is looked up. */
  function Advance(cur: Value, part: string): (r: Result<Value, Error>)
  {
    if AllDigits(part) then
      match ParseInt(part)
      case None => Failure(NumberFormat(part))
      case Some(i) => ElementAt(cur, i)
    else Lookup(cur, part)
  }

  /** The loop of `resolveCollectionElement` over the parts after the first:
      stop at null, skip blank parts, advance over the others. */
  function WalkIndexed(cur: Value, parts: seq<string>): (r: Result<Value, Error>)
    ensures cur == Null ==> r == Success(Null)
    decreases |parts|
  {
    if parts == [] then Success(cur)
    else if cur == Null then Success(Null)
    else
      var part := Trim(parts[0]);
      if part == [] then WalkIndexed(cur, parts[1..])
      else
        match Advance(cur, part)
        case Failure(e) => Failure(e)
        case Success(next) => WalkIndexed(next, parts[1..])
  }

  /** The loop of `resolveNestedProperty`: stop at null, look up every part as it is. */
  function WalkNested(cur: Value, parts: seq<string>): (r: Result<Value, Error>)
    ensures cur == Null ==> r == Success(Null)
    ensures parts == [] ==> r == Success(cur)
    decreases |parts|
  {
    if parts == [] then Success(cur)
    else if cur == Null then Success(Null)
    else
      match Lookup(cur, parts[0])
      case Failure(e) => Failure(e)
      case Success(next) => WalkNested(next, parts[1..])
  }

  /** `metaObject.getValue(parts[0])`: the index is evaluated before the null
      receiver is dereferenced, so an empty split fails first. */
  function First(param: Value, parts: seq<string>): (r: Result<Value, Error>)
    ensures parts == [] ==> r == Failure(IndexOutOfBounds(0))
    ensures parts != [] && param == Null ==> r.Failure? && r.error.NullPointer?
    ensures parts != [] && param != Null ==> r == Lookup(param, parts[0])
  {
    if parts == [] then Failure(IndexOutOfBounds(0))
    else if param == Null then Failure(NullPointer("metaObject"))
    else Lookup(param, parts[0])
  }

  function ResolveIndexed(param: Value, property: string): (r: Result<Value, Error>)
  {
    var parts := Split(property, PATH_DELIMS);
    match First(param, parts)
    case Failure(e) => Failure(e)
    case Success(head) => WalkIndexed(head, parts[1..])
  }

  function ResolveNested(param: Value, property: string): (r: Result<Value, Error>)
  {
    var parts := Split(property, DOT);
    match First(param, parts)
    case Failure(e) => Failure(e)
    case Success(head) => WalkNested(head, parts[1..])
  }

  /** `resolveParameterValue`: the route is chosen on the path's text. `Null`
      stands for both a null parameter and its absent `MetaObject`. */
  function Resolve(param: Value, property: string): (r: Result<Value, Error>)
    ensures Contains(property, "[") && Contains(property, "]") ==> r == ResolveIndexed(param, property)
    ensures !(Contains(property, "[") && Contains(property, "]")) && Contains(property, ".") ==> r == ResolveNested(param, property)
    ensures !(Contains(property, "[") && Contains(property, "]")) && !Contains(property, ".") ==>
      r == (if param == Null then Success(Null) else Lookup(param, property))
  {
    if Contains(property, "[") && Contains(property, "]") then ResolveIndexed(param, property)
    else if Contains(property, ".") then ResolveNested(param, property)
    else if param == Null then Success(Null)
    else Lookup(param, property)
  }

  // ---------------------------------------------------------------------------
  // Binding
  // ---------------------------------------------------------------------------

  /** The JDBC call `setParameter` makes. */
  datatype Action =
    | SetNull(sqlType: int)
    | SetObjectAs(value: Value, sqlType: int)
    | SetString(text: string)
    | SetObject(value: Value)

  /** A parameter mapping: the property path and the declared JDBC type code,
      if any. */
  datatype Mapping = Mapping(property: string, jdbcType: Option<int>)

  datatype Binding = Binding(position: nat, action: Action)

  /** `setParameter(ps, index, value, jdbcType)`. */
  function SetParameter(v: Value, jdbcType: Option<int>): (r: Action)
    ensures v == Null ==> r == SetNull(jdbcType.GetOr(TYPES_OTHER))
    ensures v.Uuid? ==> r == SetObjectAs(v, TYPES_OTHER)
    ensures v.Enum? ==> r == SetString(v.name)
    ensures v != Null && !v.Uuid? && !v.Enum? ==> r == SetObject(v)
  {
    match v
    case Null => if jdbcType.None? then SetNull(TYPES_OTHER) else SetNull(jdbcType.value)
    case Uuid(_) => SetObjectAs(v, TYPES_OTHER)
    case Enum(n) => SetString(n)
    case _ => SetObject(v)
  }

  /** One iteration of `bindParameters`: resolve the path, then choose the setter. */
  function BindOne(param: Value, m: Mapping): (r: Result<Action, Error>)
    ensures r.Success? <==> Resolve(param, m.property).Success?
    ensures r.Success? ==> r.value == SetParameter(Resolve(param, m.property).value, m.jdbcType)
    ensures r.Failure? ==> r.error == Resolve(param, m.property).error
  {
    match Resolve(param, m.property)
    case Failure(e) => Failure(e)
    case Success(v) => Success(SetParameter(v, m.jdbcType))
  }

  /** The loop of `bindParameters` from mapping `k` on, for any per-mapping
      step `bind`: mapping `i` is bound at position `i + 1`; the first mapping
      whose step throws ends it. */
  function BindFrom(bind: Mapping -> Result<Action, Error>, mappings: seq<Mapping>, k: nat): (r: Result<seq<Binding>, Error>)
    requires k <= |mappings|
    ensures r.Success? <==> forall i | k <= i < |mappings| :: bind(mappings[i]).Success?
    ensures r.Success? ==> |r.value| == |mappings| - k
    ensures r.Success? ==> forall i | 0 <= i < |r.value| :: r.value[i] == Binding(k + i + 1, bind(mappings[k + i]).value)
    decreases |mappings| - k
  {
    if k == |mappings| then Success([])
    else
      match bind(mappings[k])
      case Failure(e) => Failure(e)
      case Success(a) =>
        match BindFrom(bind, mappings, k + 1)
        case Failure(e) => Failure(e)
        case Success(rest) =>
          var r := [Binding(k + 1, a)] + rest;
          assert forall i | 1 <= i < |r| :: r[i] == rest[i - 1];
          Success(r)
  }

  /** `bindParameters`. */
  function BindParameters(param: Value, mappings: seq<Mapping>): (r: Result<seq<Binding>, Error>)
    ensures r.Success? <==> forall i | 0 <= i < |mappings| :: Resolve(param, mappings[i].property).Success?
    ensures r.Success? ==> |r.value| == |mappings| && forall i | 0 <= i < |mappings| ::
      r.value[i] == Binding(i + 1, SetParameter(Resolve(param, mappings[i].property).value, mappings[i].jdbcType))
  {
    var bind := m => BindOne(param, m);
    assert forall i | 0 <= i < |mappings| :: bind(mappings[i]) == BindOne(param, mappings[i]);
    BindFrom(bind, mappings, 0)
  }

  // ---------------------------------------------------------------------------
  // Properties
  // ---------------------------------------------------------------------------

  /** Each position is bound exactly once: the positions are 1, 2, ... in order. */
  lemma PositionsDistinct(param: Value, mappings: seq<Mapping>, i: nat, j: nat)
    requires BindParameters(param, mappings).Success?
    requires i < j < |mappings|
    ensures BindParameters(param, mappings).value[i].position < BindParameters(param, mappings).value[j].position
  {
  }

  /** With a null parameter, every plain name binds SQL NULL. */
  lemma NullParameterBindsNull(m: Mapping)
    requires !Contains(m.property, ".") && !Contains(m.property, "[")
    ensures BindParameters(Null, [m]) == Success([Binding(1, SetNull(m.jdbcType.GetOr(TYPES_OTHER)))])
  {
    assert Resolve(Null, m.property) == Success(Null);
    var r := BindParameters(Null, [m]);
    assert r.Success? && |r.value| == 1;
    assert r.value[0] == Binding(1, SetNull(m.jdbcType.GetOr(TYPES_OTHER)));
    assert r.value == [r.value[0]];
  }

  /** Once the walk meets null it stays null, whatever parts remain. */
  lemma {:induction false} NullAbsorbs(parts: seq<string>)
    ensures WalkIndexed(Null, parts) == Success(Null) && WalkNested(Null, parts) == Success(Null)
  {
  }

  /** A blank part is skipped in an indexed path. */
  lemma BlankPartSkipped(cur: Value, blank: string, rest: seq<string>)
    requires cur != Null && Trim(blank) == []
    ensures WalkIndexed(cur, [blank] + rest) == WalkIndexed(cur, rest)
  {
    var parts := [blank] + rest;
    assert parts[0] == blank && parts[1..] == rest;
    assert Trim(parts[0]) == [];
  }

  /** One step of the indexed walk over a non-blank part. */
  lemma WalkStep(cur: Value, part: string, rest: seq<string>)
    requires cur != Null && Trim(part) == part && part != []
    ensures Advance(cur, part).Failure? ==> WalkIndexed(cur, [part] + rest) == Failure(Advance(cur, part).error)
    ensures Advance(cur, part).Success? ==> WalkIndexed(cur, [part] + rest) == WalkIndexed(Advance(cur, part).value, rest)
  {
    assert ([part] + rest)[1..] == rest;
    assert ([part] + rest)[0] == part;
  }

  /** An all-digit part selects the element at that position of a list. */
  lemma DigitsIndexList(xs: seq<Value>, n: nat, rest: seq<string>)
    requires n < |xs| && n <= INT_MAX
    ensures WalkIndexed(List(xs), [NatText(n)] + rest) == WalkIndexed(xs[n], rest)
  {
    var part := NatText(n);
    AdvanceDigits(List(xs), n);
    WalkStep(List(xs), part, rest);
  }

  /** Advancing over the rendering of an index is indexing. */
  lemma AdvanceDigits(cur: Value, n: nat)
    requires n <= INT_MAX
    ensures Trim(NatText(n)) == NatText(n) && NatText(n) != []
    ensures Advance(cur, NatText(n)) == ElementAt(cur, n)
  {
    DigitsParse(n);
  }

  /** The rendering of an index trims to itself and parses back to it. */
  lemma DigitsParse(n: nat)
    requires n <= INT_MAX
    ensures Trim(NatText(n)) == NatText(n) && AllDigits(NatText(n)) && NatText(n) != []
    ensures ParseInt(NatText(n)) == Some(n)
  {
    TrimDigits(NatText(n));
    IntTextRoundTrip(n, INT_MIN, INT_MAX);
    assert IntText(n) == NatText(n);
  }

  lemma TrimDigits(s: string)
    requires s != [] && AllDigits(s)
    ensures Trim(s) == s
  {
    assert !IsTrimmable(s[0]);
    assert !IsTrimmable(s[|s| - 1]);
  }

  /** Indexing a value that is not a list, an array or a map throws. */
  lemma ScalarCannotBeIndexed(v: Value, n: nat, rest: seq<string>)
    requires v.Str? || v.Int? || v.Bean? || v.Enum? || v.Uuid? || v.Coll?
    requires n <= INT_MAX
    ensures WalkIndexed(v, [NatText(n)] + rest) == Failure(UnsupportedCollection)
  {
    var part := NatText(n);
    AdvanceDigits(v, n);
    WalkStep(v, part, rest);
  }

  /** A dotted path looks each segment up as a map key in turn. */
  lemma NestedMapPath(a: string, b: string, inner: seq<Field>, outer: seq<Field>)
    requires !HasDelim(a, DOT) && !HasDelim(b, DOT) && b != []
    requires Get(outer, a) == Obj(inner)
    ensures ResolveNested(Obj(outer), a + "." + b) == Success(Get(inner, b))
  {
    var s := a + "." + b;
    assert s[|a|] == '.';
    var raw := RawSplit(s, DOT);
    SplitJoin(s, '.');
    RawSplitAround(a, b);
    assert Split(s, DOT) == [a, b];
    NestedTwoParts(a, b, inner, outer);
  }

  lemma NestedTwoParts(a: string, b: string, inner: seq<Field>, outer: seq<Field>)
    requires Get(outer, a) == Obj(inner)
    ensures First(Obj(outer), [a, b]) == Success(Obj(inner))
    ensures WalkNested(Obj(inner), [a, b][1..]) == Success(Get(inner, b))
  {
    assert [a, b][1..] == [b];
    assert Lookup(Obj(inner), b) == Success(Get(inner, b));
    assert WalkNested(Get(inner, b), [b][1..]) == Success(Get(inner, b));
  }

  lemma {:induction false} RawSplitAround(a: string, b: string)
    requires !HasDelim(a, DOT) && !HasDelim(b, DOT)
    ensures RawSplit(a + "." + b, DOT) == [a, b]
  {
    if a == [] {
      assert a + "." + b == ['.'] + b;
      assert (['.'] + b)[1..] == b;
      RawSplitPlain(b);
    } else {
      assert !HasDelim(a[1..], DOT) by {
        forall k | 0 <= k < |a[1..]| ensures a[1..][k] !in DOT {
          assert a[1..][k] == a[k + 1];
        }
      }
      RawSplitAround(a[1..], b);
      assert (a + "." + b)[1..] == a[1..] + "." + b;
      assert a[0] !in DOT;
      assert [a[0]] + a[1..] == a;
    }
  }

  lemma {:induction false} RawSplitPlain(s: string)
    requires !HasDelim(s, DOT)
    ensures RawSplit(s, DOT) == [s]
  {
    if s != [] {
      assert !HasDelim(s[1..], DOT) by {
        forall k | 0 <= k < |s[1..]| ensures s[1..][k] !in DOT {
          assert s[1..][k] == s[k + 1];
        }
      }
      RawSplitPlain(s[1..]);
      assert s[0] !in DOT;
      assert [s[0]] + s[1..] == s;
    }
  }

  /** A trailing dot is dropped by the split: `a.` resolves like `a`. */
  lemma TrailingDotDropped(param: Value, a: string)
    requires a != [] && !HasDelim(a, DOT) && param != Null
    ensures ResolveNested(param, a + ".") == Lookup(param, a)
  {
    var s := a + ".";
    assert s == a + "." + [];
    RawSplitAround(a, []);
    assert s[|a|] == '.';
    assert DropTrailingEmpty([a, []]) == [a];
  }
}

=== FILE: plan_tree.dfy ===
/** `PostgreExplainResultAnalyzer`: reading the JSON plan that
    `EXPLAIN (ANALYZE, ..., FORMAT JSON)` returns, one document per result row,
    and flattening its plan tree into the list of nodes the rules walk. */
module PostgresAnalyzer {
  import opened Wrappers
  import opened Values
  import opened Dialects
  import opened ExplainResults

  /** Jackson's tree reader: the decoded document, or `None` when the text is
      not JSON. It is a parameter: the JSON grammar is not modelled. */
  type Decoder = string -> Option<Value>

  const PLANS: string := "Plans"
  const PLAN: string := "Plan"
  const PLAN_NODES: string := "PlanNodes"
  const RAW_KEY: string := "EXPLAIN"

  // ---------------------------------------------------------------------------
  // A size measure for termination
  // ---------------------------------------------------------------------------

  /** The number of constructors in a value, counting through maps and lists. */
  function Size(v: Value): (r: nat)
    ensures r >= 1
  {
    match v
    case List(items) => 1 + SizeAll(items)
    case Arr(elems) => 1 + SizeAll(elems)
    case Obj(fs) => 1 + SizeFields(fs)
    case _ => 1
  }

  function SizeAll(xs: seq<Value>): nat {
    if xs == [] then 0 else Size(xs[0]) + SizeAll(xs[1..])
  }

  function SizeFields(fs: seq<Field>): nat {
    if fs == [] then 0 else Size(fs[0].value) + SizeFields(fs[1..])
  }

  /** A map's value is no larger than the map's entries together. */
  lemma {:induction false} GetSize(fs: seq<Field>, k: string)
    ensures Size(Get(fs, k)) <= SizeFields(fs) || Get(fs, k) == Null
  {
    if fs != [] && fs[0].key != k {
      GetSize(fs[1..], k);
    }
  }

  // ---------------------------------------------------------------------------
  // Flattening
  // ---------------------------------------------------------------------------

  /** `flattenPlanTree`: a map becomes its own entries without `Plans`,
      followed by the flattening of each child when `Plans` is a list; any
      other value flattens to nothing. Children that are not maps vanish. */
  function Flatten(v: Value): (r: seq<Row>)
    ensures forall i | 0 <= i < |r| :: !Has(r[i], PLANS)
    ensures v.Obj? ==> |r| >= 1 && r[0] == Remove(v.fields, PLANS)
    ensures !v.Obj? ==> r == []
    decreases Size(v), 1
  {
    match v
    case Obj(fs) =>
      var plans := Get(fs, PLANS);
      GetSize(fs, PLANS);
      [Remove(fs, PLANS)] + if plans.List? then FlattenAll(plans.items) else []
    case _ => []
  }

  /** The flattenings of a list of children, concatenated in order. */
  function FlattenAll(xs: seq<Value>): (r: seq<Row>)
    ensures forall i | 0 <= i < |r| :: !Has(r[i], PLANS)
    decreases SizeAll(xs), 2
  {
    if xs == [] then [] else Flatten(xs[0]) + FlattenAll(xs[1..])
  }

  /** The number of maps reachable from `v` through `Plans` lists: the
      nodes of the plan tree. */
  function TreeNodes(v: Value): nat
    decreases Size(v), 1
  {
    match v
    case Obj(fs) =>
      var plans := Get(fs, PLANS);
      GetSize(fs, PLANS);
      1 + if plans.List? then TreeNodesAll(plans.items) else 0
    case _ => 0
  }

  function TreeNodesAll(xs: seq<Value>): nat
    decreases SizeAll(xs), 2
  {
    if xs == [] then 0 else TreeNodes(xs[0]) + TreeNodesAll(xs[1..])
  }

  // ---------------------------------------------------------------------------
  // Parsing one document
  // ---------------------------------------------------------------------------

  /** `parseExplainJson`: the document must decode to a map (anything else
      makes Jackson throw); its `Plan` tree is flattened into a new
      `PlanNodes` entry, every other entry kept. */
  function ParseExplainJson(decode: Decoder, json: string): (r: Option<Row>)
    ensures r.Some? <==> decode(json).Some? && decode(json).value.Obj?
    ensures r.Some? ==> Get(r.value, PLAN_NODES) == List(AsMaps(Flatten(Get(decode(json).value.fields, PLAN))))
    ensures r.Some? ==> forall k | k != PLAN_NODES :: Get(r.value, k) == Get(decode(json).value.fields, k)
  {
    match decode(json)
    case Some(Obj(fs)) => Some(Put(fs, PLAN_NODES, List(AsMaps(Flatten(Get(fs, PLAN))))))
    case _ => None
  }

  /** Each flattened node boxed as a map value. */
  function AsMaps(rows: seq<Row>): (r: seq<Value>)
    ensures |r| == |rows| && forall i | 0 <= i < |rows| :: r[i] == Obj(rows[i])
  {
    seq(|rows|, i requires 0 <= i < |rows| => Obj(rows[i]))
  }

  /** One result row of the EXPLAIN query: the parsed document, or on any
      failure (including a null column) a single `EXPLAIN` entry holding the
      raw text. */
  function PlanRow(decode: Decoder, column: Option<string>): (r: Row)
    ensures column.None? ==> r == [Field(RAW_KEY, Null)]
    ensures column.Some? && ParseExplainJson(decode, column.value).None? ==> r == [Field(RAW_KEY, Str(column.value))]
    ensures column.Some? && ParseExplainJson(decode, column.value).Some? ==> r == ParseExplainJson(decode, column.value).value
  {
    match column
    case None => [Field(RAW_KEY, Null)]
    case Some(json) =>
      match ParseExplainJson(decode, json)
      case Some(row) => row
      case None => [Field(RAW_KEY, Str(json))]
  }

  /** `analyze`, given the first column of each result row: one plan row per
      result row, and none of the PostgreSQL metrics set. */
  function Analyze(decode: Decoder, sql: string, columns: seq<Option<string>>): (r: SqlExplainResult)
    ensures r.sql == sql && |r.rows| == |columns|
    ensures forall i | 0 <= i < |columns| :: r.rows[i] == PlanRow(decode, columns[i])
    ensures r.planningTime.None? && r.sharedHitBlocks.None? && r.sharedReadBlocks.None?
    ensures r.tempReadBlocks.None? && r.tempWrittenBlocks.None?
    ensures r.executionTime == 0 && r.advice == []
  {
    Fresh(sql, seq(|columns|, i requires 0 <= i < |columns| => PlanRow(decode, columns[i])))
  }

  /** `getDatabaseType`. */
  function Dialect(): (r: DatabaseType)
    ensures r == Postgre
  {
    Postgre
  }

  // ---------------------------------------------------------------------------
  // Properties
  // ---------------------------------------------------------------------------

  /** The flattening is a pre-order walk: one row per tree node. */
  lemma {:induction false} FlattenCountsNodes(v: Value)
    ensures |Flatten(v)| == TreeNodes(v)
    decreases Size(v), 1
  {
    match v
    case Obj(fs) =>
      GetSize(fs, PLANS);
      var plans := Get(fs, PLANS);
      if plans.List? {
        FlattenAllCountsNodes(plans.items);
      }
    case _ =>
  }

  lemma {:induction false} FlattenAllCountsNodes(xs: seq<Value>)
    ensures |FlattenAll(xs)| == TreeNodesAll(xs)
    decreases SizeAll(xs), 2
  {
    if xs != [] {
      FlattenCountsNodes(xs[0]);
      FlattenAllCountsNodes(xs[1..]);
    }
  }

  /** Children are flattened left to right, each subtree contiguous. */
  lemma {:induction false} FlattenAllAppend(xs: seq<Value>, ys: seq<Value>)
    ensures FlattenAll(xs + ys) == FlattenAll(xs) + FlattenAll(ys)
  {
    if xs == [] {
      assert xs + ys == ys;
    } else {
      assert (xs + ys)[0] == xs[0];
      assert (xs + ys)[1..] == xs[1..] + ys;
      FlattenAllAppend(xs[1..], ys);
    }
  }

  /** A node with two children flattens to itself, then the first subtree,
      then the second. */
  lemma TwoChildren(fs: seq<Field>, left: Value, right: Value)
    requires Get(fs, PLANS) == List([left, right])
    ensures Flatten(Obj(fs)) == [Remove(fs, PLANS)] + Flatten(left) + Flatten(right)
  {
    var xs := [left, right];
    FlattenTwo(left, right);
    JoinRows([Remove(fs, PLANS)], Flatten(Obj(fs)), FlattenAll(xs), Flatten(left), Flatten(right));
  }

  lemma FlattenTwo(left: Value, right: Value)
    ensures FlattenAll([left, right]) == Flatten(left) + Flatten(right)
  {
    var xs := [left, right];
    assert xs[1..] == [right];
    assert [right][1..] == [];
    assert FlattenAll([right]) == Flatten(right) + [];
  }

  lemma JoinRows(top: seq<Row>, all: seq<Row>, children: seq<Row>, a: seq<Row>, b: seq<Row>)
    requires all == top + children
    requires children == a + b
    ensures all == top + a + b
  {
  }

  /** A node without a `Plans` list is a leaf: one row, itself. */
  lemma LeafIsOneRow(fs: seq<Field>)
    requires !Get(fs, PLANS).List?
    ensures Flatten(Obj(fs)) == [Remove(fs, PLANS)]
  {
  }

  /** A document whose top level is a JSON array (the shape PostgreSQL's
      FORMAT JSON produces) is not a map, so the row falls back to the raw text. */
  lemma ArrayDocumentFallsBack(decode: Decoder, json: string)
    requires decode(json).Some? && decode(json).value.List?
    ensures PlanRow(decode, Some(json)) == [Field(RAW_KEY, Str(json))]
  {
  }

  /** A document without a `Plan` entry still parses, with no plan nodes. */
  lemma NoPlanNoNodes(decode: Decoder, json: string)
    requires decode(json).Some? && decode(json).value.Obj?
    requires !Has(decode(json).value.fields, PLAN)
    ensures ParseExplainJson(decode, json).Some?
    ensures Get(ParseExplainJson(decode, json).value, PLAN_NODES) == List([])
  {
  }
}

=== FILE: postgres_rules.dfy ===
/** `PostgreSQLAdviceGenerator`: global metrics, then every plan node of every
    row that carries a flattened plan, then configuration hints. */
module PostgresRules {
  import opened Wrappers
  import opened Errors
  import opened Strings
  import opened Values
  import opened Advisories
  import opened Dialects
  import opened ExplainResults
  import opened Sequences

  const HIGH_PLANNING_TIME: real := 10.0
  const HIGH_BUFFER_READ: int := 1000
  const HIGH_TEMP_USAGE: int := 100
  const LARGE_INDEX_SCAN: int := 10000
  const COSTLY_JOIN_MS: real := 100.0
  const WIDE_ROW: int := 100

  // ---------------------------------------------------------------------------
  // Reading node values
  // ---------------------------------------------------------------------------

  /** `Long.parseLong(node.get(k).toString())`: a null value throws too. */
  function LongField(node: Row, k: string): (r: Result<int, Error>)
    ensures r.Success? <==> Get(node, k) != Null && ParseLong(Text(Get(node, k))).Some?
    ensures r.Success? ==> r.value == ParseLong(Text(Get(node, k))).value
  {
    var t :- ToStr(Get(node, k));
    LongOf(t)
  }

  /** `Integer.parseInt(node.get(k).toString())`. */
  function IntField(node: Row, k: string): (r: Result<int, Error>)
    ensures r.Success? <==> Get(node, k) != Null && ParseInt(Text(Get(node, k))).Some?
    ensures r.Success? ==> r.value == ParseInt(Text(Get(node, k))).value
  {
    var t :- ToStr(Get(node, k));
    IntOf(t)
  }

  /** `Double.parseDouble(node.get(k).toString())`. */
  function RealField(node: Row, k: string): (r: Result<real, Error>)
    ensures r.Success? <==> Get(node, k) != Null && ParseDecimal(Text(Get(node, k))).Some?
    ensures r.Success? ==> r.value == ParseDecimal(Text(Get(node, k))).value
  {
    var t :- ToStr(Get(node, k));
    DoubleOf(t)
  }

  // ---------------------------------------------------------------------------
  // Global metrics
  // ---------------------------------------------------------------------------

  predicate MetricKind(a: Advice) {
    a.PgSlowPlanning? || a.PgPlanningShare? || a.PgSharedReads? || a.PgTempUsage?
  }

  /** `checkBasicMetrics`. Each hint needs its boxed metric present. */
  function BasicAdvice(e: SqlExplainResult): (r: seq<Advice>)
    ensures forall a | a in r :: MetricKind(a)
    ensures |r| <= 4
    ensures e.planningTime.None? ==> forall a | a in r :: !a.PgSlowPlanning? && !a.PgPlanningShare?
    ensures e.planningTime.Some? ==>
      (PgSlowPlanning(e.planningTime.value) in r <==> e.planningTime.value > HIGH_PLANNING_TIME)
    ensures e.planningTime.Some? ==>
      (PgPlanningShare(e.planningTime.value, e.executionTime) in r <==>
       e.executionTime > 0 && e.planningTime.value > e.executionTime as real * 0.2)
    ensures e.sharedReadBlocks.None? ==> forall a | a in r :: !a.PgSharedReads?
    ensures e.sharedReadBlocks.Some? ==>
      (PgSharedReads(e.sharedReadBlocks.value) in r <==> e.sharedReadBlocks.value > HIGH_BUFFER_READ)
    ensures e.tempWrittenBlocks.None? ==> forall a | a in r :: !a.PgTempUsage?
    ensures e.tempWrittenBlocks.Some? ==>
      (PgTempUsage(e.tempWrittenBlocks.value) in r <==> e.tempWrittenBlocks.value > HIGH_TEMP_USAGE)
  {
    var slow :=
      if e.planningTime.Some? && e.planningTime.value > HIGH_PLANNING_TIME
      then [PgSlowPlanning(e.planningTime.value)] else [];
    var share :=
      if e.executionTime != 0 && e.planningTime.Some? && e.executionTime > 0
         && e.planningTime.value > e.executionTime as real * 0.2
      then [PgPlanningShare(e.planningTime.value, e.executionTime)] else [];
    var shared :=
      if e.sharedReadBlocks.Some? && e.sharedReadBlocks.value > HIGH_BUFFER_READ
      then [PgSharedReads(e.sharedReadBlocks.value)] else [];
    var temp :=
      if e.tempWrittenBlocks.Some? && e.tempWrittenBlocks.value > HIGH_TEMP_USAGE
      then [PgTempUsage(e.tempWrittenBlocks.value)] else [];
    slow + share + shared + temp
  }

  // ---------------------------------------------------------------------------
  // Plan nodes
  // ---------------------------------------------------------------------------

  /** `handleSeqScan`: always the scan itself, plus the filter unless it is
      absent or the text "false". */
  function SeqScanAdvice(node: Row, rows: int): (r: seq<Advice>)
    ensures 1 <= |r| <= 2
    ensures r[0] == PgSeqScan(Text(Get(node, "Relation Name")), rows)
    ensures |r| == 2 <==> Has(node, "Filter") && Text(Get(node, "Filter")) != "false"
    ensures |r| == 2 ==> r[1] == PgUnindexedFilter(Text(Get(node, "Relation Name")), Text(Get(node, "Filter")))
    ensures forall a | a in r :: a.PgSeqScan? || a.PgUnindexedFilter?
  {
    var rel := Text(Get(node, "Relation Name"));
    [PgSeqScan(rel, rows)]
    + if Has(node, "Filter") && Text(Get(node, "Filter")) != "false"
      then [PgUnindexedFilter(rel, Text(Get(node, "Filter")))] else []
  }

  /** `handleIndexScan`: many rows, and heap fetches of an index-only scan.
      An unreadable heap-fetch count throws. */
  function IndexScanAdvice(node: Row, nodeType: string, rows: int): (r: Result<seq<Advice>, Error>)
    ensures r.Failure? <==>
      nodeType == "Index Only Scan" && Has(node, "Heap Fetches") && LongField(node, "Heap Fetches").Failure?
    ensures r.Success? ==> |r.value| <= 2
    ensures r.Success? ==> (
      PgLargeIndexScan(nodeType, rows, Text(Get(node, "Index Name")), Text(Get(node, "Relation Name"))) in r.value
      <==> rows > LARGE_INDEX_SCAN)
    ensures r.Success? && nodeType == "Index Only Scan" && Has(node, "Heap Fetches") ==>
      (PgHeapFetches(LongField(node, "Heap Fetches").value, Text(Get(node, "Index Name"))) in r.value
       <==> LongField(node, "Heap Fetches").value > 0)
    ensures r.Success? && !(nodeType == "Index Only Scan" && Has(node, "Heap Fetches")) ==>
      forall a | a in r.value :: !a.PgHeapFetches?
    ensures r.Success? ==> forall a | a in r.value :: a.PgLargeIndexScan? || a.PgHeapFetches?
  {
    var index := Text(Get(node, "Index Name"));
    var rel := Text(Get(node, "Relation Name"));
    var large := if rows > LARGE_INDEX_SCAN then [PgLargeIndexScan(nodeType, rows, index, rel)] else [];
    if nodeType == "Index Only Scan" && Has(node, "Heap Fetches") then
      var fetched :- HeapFetchAdvice(node, index);
      Success(large + fetched)
    else
      Success(large)
  }

  /** The heap-fetch part of `handleIndexScan`, once "Heap Fetches" is present. */
  function HeapFetchAdvice(node: Row, index: string): (r: Result<seq<Advice>, Error>)
    ensures r.Failure? <==> LongField(node, "Heap Fetches").Failure?
    ensures r.Success? ==> |r.value| <= 1 && forall a | a in r.value :: a == PgHeapFetches(LongField(node, "Heap Fetches").value, index)
    ensures r.Success? ==> (r.value != [] <==> LongField(node, "Heap Fetches").value > 0)
  {
    var fetches :- LongField(node, "Heap Fetches");
    Success(if fetches > 0 then [PgHeapFetches(fetches, index)] else [])
  }

  /** `handleJoinOperation`: a join slower than 100 ms, and a nested loop over
      a non-unique inner side (`Boolean.parseBoolean` is a case-blind "true"). */
  function JoinAdvice(node: Row, nodeType: string, ms: real): (r: Result<seq<Advice>, Error>)
    ensures r.Failure? <==> nodeType == "Nested Loop" && Has(node, "Inner Unique") && Get(node, "Inner Unique") == Null
    ensures r.Success? ==> (PgCostlyJoin(nodeType, ms) in r.value <==> ms > COSTLY_JOIN_MS)
    ensures r.Success? ==> (PgNonUniqueInner in r.value <==>
      nodeType == "Nested Loop" && Has(node, "Inner Unique") && !EqualsIgnoreCase(Text(Get(node, "Inner Unique")), "true"))
    ensures r.Success? ==> forall a | a in r.value :: a.PgCostlyJoin? || a.PgNonUniqueInner?
    ensures Contains(nodeType, "Join") ==> r.Success? && forall a | a in r.value :: a.PgCostlyJoin?
  {
    var costly := if ms > COSTLY_JOIN_MS then [PgCostlyJoin(nodeType, ms)] else [];
    if nodeType == "Nested Loop" && Has(node, "Inner Unique") then
      NestedLoopIsNotJoin(nodeType);
      var flag :- ToStr(Get(node, "Inner Unique"));
      Success(costly + if EqualsIgnoreCase(flag, "true") then [] else [PgNonUniqueInner])
    else
      Success(costly)
  }

  /** `handleSortOperation`. */
  function SortAdvice(node: Row): (r: seq<Advice>)
    ensures |r| <= 2
    ensures PgSortKey(Text(Get(node, "Sort Key"))) in r <==> Has(node, "Sort Key")
    ensures PgExternalSort in r <==> Has(node, "Sort Method") && Contains(Text(Get(node, "Sort Method")), "external")
    ensures forall a | a in r :: a.PgSortKey? || a.PgExternalSort?
  {
    (if Has(node, "Sort Key") then [PgSortKey(Text(Get(node, "Sort Key")))] else [])
    + if Has(node, "Sort Method") && Contains(Text(Get(node, "Sort Method")), "external")
      then [PgExternalSort] else []
  }

  /** `handleAggregateOperation`: the strategy must be that exact string. */
  function AggregateAdvice(node: Row): (r: seq<Advice>)
    ensures |r| <= 2
    ensures PgHashAggregate in r <==> Get(node, "Strategy") == Str("HashAggregate")
    ensures PgSortedAggregate in r <==> Get(node, "Strategy") == Str("SortedAggregate")
    ensures PgGroupKey(Text(Get(node, "Group Key"))) in r <==> Has(node, "Group Key")
    ensures forall a | a in r :: a.PgHashAggregate? || a.PgSortedAggregate? || a.PgGroupKey?
  {
    StrategyAdvice(Get(node, "Strategy")) + GroupAdvice(node)
  }

  function StrategyAdvice(st: Value): (r: seq<Advice>)
    ensures |r| <= 1
    ensures PgHashAggregate in r <==> st == Str("HashAggregate")
    ensures PgSortedAggregate in r <==> st == Str("SortedAggregate")
    ensures forall a | a in r :: a.PgHashAggregate? || a.PgSortedAggregate?
  {
    if st == Str("HashAggregate") then [PgHashAggregate]
    else if st == Str("SortedAggregate") then [PgSortedAggregate]
    else []
  }

  function GroupAdvice(node: Row): (r: seq<Advice>)
    ensures |r| <= 1
    ensures forall a | a in r :: a == PgGroupKey(Text(Get(node, "Group Key")))
    ensures r != [] <==> Has(node, "Group Key")
  {
    if Has(node, "Group Key") then [PgGroupKey(Text(Get(node, "Group Key")))] else []
  }

  /** `getBatchesValue`: the batch count, 1 when absent or unparsable; a null
      value throws. */
  function Batches(node: Row): (r: Result<int, Error>)
    ensures r.Failure? <==> Has(node, "Hash Batches") && Get(node, "Hash Batches") == Null
    ensures r.Success? && r.value != 1 ==> IntField(node, "Hash Batches") == Success(r.value)
    ensures r.Success? && IntField(node, "Hash Batches").Success? ==> r.value == IntField(node, "Hash Batches").value
  {
    if Has(node, "Hash Batches") then
      var t :- ToStr(Get(node, "Hash Batches"));
      match IntOf(t)
      case Failure(_) => Success(1)
      case Success(b) => Success(b)
    else
      Success(1)
  }

  /** The plan-width half of `handleHashOperation`: an unparsable width is
      ignored, a null one throws. */
  function WidthAdvice(node: Row, nodeType: string): (r: Result<seq<Advice>, Error>)
    ensures r.Failure? <==> Has(node, "Plan Width") && Get(node, "Plan Width") == Null
    ensures r.Success? ==> |r.value| <= 1 && forall a | a in r.value :: a.PgWideRows?
    ensures r.Success? ==> (r.value != [] <==>
      Has(node, "Plan Width") && IntField(node, "Plan Width").Success? && IntField(node, "Plan Width").value > WIDE_ROW)
    ensures r.Success? && r.value != [] ==> r.value == [PgWideRows(nodeType, IntField(node, "Plan Width").value)]
  {
    if Has(node, "Plan Width") then
      var t :- ToStr(Get(node, "Plan Width"));
      match IntOf(t)
      case Failure(_) => Success([])
      case Success(w) => Success(if w > WIDE_ROW then [PgWideRows(nodeType, w)] else [])
    else Success([])
  }

  /** The bucket half of `handleHashOperation`: only a node with buckets is
      examined, and more than one batch is reported. */
  function BatchAdvice(node: Row): (r: Result<seq<Advice>, Error>)
    ensures r.Failure? <==> Has(node, "Hash Buckets") && Batches(node).Failure?
    ensures r.Success? ==> |r.value| <= 1 && forall a | a in r.value :: a.PgHashBatches?
    ensures r.Success? ==> (r.value != [] <==> Has(node, "Hash Buckets") && Batches(node).value > 1)
    ensures r.Success? && r.value != [] ==> r.value == [PgHashBatches(Batches(node).value)]
  {
    if Has(node, "Hash Buckets") then
      var b :- Batches(node);
      Success(if b > 1 then [PgHashBatches(b)] else [])
    else Success([])
  }

  /** `handleHashOperation`: width first, then batches. */
  function HashAdvice(node: Row, nodeType: string): (r: Result<seq<Advice>, Error>)
    ensures r.Failure? <==> WidthAdvice(node, nodeType).Failure? || BatchAdvice(node).Failure?
    ensures r.Success? ==> r.value == WidthAdvice(node, nodeType).value + BatchAdvice(node).value
    ensures r.Success? ==> forall a | a in r.value :: a.PgWideRows? || a.PgHashBatches?
  {
    var wide :- WidthAdvice(node, nodeType);
    var batches :- BatchAdvice(node);
    Success(wide + batches)
  }

  /** `handleParallelQuery`, given the worker count already read. */
  function ParallelAdvice(node: Row, workers: int): (r: Result<seq<Advice>, Error>)
    ensures r.Failure? <==> Has(node, "Workers Planned") && IntField(node, "Workers Planned").Failure?
    ensures r.Success? && Has(node, "Workers Planned") ==>
      (PgWorkerShortage(IntField(node, "Workers Planned").value, workers) in r.value
       <==> workers < IntField(node, "Workers Planned").value)
    ensures r.Success? && !Has(node, "Workers Planned") ==> forall a | a in r.value :: !a.PgWorkerShortage?
    ensures r.Success? ==> (PgParallel(workers) in r.value <==> Has(node, "Worker Number"))
    ensures r.Success? ==> forall a | a in r.value :: a.PgWorkerShortage? || a == PgParallel(workers)
  {
    match ShortageAdvice(node, workers)
    case Failure(e) => Failure(e)
    case Success(shortage) =>
      Success(shortage + WorkerNumberAdvice(node, workers))
  }

  /** The parallel-execution part of `handleParallelQuery`. */
  function WorkerNumberAdvice(node: Row, workers: int): (r: seq<Advice>)
    ensures |r| <= 1 && forall a | a in r :: a == PgParallel(workers)
    ensures PgParallel(workers) in r <==> Has(node, "Worker Number")
  {
    if Has(node, "Worker Number") then [PgParallel(workers)] else []
  }

  /** The worker-shortage part of `handleParallelQuery`; without "Workers
      Planned" the planned count is the actual one, so there is no shortage. */
  function ShortageAdvice(node: Row, workers: int): (r: Result<seq<Advice>, Error>)
    ensures r.Failure? <==> Has(node, "Workers Planned") && IntField(node, "Workers Planned").Failure?
    ensures r.Success? && !Has(node, "Workers Planned") ==> r.value == []
    ensures r.Success? && Has(node, "Workers Planned") ==>
      (|r.value| <= 1 && forall a | a in r.value :: a == PgWorkerShortage(IntField(node, "Workers Planned").value, workers))
    ensures r.Success? && Has(node, "Workers Planned") ==>
      (PgWorkerShortage(IntField(node, "Workers Planned").value, workers) in r.value
       <==> workers < IntField(node, "Workers Planned").value)
  {
    var planned :- if Has(node, "Workers Planned") then IntField(node, "Workers Planned") else Success(workers);
    Success(if workers < planned then [PgWorkerShortage(planned, workers)] else [])
  }

  /** The node types that have a handler of their own; any other type with
      workers is treated as parallel. */
  predicate Handled(nodeType: string) {
    nodeType == "Seq Scan" || nodeType == "Index Scan" || nodeType == "Index Only Scan"
    || Contains(nodeType, "Join") || nodeType == "Sort" || nodeType == "Aggregate"
    || nodeType == "Hash" || nodeType == "Hash Join"
  }

  lemma HashJoinIsJoin()
    ensures Contains("Hash Join", "Join")
  {
    assert OccursAt("Hash Join", "Join", 5);
    ContainsAt("Hash Join", "Join", 5);
  }

  lemma NestedLoopIsNotJoin(nodeType: string)
    requires nodeType == "Nested Loop"
    ensures !Contains(nodeType, "Join")
  {
    ContainsHead(nodeType, "Join");
  }

  /** The node handlers, in dispatch order. */
  datatype Handler = SeqScanHandler | IndexScanHandler | JoinHandler | SortHandler
                   | AggregateHandler | HashHandler | ParallelHandler | NoHandler

  /** The handler a node of type `nodeType` is routed to: the first test that
      passes. "Hash Join" appears in the hash test but is caught by the join
      test before it. */
  function Route(node: Row, nodeType: string): Handler {
    if nodeType == "Seq Scan" then SeqScanHandler
    else if nodeType == "Index Scan" || nodeType == "Index Only Scan" then IndexScanHandler
    else if Contains(nodeType, "Join") then JoinHandler
    else if nodeType == "Sort" then SortHandler
    else if nodeType == "Aggregate" then AggregateHandler
    else if nodeType == "Hash" || nodeType == "Hash Join" then HashHandler
    else if Has(node, "Workers") then ParallelHandler
    else NoHandler
  }

  /** The handler that emits each node advisory. */
  function Producer(a: Advice): Handler {
    if a.PgSeqScan? || a.PgUnindexedFilter? then SeqScanHandler
    else if a.PgLargeIndexScan? || a.PgHeapFetches? then IndexScanHandler
    else if a.PgCostlyJoin? || a.PgNonUniqueInner? then JoinHandler
    else if a.PgSortKey? || a.PgExternalSort? then SortHandler
    else if a.PgHashAggregate? || a.PgSortedAggregate? || a.PgGroupKey? then AggregateHandler
    else if a.PgWideRows? || a.PgHashBatches? then HashHandler
    else if a.PgWorkerShortage? || a.PgParallel? then ParallelHandler
    else NoHandler
  }

  /** Run one handler on a node. */
  function Run(h: Handler, node: Row, nodeType: string, rows: int, ms: real): (r: Result<seq<Advice>, Error>)
    ensures h == SeqScanHandler ==> r == Success(SeqScanAdvice(node, rows))
    ensures h == IndexScanHandler ==> r == IndexScanAdvice(node, nodeType, rows)
    ensures h == JoinHandler ==> r == JoinAdvice(node, nodeType, ms)
    ensures h == SortHandler ==> r == Success(SortAdvice(node))
    ensures h == AggregateHandler ==> r == Success(AggregateAdvice(node))
    ensures h == HashHandler ==> r == HashAdvice(node, nodeType)
    ensures h == ParallelHandler && IntField(node, "Workers").Failure? ==> r.Failure?
    ensures h == ParallelHandler && IntField(node, "Workers").Success? && IntField(node, "Workers").value > 0 ==>
      r == ParallelAdvice(node, IntField(node, "Workers").value)
    ensures h == ParallelHandler && IntField(node, "Workers").Success? && IntField(node, "Workers").value <= 0 ==>
      r == Success([])
    ensures h == NoHandler ==> r == Success([])
  {
    match h
    case SeqScanHandler => Success(SeqScanAdvice(node, rows))
    case IndexScanHandler => IndexScanAdvice(node, nodeType, rows)
    case JoinHandler => JoinAdvice(node, nodeType, ms)
    case SortHandler => Success(SortAdvice(node))
    case AggregateHandler => Success(AggregateAdvice(node))
    case HashHandler => HashAdvice(node, nodeType)
    case ParallelHandler =>
      var workers :- IntField(node, "Workers");
      if workers > 0 then ParallelAdvice(node, workers) else Success([])
    case NoHandler => Success([])
  }

  /** The first-match dispatch: the node goes to the handler `Route` picks,
      and only that handler's kinds come out. */
  function Dispatch(node: Row, nodeType: string, rows: int, ms: real): (r: Result<seq<Advice>, Error>)
    ensures r == Run(Route(node, nodeType), node, nodeType, rows, ms)
    ensures r.Success? ==> Produces(r.value, Route(node, nodeType))
  {
    var h := Route(node, nodeType);
    assert h == JoinHandler ==> Contains(nodeType, "Join");
    RunProduces(h, node, nodeType, rows, ms);
    Run(h, node, nodeType, rows, ms)
  }

  /** The kinds each handler emits. */
  predicate Produces(xs: seq<Advice>, h: Handler) {
    forall a | a in xs :: Producer(a) == h && a != PgNonUniqueInner
  }

  lemma SeqScanProduces(xs: seq<Advice>)
    requires forall a | a in xs :: a.PgSeqScan? || a.PgUnindexedFilter?
    ensures Produces(xs, SeqScanHandler)
  {
  }

  lemma IndexScanProduces(xs: seq<Advice>)
    requires forall a | a in xs :: a.PgLargeIndexScan? || a.PgHeapFetches?
    ensures Produces(xs, IndexScanHandler)
  {
  }

  lemma JoinProduces(xs: seq<Advice>)
    requires forall a | a in xs :: a.PgCostlyJoin?
    ensures Produces(xs, JoinHandler)
  {
  }

  lemma SortProduces(xs: seq<Advice>)
    requires forall a | a in xs :: a.PgSortKey? || a.PgExternalSort?
    ensures Produces(xs, SortHandler)
  {
  }

  lemma AggregateProduces(xs: seq<Advice>)
    requires forall a | a in xs :: a.PgHashAggregate? || a.PgSortedAggregate? || a.PgGroupKey?
    ensures Produces(xs, AggregateHandler)
  {
  }

  lemma HashProduces(xs: seq<Advice>)
    requires forall a | a in xs :: a.PgWideRows? || a.PgHashBatches?
    ensures Produces(xs, HashHandler)
  {
  }

  lemma ParallelProduces(xs: seq<Advice>)
    requires forall a | a in xs :: a.PgWorkerShortage? || a.PgParallel?
    ensures Produces(xs, ParallelHandler)
  {
  }

  /** Every advisory a handler emits is one of its own kinds; the join
      handler, reached only by types containing "Join", never reports a
      non-unique inner side. */
  lemma RunProduces(h: Handler, node: Row, nodeType: string, rows: int, ms: real)
    requires h == JoinHandler ==> Contains(nodeType, "Join")
    ensures Run(h, node, nodeType, rows, ms).Success? ==> Produces(Run(h, node, nodeType, rows, ms).value, h)
  {
    match h
    case SeqScanHandler =>
      SeqScanProduces(SeqScanAdvice(node, rows));
    case IndexScanHandler =>
      var r := IndexScanAdvice(node, nodeType, rows);
      if r.Success? {
        IndexScanProduces(r.value);
      }
    case JoinHandler =>
      var r := JoinAdvice(node, nodeType, ms);
      JoinProduces(r.value);
    case SortHandler =>
      SortProduces(SortAdvice(node));
    case AggregateHandler =>
      AggregateProduces(AggregateAdvice(node));
    case HashHandler =>
      var r := HashAdvice(node, nodeType);
      if r.Success? {
        HashProduces(r.value);
      }
    case ParallelHandler =>
      var r := Run(h, node, nodeType, rows, ms);
      if r.Success? {
        var workers := IntField(node, "Workers").value;
        if workers > 0 {
          ParallelProduces(ParallelAdvice(node, workers).value);
        }
      }
    case NoHandler =>
  }

  /** One element of the `PlanNodes` list: it must be a map; its row count
      and total time are read (and may throw) before the dispatch. */
  function NodeAdvice(node: Value): (r: Result<seq<Advice>, Error>)
    ensures !node.Obj? ==> r.Failure?
    ensures node.Obj? && Has(node.fields, "Actual Rows") && LongField(node.fields, "Actual Rows").Failure? ==> r.Failure?
    ensures node.Obj? && Has(node.fields, "Actual Total Time") && RealField(node.fields, "Actual Total Time").Failure? ==>
      r.Failure?
    ensures r.Success? ==> node.Obj? && Produces(r.value, Route(node.fields, Text(Get(node.fields, "Node Type"))))
  {
    match node
    case Obj(fs) =>
      var nodeType := Text(Get(fs, "Node Type"));
      var rows :- if Has(fs, "Actual Rows") then LongField(fs, "Actual Rows") else Success(0);
      var ms :- if Has(fs, "Actual Total Time") then RealField(fs, "Actual Total Time") else Success(0.0);
      Dispatch(fs, nodeType, rows, ms)
    case _ => Failure(ClassCast("Map"))
  }

  /** The node type as `String.valueOf` prints it. */
  function NodeType(fs: Row): string {
    Text(Get(fs, "Node Type"))
  }

  /** The row count and total time a node is dispatched with: the parsed
      value when present, 0 when absent. */
  function ActualRows(fs: Row): int {
    if Has(fs, "Actual Rows") && LongField(fs, "Actual Rows").Success? then LongField(fs, "Actual Rows").value else 0
  }

  function ActualMillis(fs: Row): real {
    if Has(fs, "Actual Total Time") && RealField(fs, "Actual Total Time").Success?
    then RealField(fs, "Actual Total Time").value else 0.0
  }

  /** Both timing fields either absent or parseable, as in every node of an
      `EXPLAIN ANALYZE` plan. */
  predicate TimingReadable(fs: Row) {
    && (!Has(fs, "Actual Rows") || LongField(fs, "Actual Rows").Success?)
    && (!Has(fs, "Actual Total Time") || RealField(fs, "Actual Total Time").Success?)
  }

  /** Once its timing fields are read, a node gets exactly the advice of the
      handler its type routes it to. */
  lemma NodeDispatches(fs: Row)
    requires TimingReadable(fs)
    ensures NodeAdvice(Obj(fs)) == Run(Route(fs, NodeType(fs)), fs, NodeType(fs), ActualRows(fs), ActualMillis(fs))
  {
  }

  /** Every node of a plan yields its advice without throwing. */
  predicate NodesReadable(nodes: seq<Value>) {
    forall i | 0 <= i < |nodes| :: NodeAdvice(nodes[i]).Success?
  }

  /** The node advice of one row: rows without `PlanNodes` are skipped; the
      value must be a list (a null one throws on iteration). */
  function PlanAdvice(row: Row): (r: Result<seq<Advice>, Error>)
    ensures !Has(row, "PlanNodes") ==> r == Success([])
    ensures Has(row, "PlanNodes") && !Get(row, "PlanNodes").List? ==> r.Failure?
    ensures Has(row, "PlanNodes") && Get(row, "PlanNodes").List? ==>
      (r.Success? <==> NodesReadable(Get(row, "PlanNodes").items))
  {
    if !Has(row, "PlanNodes") then Success([])
    else
      var nodes := Get(row, "PlanNodes");
      if nodes.Null? then Failure(NullPointer("PlanNodes"))
      else if nodes.List? then
        var f := NodeAdvice;
        var items := Get(row, "PlanNodes").items;
        var r := ConcatResult(items, f);
        assert forall i | 0 <= i < |items| :: f(items[i]) == NodeAdvice(items[i]);
        assert r.Success? <==> NodesReadable(items);
        r
      else Failure(ClassCast("List"))
  }

  /** `analyzePlanNodes`. */
  function NodesAdvice(e: SqlExplainResult): (r: Result<seq<Advice>, Error>)
    ensures r.Success? <==> forall i | 0 <= i < |e.rows| :: PlanAdvice(e.rows[i]).Success?
  {
    ConcatResult(e.rows, PlanAdvice)
  }

  // ---------------------------------------------------------------------------
  // Configuration
  // ---------------------------------------------------------------------------

  /** Some row reports JIT as the text "true". */
  predicate JitUsed(rows: seq<Row>) {
    exists i | 0 <= i < |rows| :: Has(rows[i], "JIT") && Text(Get(rows[i], "JIT")) == "true"
  }

  /** `checkConfigurationAdvice`: buffer hit ratio under 90%, temp files, JIT. */
  function ConfigAdvice(e: SqlExplainResult): (r: seq<Advice>)
    ensures |r| <= 3
    ensures forall a | a in r :: a.PgLowHitRatio? || a.PgTempFiles? || a.PgJit?
    ensures !(e.sharedHitBlocks.Some? && e.sharedReadBlocks.Some?) ==> forall a | a in r :: !a.PgLowHitRatio?
    ensures e.sharedHitBlocks.Some? && e.sharedReadBlocks.Some? ==>
      (PgLowHitRatio(e.sharedHitBlocks.value, e.sharedHitBlocks.value + e.sharedReadBlocks.value) in r
       <==> e.sharedHitBlocks.value + e.sharedReadBlocks.value > 0
            && 10 * e.sharedHitBlocks.value < 9 * (e.sharedHitBlocks.value + e.sharedReadBlocks.value))
    ensures e.tempWrittenBlocks.None? ==> forall a | a in r :: !a.PgTempFiles?
    ensures e.tempWrittenBlocks.Some? ==> (PgTempFiles(e.tempWrittenBlocks.value) in r <==> e.tempWrittenBlocks.value > 0)
    ensures PgJit in r <==> JitUsed(e.rows)
  {
    RatioAdvice(e) + TempAdvice(e) + JitAdvice(e.rows)
  }

  /** The temp-file part of `checkConfigurationAdvice`. */
  function TempAdvice(e: SqlExplainResult): (r: seq<Advice>)
    ensures |r| <= 1 && forall a | a in r :: a.PgTempFiles?
    ensures e.tempWrittenBlocks.None? ==> r == []
    ensures e.tempWrittenBlocks.Some? ==> (PgTempFiles(e.tempWrittenBlocks.value) in r <==> e.tempWrittenBlocks.value > 0)
  {
    if e.tempWrittenBlocks.Some? && e.tempWrittenBlocks.value > 0
    then [PgTempFiles(e.tempWrittenBlocks.value)] else []
  }

  /** The JIT part of `checkConfigurationAdvice`. */
  function JitAdvice(rows: seq<Row>): (r: seq<Advice>)
    ensures |r| <= 1 && forall a | a in r :: a == PgJit
    ensures PgJit in r <==> JitUsed(rows)
  {
    if JitUsed(rows) then [PgJit] else []
  }

  /** The hit-ratio part of `checkConfigurationAdvice`. */
  function RatioAdvice(e: SqlExplainResult): (r: seq<Advice>)
    ensures |r| <= 1 && forall a | a in r :: a.PgLowHitRatio?
    ensures !(e.sharedHitBlocks.Some? && e.sharedReadBlocks.Some?) ==> r == []
    ensures e.sharedHitBlocks.Some? && e.sharedReadBlocks.Some? ==>
      (PgLowHitRatio(e.sharedHitBlocks.value, e.sharedHitBlocks.value + e.sharedReadBlocks.value) in r
       <==> e.sharedHitBlocks.value + e.sharedReadBlocks.value > 0
            && 10 * e.sharedHitBlocks.value < 9 * (e.sharedHitBlocks.value + e.sharedReadBlocks.value))
  {
    if e.sharedHitBlocks.Some? && e.sharedReadBlocks.Some? then
      var total := e.sharedHitBlocks.value + e.sharedReadBlocks.value;
      if total > 0 && HitRatioBelow(e.sharedHitBlocks.value, total)
      then HitRatioIntegerForm(e.sharedHitBlocks.value, total); [PgLowHitRatio(e.sharedHitBlocks.value, total)]
      else (if total > 0 then HitRatioIntegerForm(e.sharedHitBlocks.value, total); [] else [])
    else []
  }

  /** `hit / total < 0.9`, computed over the reals. */
  predicate HitRatioBelow(hit: int, total: int)
    requires total > 0
  {
    (hit as real) / (total as real) < 0.9
  }

  // ---------------------------------------------------------------------------
  // The generator
  // ---------------------------------------------------------------------------

  /** `generateAdvice`: metrics, nodes, configuration, in that order; a node
      that throws aborts the whole generator. */
  function Generate(e: SqlExplainResult): (r: Result<seq<Advice>, Error>)
    ensures r.Success? <==> NodesAdvice(e).Success?
    ensures r.Success? ==> r.value == BasicAdvice(e) + NodesAdvice(e).value + ConfigAdvice(e)
  {
    var nodes :- NodesAdvice(e);
    Success(BasicAdvice(e) + nodes + ConfigAdvice(e))
  }

  /** `supports`: PostgreSQL only. */
  predicate Supports(d: DatabaseType) {
    d == Postgre
  }

  // ---------------------------------------------------------------------------
  // Properties
  // ---------------------------------------------------------------------------

  /** The integer form of the hit-ratio test is the real one. */
  lemma HitRatioIntegerForm(hit: int, total: int)
    requires total > 0
    ensures HitRatioBelow(hit, total) <==> 10 * hit < 9 * total
  {
    var h := hit as real;
    var t := total as real;
    assert h / t < 0.9 <==> h < 0.9 * t by {
      assert (h / t) * t == h;
    }
  }

  /** A node typed "Hash Join" is handled as a join: the hash handler listed
      for it never runs, so it never reports wide rows or batches. */
  lemma HashJoinNeverHashHandled(fs: seq<Field>)
    requires Get(fs, "Node Type") == Str("Hash Join")
    ensures Route(fs, "Hash Join") == JoinHandler
    ensures NodeAdvice(Obj(fs)).Success? ==>
      forall a | a in NodeAdvice(Obj(fs)).value :: !a.PgWideRows? && !a.PgHashBatches?
  {
    HashJoinIsJoin();
  }

  /** The nested-loop check sits behind a "contains Join" test that
      "Nested Loop" fails, so the non-unique-inner advisory is never emitted. */
  lemma {:induction false} NonUniqueInnerNeverEmitted(e: SqlExplainResult)
    requires Generate(e).Success?
    ensures PgNonUniqueInner !in Generate(e).value
  {
    var nodes := NodesAdvice(e).value;
    if PgNonUniqueInner in nodes {
      ConcatResultMember(e.rows, PlanAdvice, PgNonUniqueInner);
      var i :| 0 <= i < |e.rows| && PgNonUniqueInner in PlanAdvice(e.rows[i]).value;
      var items := Get(e.rows[i], "PlanNodes").items;
      ConcatResultMember(items, NodeAdvice, PgNonUniqueInner);
      assert false;
    }
  }

  /** Rows without a flattened plan contribute no node advice at all. */
  lemma {:induction false} NoPlanNodesNoNodeAdvice(rows: seq<Row>)
    requires forall i | 0 <= i < |rows| :: !Has(rows[i], "PlanNodes")
    ensures ConcatResult(rows, PlanAdvice) == Success([])
  {
    if rows != [] {
      assert forall i | 0 <= i < |rows[1..]| :: !Has(rows[1..][i], "PlanNodes") by {
        forall i | 0 <= i < |rows[1..]| ensures !Has(rows[1..][i], "PlanNodes") {
          assert rows[1..][i] == rows[i + 1];
        }
      }
      NoPlanNodesNoNodeAdvice(rows[1..]);
      assert PlanAdvice(rows[0]) == Success([]);
      var none: seq<Advice> := [];
      assert none + none == none;
    }
  }

  /** More than 100 temporary blocks written are reported twice: once as a
      metric and once as a configuration hint. */
  lemma TempBlocksReportedTwice(e: SqlExplainResult)
    requires Generate(e).Success?
    requires e.tempWrittenBlocks.Some? && e.tempWrittenBlocks.value > HIGH_TEMP_USAGE
    ensures PgTempUsage(e.tempWrittenBlocks.value) in Generate(e).value
    ensures PgTempFiles(e.tempWrittenBlocks.value) in Generate(e).value
  {
  }

  /** Between 1 and 100 temporary blocks written give the configuration hint
      alone: the metric hint needs more than 100. */
  lemma TempBlocksModerate(e: SqlExplainResult)
    requires Generate(e).Success?
    requires e.tempWrittenBlocks.Some? && 0 < e.tempWrittenBlocks.value <= HIGH_TEMP_USAGE
    ensures PgTempFiles(e.tempWrittenBlocks.value) in Generate(e).value
    ensures PgTempUsage(e.tempWrittenBlocks.value) !in BasicAdvice(e)
  {
  }

  /** With no metric set, the only global hint possible is JIT. */
  lemma UnsetMetricsSilent(e: SqlExplainResult)
    requires e.planningTime.None? && e.sharedHitBlocks.None? && e.sharedReadBlocks.None?
    requires e.tempWrittenBlocks.None?
    ensures BasicAdvice(e) == []
    ensures ConfigAdvice(e) == if JitUsed(e.rows) then [PgJit] else []
  {
  }

  /** A parallel node whose worker count is not a readable int aborts the generator. */
  lemma UnreadableWorkersFail(fs: seq<Field>)
    requires !Handled(NodeType(fs))
    requires TimingReadable(fs)
    requires Has(fs, "Workers") && IntField(fs, "Workers").Failure?
    ensures NodeAdvice(Obj(fs)).Failure?
  {
    assert Route(fs, NodeType(fs)) == ParallelHandler;
    NodeDispatches(fs);
  }

  /** A sequential scan node is always reported, with its relation and row
      count (0 when the node carries no "Actual Rows"). */
  lemma SeqScanAlwaysReported(fs: seq<Field>)
    requires Get(fs, "Node Type") == Str("Seq Scan")
    requires TimingReadable(fs)
    ensures NodeAdvice(Obj(fs)).Success?
    ensures PgSeqScan(Text(Get(fs, "Relation Name")), ActualRows(fs)) in NodeAdvice(Obj(fs)).value
  {
    NodeDispatches(fs);
  }

  /** An index scan over more than 10000 rows is reported with its index and relation. */
  lemma LargeIndexScanReported(fs: seq<Field>)
    requires Get(fs, "Node Type") == Str("Index Scan")
    requires TimingReadable(fs) && ActualRows(fs) > LARGE_INDEX_SCAN
    ensures NodeAdvice(Obj(fs)).Success?
    ensures PgLargeIndexScan("Index Scan", ActualRows(fs), Text(Get(fs, "Index Name")), Text(Get(fs, "Relation Name")))
      in NodeAdvice(Obj(fs)).value
  {
    assert NodeType(fs) == "Index Scan";
    NodeDispatches(fs);
  }

  /** A join (any type containing "Join") slower than 100 ms is reported with its time. */
  lemma CostlyJoinReported(fs: seq<Field>)
    requires Contains(NodeType(fs), "Join")
    requires TimingReadable(fs) && ActualMillis(fs) > COSTLY_JOIN_MS
    ensures NodeAdvice(Obj(fs)).Success?
    ensures PgCostlyJoin(NodeType(fs), ActualMillis(fs)) in NodeAdvice(Obj(fs)).value
  {
    var t := NodeType(fs);
    var ms := ActualMillis(fs);
    RouteJoin(fs, t);
    NodeDispatches(fs);
    var r := JoinAdvice(fs, t, ms);
    assert r.Success? && PgCostlyJoin(t, ms) in r.value;
  }

  lemma RouteJoin(fs: Row, t: string)
    requires Contains(t, "Join")
    ensures Route(fs, t) == JoinHandler
  {
    HasJ(t);
  }

  /** A text containing "Join" contains its capital J. */
  lemma HasJ(t: string)
    requires Contains(t, "Join")
    ensures 'J' in t
  {
    ContainsHead(t, "Join");
  }

  /** A sort node with a sort key reports the key. */
  lemma SortKeyReported(fs: seq<Field>)
    requires Get(fs, "Node Type") == Str("Sort")
    requires TimingReadable(fs) && Has(fs, "Sort Key")
    ensures NodeAdvice(Obj(fs)).Success?
    ensures PgSortKey(Text(Get(fs, "Sort Key"))) in NodeAdvice(Obj(fs)).value
  {
    RouteOther(fs, "Sort");
    NodeDispatches(fs);
  }

  /** An aggregate node using the hash strategy is reported as such. */
  lemma HashAggregateReported(fs: seq<Field>)
    requires Get(fs, "Node Type") == Str("Aggregate")
    requires TimingReadable(fs) && Get(fs, "Strategy") == Str("HashAggregate")
    ensures NodeAdvice(Obj(fs)).Success?
    ensures PgHashAggregate in NodeAdvice(Obj(fs)).value
  {
    RouteOther(fs, "Aggregate");
    NodeDispatches(fs);
    var r := AggregateAdvice(fs);
    assert PgHashAggregate in r;
  }

  /** A hash node whose rows are wider than 100 bytes is reported with the width. */
  lemma WideHashReported(fs: seq<Field>)
    requires Get(fs, "Node Type") == Str("Hash")
    requires TimingReadable(fs) && !(Has(fs, "Hash Batches") && Get(fs, "Hash Batches") == Null)
    requires IntField(fs, "Plan Width").Success? && IntField(fs, "Plan Width").value > WIDE_ROW
    ensures NodeAdvice(Obj(fs)).Success?
    ensures PgWideRows("Hash", IntField(fs, "Plan Width").value) in NodeAdvice(Obj(fs)).value
  {
    RouteOther(fs, "Hash");
    NodeDispatches(fs);
    var w := WidthAdvice(fs, "Hash");
    assert w.Success? && w.value == [PgWideRows("Hash", IntField(fs, "Plan Width").value)];
    var b := BatchAdvice(fs);
    assert b.Success?;
    assert HashAdvice(fs, "Hash") == Success(w.value + b.value);
  }

  /** The sort, aggregate and hash types go to their own handlers. */
  lemma RouteOther(fs: Row, t: string)
    requires Get(fs, "Node Type") == Str(t)
    requires t == "Sort" || t == "Aggregate" || t == "Hash"
    ensures NodeType(fs) == t
    ensures t == "Sort" ==> Route(fs, t) == SortHandler
    ensures t == "Aggregate" ==> Route(fs, t) == AggregateHandler
    ensures t == "Hash" ==> Route(fs, t) == HashHandler
  {
    assert Text(Str(t)) == t;
    NoJoinIn(t);
  }

  lemma NoJoinIn(t: string)
    requires t == "Sort" || t == "Aggregate" || t == "Hash"
    ensures !Contains(t, "Join")
  {
    if Contains(t, "Join") {
      HasJ(t);
    }
  }

  /** A node of no handled type with workers and a worker number is reported
      as parallel. */
  lemma ParallelReported(fs: seq<Field>)
    requires !Handled(NodeType(fs)) && TimingReadable(fs)
    requires IntField(fs, "Workers").Success? && IntField(fs, "Workers").value > 0
    requires !Has(fs, "Workers Planned") || IntField(fs, "Workers Planned").Success?
    requires Has(fs, "Worker Number")
    ensures NodeAdvice(Obj(fs)).Success?
    ensures PgParallel(IntField(fs, "Workers").value) in NodeAdvice(Obj(fs)).value
  {
    assert Has(fs, "Workers");
    assert Route(fs, NodeType(fs)) == ParallelHandler;
    NodeDispatches(fs);
  }
}

=== FILE: select_rules.dfy ===
/** `SelectAdviceGenerator` and its duplicate `SelectRuleAnalyzer`: two
    substring tests on the upper-cased statement text. */
module SelectRules {
  import opened Strings
  import opened Advisories
  import opened Dialects
  import opened ExplainResults

  /** `SelectAdviceGenerator.generateAdvice`. */
  function Generate(e: SqlExplainResult): (r: seq<Advice>)
    ensures SelectStar in r <==> Contains(Upper(e.sql), "SELECT *")
    ensures UnconditionalDistinct in r <==>
      Contains(Upper(e.sql), "SELECT DISTINCT") && !Contains(Upper(e.sql), "WHERE")
    ensures |r| == (if Contains(Upper(e.sql), "SELECT *") then 1 else 0)
                 + (if Contains(Upper(e.sql), "SELECT DISTINCT") && !Contains(Upper(e.sql), "WHERE") then 1 else 0)
    ensures SelectStar in r ==> r[0] == SelectStar
    ensures forall a | a in r :: a == SelectStar || a == UnconditionalDistinct
  {
    var sql := Upper(e.sql);
    (if Contains(sql, "SELECT *") then [SelectStar] else [])
    + (if Contains(sql, "SELECT DISTINCT") && !Contains(sql, "WHERE") then [UnconditionalDistinct] else [])
  }

  /** `SelectRuleAnalyzer.generateAdvice`, written out separately as in the source. */
  function RuleAnalyzerGenerate(e: SqlExplainResult): (r: seq<Advice>)
    ensures SelectStar in r <==> Contains(Upper(e.sql), "SELECT *")
    ensures UnconditionalDistinct in r <==>
      Contains(Upper(e.sql), "SELECT DISTINCT") && !Contains(Upper(e.sql), "WHERE")
  {
    var sql := Upper(e.sql);
    var advice := if Contains(sql, "SELECT *") then [SelectStar] else [];
    if Contains(sql, "SELECT DISTINCT") && !Contains(sql, "WHERE") then advice + [UnconditionalDistinct]
    else advice
  }

  /** Both generators support every dialect. */
  predicate Supports(d: DatabaseType) {
    true
  }

  /** The two generators agree on every input. */
  lemma RuleAnalyzerAgrees(e: SqlExplainResult)
    ensures RuleAnalyzerGenerate(e) == Generate(e)
  {
  }

  /** The rules ignore the case of the statement. */
  lemma CaseInsensitive(e: SqlExplainResult)
    ensures Generate(e.(sql := Upper(e.sql))) == Generate(e)
  {
    UpperIdempotent(e.sql);
  }

  /** Only the statement text matters, not the plan rows or timings. */
  lemma OnlySqlMatters(e: SqlExplainResult, f: SqlExplainResult)
    requires e.sql == f.sql
    ensures Generate(e) == Generate(f)
  {
  }
}

=== FILE: sequences.dfy ===
/** Concatenating per-element outputs in order, as the generators' `for` loops
    and the engine's `flatMap` do; the `Result` form stops at the first element
    that throws and returns no partial output. */
module Sequences {
  import opened Wrappers

  /** Regrouping a concatenation, for proofs that build sequences piece by piece. */
  lemma Assoc<T>(a: seq<T>, b: seq<T>, c: seq<T>)
    ensures a + (b + c) == (a + b) + c
  {
  }

  lemma EmptyLeft<T>(x: seq<T>)
    ensures [] + x == x
  {
  }

  /** `f(xs[0]) + f(xs[1]) + ...`. */
  function Concat<T, A>(xs: seq<T>, f: T -> seq<A>): (r: seq<A>)
  {
    if xs == [] then [] else f(xs[0]) + Concat(xs[1..], f)
  }

  /** The same, for an `f` that may throw: the first failure wins. */
  function ConcatResult<T, A, E>(xs: seq<T>, f: T -> Result<seq<A>, E>): (r: Result<seq<A>, E>)
    ensures r.Success? <==> forall i :: 0 <= i < |xs| ==> f(xs[i]).Success?
  {
    if xs == [] then Success([])
    else
      match f(xs[0])
      case Failure(e) => Failure(e)
      case Success(a) =>
        match ConcatResult(xs[1..], f)
        case Failure(e) => Failure(e)
        case Success(b) => Success(a + b)
  }

  /** Concatenation distributes over appending inputs: output order is input order. */
  lemma {:induction false} ConcatAppend<T, A>(xs: seq<T>, ys: seq<T>, f: T -> seq<A>)
    ensures Concat(xs + ys, f) == Concat(xs, f) + Concat(ys, f)
  {
    if xs == [] {
      assert xs + ys == ys;
    } else {
      assert (xs + ys)[1..] == xs[1..] + ys;
      ConcatAppend(xs[1..], ys, f);
    }
  }

  /** An element is in the output exactly when some input produced it. */
  lemma {:induction false} ConcatMember<T, A>(xs: seq<T>, f: T -> seq<A>, a: A)
    ensures a in Concat(xs, f) <==> exists i :: 0 <= i < |xs| && a in f(xs[i])
  {
    if xs != [] {
      ConcatMember(xs[1..], f, a);
      if a in Concat(xs[1..], f) {
        var i :| 0 <= i < |xs[1..]| && a in f(xs[1..][i]);
        assert a in f(xs[i + 1]);
      }
      if exists i :: 0 <= i < |xs| && a in f(xs[i]) {
        var i :| 0 <= i < |xs| && a in f(xs[i]);
        if i > 0 {
          assert a in f(xs[1..][i - 1]);
        }
      }
    }
  }

  /** When each input yields at most `k` outputs, `n` inputs yield at most `k * n`. */
  lemma {:induction false} ConcatBound<T, A>(xs: seq<T>, f: T -> seq<A>, k: nat)
    requires forall i :: 0 <= i < |xs| ==> |f(xs[i])| <= k
    ensures |Concat(xs, f)| <= k * |xs|
  {
    if xs != [] {
      assert forall i :: 0 <= i < |xs[1..]| ==> |f(xs[1..][i])| <= k by {
        forall i | 0 <= i < |xs[1..]| ensures |f(xs[1..][i])| <= k {
          assert xs[1..][i] == xs[i + 1];
        }
      }
      ConcatBound(xs[1..], f, k);
      assert k * |xs| == k * |xs[1..]| + k;
    }
  }

  /** A throwing `f` that never throws concatenates like the pure one. */
  lemma {:induction false} ConcatResultPure<T, A, E>(xs: seq<T>, f: T -> Result<seq<A>, E>, g: T -> seq<A>)
    requires forall x :: f(x) == Success(g(x))
    ensures ConcatResult(xs, f) == Success(Concat(xs, g))
  {
    if xs != [] {
      ConcatResultPure(xs[1..], f, g);
    }
  }

  /** Appending inputs appends outputs; a failure in the first part masks the second. */
  lemma {:induction false} ConcatResultAppend<T, A, E>(xs: seq<T>, ys: seq<T>, f: T -> Result<seq<A>, E>)
    ensures ConcatResult(xs, f).Failure? ==> ConcatResult(xs + ys, f) == ConcatResult(xs, f)
    ensures ConcatResult(xs, f).Success? && ConcatResult(ys, f).Success? ==>
      ConcatResult(xs + ys, f) == Success(ConcatResult(xs, f).value + ConcatResult(ys, f).value)
    ensures ConcatResult(xs, f).Success? && ConcatResult(ys, f).Failure? ==>
      ConcatResult(xs + ys, f) == ConcatResult(ys, f)
  {
    if xs == [] {
      assert xs + ys == ys;
      if ConcatResult(ys, f).Success? {
        var c := ConcatResult(ys, f).value;
        assert [] + c == c;
      }
    } else {
      var zs := xs + ys;
      assert zs[0] == xs[0];
      assert zs[1..] == xs[1..] + ys;
      ConcatResultAppend(xs[1..], ys, f);
      ConcatResultStep(xs, f);
      ConcatResultStep(zs, f);
      JoinAppend(f(xs[0]), ConcatResult(xs[1..], f), ConcatResult(ys, f), ConcatResult(zs[1..], f));
    }
  }

  /** The first output, then the rest: the shape of `ConcatResult` on a non-empty input. */
  function Join<A, E>(head: Result<seq<A>, E>, tail: Result<seq<A>, E>): (r: Result<seq<A>, E>)
    ensures r.Success? <==> head.Success? && tail.Success?
  {
    match head
    case Failure(e) => Failure(e)
    case Success(a) =>
      match tail
      case Failure(e) => Failure(e)
      case Success(b) => Success(a + b)
  }

  lemma ConcatResultStep<T, A, E>(xs: seq<T>, f: T -> Result<seq<A>, E>)
    requires xs != []
    ensures ConcatResult(xs, f) == Join(f(xs[0]), ConcatResult(xs[1..], f))
  {
  }

  /** `ConcatResultAppend`'s step, over the results alone. */
  lemma JoinAppend<A, E>(head: Result<seq<A>, E>, rest: Result<seq<A>, E>, ys: Result<seq<A>, E>, tail: Result<seq<A>, E>)
    requires rest.Failure? ==> tail == rest
    requires rest.Success? && ys.Success? ==> tail == Success(rest.value + ys.value)
    requires rest.Success? && ys.Failure? ==> tail == ys
    ensures Join(head, rest).Failure? ==> Join(head, tail) == Join(head, rest)
    ensures Join(head, rest).Success? && ys.Success? ==> Join(head, tail) == Success(Join(head, rest).value + ys.value)
    ensures Join(head, rest).Success? && ys.Failure? ==> Join(head, tail) == ys
  {
    if head.Success? && rest.Success? && ys.Success? {
      assert head.value + (rest.value + ys.value) == (head.value + rest.value) + ys.value;
    }
  }

  /** An advisory is in a successful output exactly when some input produced it. */
  lemma {:induction false} ConcatResultMember<T, A, E>(xs: seq<T>, f: T -> Result<seq<A>, E>, a: A)
    requires ConcatResult(xs, f).Success?
    ensures a in ConcatResult(xs, f).value <==> exists i :: 0 <= i < |xs| && a in f(xs[i]).value
  {
    if xs != [] {
      assert f(xs[0]).Success?;
      assert forall i :: 0 <= i < |xs[1..]| ==> f(xs[1..][i]).Success? by {
        forall i | 0 <= i < |xs[1..]| ensures f(xs[1..][i]).Success? {
          assert xs[1..][i] == xs[i + 1];
        }
      }
      ConcatResultMember(xs[1..], f, a);
      if a in ConcatResult(xs[1..], f).value {
        var i :| 0 <= i < |xs[1..]| && a in f(xs[1..][i]).value;
        assert a in f(xs[i + 1]).value;
      }
      if exists i :: 0 <= i < |xs| && a in f(xs[i]).value {
        var i :| 0 <= i < |xs| && a in f(xs[i]).value;
        if i > 0 {
          assert a in f(xs[1..][i - 1]).value;
        }
      }
    }
  }

  /** The length of a successful output is the sum of the per-input lengths,
      so a bound per input bounds the whole. */
  lemma {:induction false} ConcatResultBound<T, A, E>(xs: seq<T>, f: T -> Result<seq<A>, E>, k: nat)
    requires ConcatResult(xs, f).Success?
    requires forall i :: 0 <= i < |xs| ==> |f(xs[i]).value| <= k
    ensures |ConcatResult(xs, f).value| <= k * |xs|
  {
    if xs != [] {
      assert forall i :: 0 <= i < |xs[1..]| ==> f(xs[1..][i]).Success? && |f(xs[1..][i]).value| <= k by {
        forall i | 0 <= i < |xs[1..]| ensures f(xs[1..][i]).Success? && |f(xs[1..][i]).value| <= k {
          assert xs[1..][i] == xs[i + 1];
        }
      }
      ConcatResultBound(xs[1..], f, k);
      assert k * |xs| == k * |xs[1..]| + k;
    }
  }

}

=== FILE: sql_helper.dfy ===
/** The small statement helpers (`SqlHepler`): reading one named parameter,
    capitalising a property name, the EXPLAIN gate and the whitespace
    normalisation applied to statement text. */
module SqlHelper {
  import opened Wrappers
  import opened Strings
  import opened Values
  import Sequences

  // ---------------------------------------------------------------------------
  // Parameter lookup
  // ---------------------------------------------------------------------------

  /** A String, Number, Boolean, Character or Enum (a primitive never reaches
      this test boxed otherwise). */
  predicate IsBasicTypeOrWrapper(v: Value) {
    v.Str? || v.Int? || v.Dbl? || v.Bool? || v.Chr? || v.Enum?
  }

  /** `capitalize`: `None` is a null string; only the first character is
      upper-cased. */
  function Capitalize(s: Option<string>): (r: Option<string>)
    ensures s.None? <==> r.None?
    ensures s.Some? ==> |r.value| == |s.value|
    ensures s.Some? && s.value != [] ==> r.value[0] == UpperChar(s.value[0]) && r.value[1..] == s.value[1..]
  {
    match s
    case None => None
    case Some(t) => if t == [] then Some(t) else Some([UpperChar(t[0])] + t[1..])
  }

  /** The getter `getParameterValue` looks for by reflection. */
  function GetterName(name: string): string {
    "get" + Capitalize(Some(name)).value
  }

  /** The value of the first bean property read by the method `getter`, `Null`
      when the bean has no such public method (the reflective exception is
      caught and null returned). */
  function ReadProperty(props: seq<Prop>, getter: string): (r: Value)
    ensures (forall i | 0 <= i < |props| :: props[i].reader != Some(getter)) ==> r == Null
    ensures r != Null ==> exists i | 0 <= i < |props| :: props[i].reader == Some(getter) && props[i].value == r
  {
    if props == [] then Null
    else if props[0].reader == Some(getter) then props[0].value
    else ReadProperty(props[1..], getter)
  }

  /** `getParameterValue(parameterObject, propertyName)`; `None` is a null
      property name. */
  function GetParameterValue(param: Value, name: Option<string>): (r: Value)
    ensures param == Null || name.None? || name == Some([]) ==> r == Null
    ensures param != Null && name.Some? && name.value != [] && IsBasicTypeOrWrapper(param) ==> r == param
    ensures param.Obj? && name.Some? && name.value != [] ==> r == Get(param.fields, name.value)
    ensures param.Bean? && name.Some? && name.value != [] ==> r == ReadProperty(param.props, GetterName(name.value))
    ensures param.List? || param.Coll? || param.Arr? || param.Uuid? ==> r == Null
  {
    if param == Null || name.None? || name.value == [] then Null
    else if IsBasicTypeOrWrapper(param) then param
    else
      match param
      case Obj(fs) => Get(fs, name.value)
      case Bean(_, props) => ReadProperty(props, GetterName(name.value))
      case _ => Null
  }

  /** Capitalising twice is capitalising once. */
  lemma CapitalizeIdempotent(s: Option<string>)
    ensures Capitalize(Capitalize(s)) == Capitalize(s)
  {
    if s.Some? && s.value != [] {
      var t := s.value;
      assert UpperChar(UpperChar(t[0])) == UpperChar(t[0]);
      assert Capitalize(s).value == [UpperChar(t[0])] + t[1..];
    }
  }

  /** A name that already starts with a capital (or with no letter) is left as it is. */
  lemma CapitalizeFixesCapitalised(t: string)
    requires t != [] && !('a' <= t[0] <= 'z')
    ensures Capitalize(Some(t)) == Some(t)
  {
    assert [t[0]] + t[1..] == t;
  }

  /** A scalar parameter answers every property name with itself. */
  lemma ScalarIgnoresName(param: Value, a: string, b: string)
    requires IsBasicTypeOrWrapper(param) && a != [] && b != []
    ensures GetParameterValue(param, Some(a)) == GetParameterValue(param, Some(b)) == param
  {
  }

  /** A bean property is found through its conventional getter. */
  lemma BeanGetterFound(cls: string, name: string, v: Value)
    requires name != []
    ensures GetParameterValue(Bean(cls, [Prop(name, Some(GetterName(name)), v)]), Some(name)) == v
  {
  }

  // ---------------------------------------------------------------------------
  // The EXPLAIN gate
  // ---------------------------------------------------------------------------

  const UPPER_EXPLAIN: string := "EXPLAIN"
  const LOWER_EXPLAIN: string := "explain"

  /** `shouldExplain`: a statement is skipped only when it mentions EXPLAIN in
      upper case and in lower case. */
  predicate ShouldExplain(sql: string) {
    !Contains(sql, UPPER_EXPLAIN) || !Contains(sql, LOWER_EXPLAIN)
  }

  /** The gate rejects exactly the statements holding both spellings. */
  lemma ShouldExplainRejectsOnlyBoth(sql: string)
    ensures !ShouldExplain(sql) <==> Contains(sql, UPPER_EXPLAIN) && Contains(sql, LOWER_EXPLAIN)
  {
  }

  /** So a statement written `EXPLAIN ...` in upper case alone still passes
      the gate, whatever follows it. */
  lemma UpperCaseExplainPasses(rest: string)
    requires !Contains(rest, LOWER_EXPLAIN)
    ensures ShouldExplain(UPPER_EXPLAIN + rest)
  {
    var s := UPPER_EXPLAIN + rest;
    ContainsIff(s, LOWER_EXPLAIN);
    ContainsIff(rest, LOWER_EXPLAIN);
    forall i | 0 <= i ensures !OccursAt(s, LOWER_EXPLAIN, i) {
      NoLowerExplainAt(rest, i);
    }
  }

  lemma NoLowerExplainAt(rest: string, i: int)
    requires forall j :: !OccursAt(rest, LOWER_EXPLAIN, j)
    ensures !OccursAt(UPPER_EXPLAIN + rest, LOWER_EXPLAIN, i)
  {
    var s := UPPER_EXPLAIN + rest;
    if 0 <= i && i + 7 <= |s| {
      if i < 7 {
        assert s[i..i + 7][0] == UPPER_EXPLAIN[i] != LOWER_EXPLAIN[0];
      } else {
        assert s[i..i + 7] == rest[i - 7..i];
        assert !OccursAt(rest, LOWER_EXPLAIN, i - 7);
      }
    }
  }

  // ---------------------------------------------------------------------------
  // Whitespace normalisation (the part of `prepareSql` after comment removal)
  // ---------------------------------------------------------------------------

  /** `(?m)^`: the start of the input, or a position after a line terminator
      that is not the end of the input and does not split a CR LF pair. */
  predicate LineStart(prev: Option<char>, s: string) {
    s != [] && (prev.None? || (IsLineTerminator(prev.value) && !(prev.value == '\r' && s[0] == '\n')))
  }

  /** The length of the whitespace run `s` starts with. */
  function SpaceRun(s: string): (n: nat)
    ensures n <= |s|
    ensures forall i | 0 <= i < n :: IsSpace(s[i])
    ensures n < |s| ==> !IsSpace(s[n])
  {
    if s != [] && IsSpace(s[0]) then 1 + SpaceRun(s[1..]) else 0
  }

  /** `replaceAll("(?m)^\\s+", "")`; `prev` is the character before `s`. */
  function StripLineStarts(s: string, prev: Option<char>): (r: string)
    decreases |s|
  {
    if s == [] then []
    else if LineStart(prev, s) && IsSpace(s[0]) then
      var n := SpaceRun(s);
      StripLineStarts(s[n..], Some(s[n - 1]))
    else [s[0]] + StripLineStarts(s[1..], Some(s[0]))
  }

  /** `replaceAll("\\s+", " ")`. */
  function Collapse(s: string): (r: string)
    ensures NoDoubleSpace(r)
    ensures r != [] && IsSpace(r[0]) ==> s != [] && IsSpace(s[0])
    ensures forall i | 0 <= i < |r| :: IsSpace(r[i]) ==> r[i] == ' '
    decreases |s|
  {
    if s == [] then []
    else if IsSpace(s[0]) then
      var n := SpaceRun(s);
      var rest := Collapse(s[n..]);
      assert rest != [] ==> !IsSpace(rest[0]);
      [' '] + rest
    else [s[0]] + Collapse(s[1..])
  }

  /** No two adjacent whitespace characters. */
  predicate NoDoubleSpace(s: string) {
    forall i | 0 <= i < |s| - 1 :: !(IsSpace(s[i]) && IsSpace(s[i + 1]))
  }

  /** The whitespace part of `prepareSql` on comment-free text. */
  function PrepareSql(s: string): (r: string)
    ensures r != [] ==> !IsSpace(r[0]) && !IsSpace(r[|r| - 1])
    ensures NoDoubleSpace(r)
  {
    var c := Collapse(StripLineStarts(s, None));
    var r := Trim(c);
    NoDoubleSpaceInfix(c, r);
    TrimmedEdges(r);
    r
  }

  lemma TrimmedEdges(r: string)
    requires r != [] ==> !IsTrimmable(r[0]) && !IsTrimmable(r[|r| - 1])
    ensures r != [] ==> !IsSpace(r[0]) && !IsSpace(r[|r| - 1])
  {
    if r != [] {
      SpaceIsTrimmable(r[0]);
      SpaceIsTrimmable(r[|r| - 1]);
    }
  }

  /** A stretch of text without double whitespace has none either. */
  lemma NoDoubleSpaceInfix(s: string, r: string)
    requires NoDoubleSpace(s) && exists i :: OccursAt(s, r, i)
    ensures NoDoubleSpace(r)
  {
    var i :| OccursAt(s, r, i);
    forall k | 0 <= k < |r| - 1 ensures !(IsSpace(r[k]) && IsSpace(r[k + 1])) {
      assert r[k] == s[i + k] && r[k + 1] == s[i + k + 1];
    }
  }

  /** The characters normalisation never touches: everything above U+0020. */
  function Visible(s: string): (r: string)
  {
    if s == [] then [] else (if IsTrimmable(s[0]) then [] else [s[0]]) + Visible(s[1..])
  }

  lemma {:induction false} VisibleAppend(a: string, b: string)
    ensures Visible(a + b) == Visible(a) + Visible(b)
  {
    if a != [] {
      assert (a + b)[1..] == a[1..] + b;
      VisibleAppend(a[1..], b);
    } else {
      assert a + b == b;
    }
  }

  lemma {:induction false} VisibleSpaceRun(s: string)
    ensures Visible(s[SpaceRun(s)..]) == Visible(s)
    decreases |s|
  {
    if s != [] && IsSpace(s[0]) {
      VisibleSpaceRun(s[1..]);
      assert s[1..][SpaceRun(s[1..])..] == s[SpaceRun(s)..];
    }
  }

  lemma {:induction false} StripKeepsVisible(s: string, prev: Option<char>)
    ensures Visible(StripLineStarts(s, prev)) == Visible(s)
    decreases |s|
  {
    if s != [] {
      if LineStart(prev, s) && IsSpace(s[0]) {
        var n := SpaceRun(s);
        StripKeepsVisible(s[n..], Some(s[n - 1]));
        VisibleSpaceRun(s);
      } else {
        StripKeepsVisible(s[1..], Some(s[0]));
        VisibleAppend([s[0]], StripLineStarts(s[1..], Some(s[0])));
      }
    }
  }

  lemma {:induction false} CollapseKeepsVisible(s: string)
    ensures Visible(Collapse(s)) == Visible(s)
    decreases |s|
  {
    if s != [] {
      if IsSpace(s[0]) {
        var n := SpaceRun(s);
        CollapseKeepsVisible(s[n..]);
        VisibleSpaceRun(s);
        VisibleAppend([' '], Collapse(s[n..]));
      } else {
        CollapseKeepsVisible(s[1..]);
        VisibleAppend([s[0]], Collapse(s[1..]));
      }
    }
  }

  lemma {:induction false} TrimStartKeepsVisible(s: string)
    ensures Visible(TrimStart(s)) == Visible(s)
    decreases |s|
  {
    if s != [] && IsTrimmable(s[0]) {
      TrimStartKeepsVisible(s[1..]);
    }
  }

  lemma {:induction false} TrimEndKeepsVisible(s: string)
    ensures Visible(TrimEnd(s)) == Visible(s)
    decreases |s|
  {
    if s != [] && IsTrimmable(s[|s| - 1]) {
      var t := s[..|s| - 1];
      TrimEndKeepsVisible(t);
      assert s == t + [s[|s| - 1]];
      VisibleAppend(t, [s[|s| - 1]]);
    }
  }

  /** Normalisation only removes or rewrites whitespace and control
      characters: every other character survives, in order. */
  lemma PrepareSqlKeepsVisible(s: string)
    ensures Visible(PrepareSql(s)) == Visible(s)
  {
    var c := Collapse(StripLineStarts(s, None));
    StripKeepsVisible(s, None);
    CollapseKeepsVisible(StripLineStarts(s, None));
    TrimStartKeepsVisible(c);
    TrimEndKeepsVisible(TrimStart(c));
  }

  /** Text that is all whitespace normalises to the empty string. */
  lemma {:induction false} BlankVanishes(s: string)
    requires forall i | 0 <= i < |s| :: IsSpace(s[i])
    ensures PrepareSql(s) == []
  {
    if s != [] {
      assert SpaceRun(s) == |s| by { SpaceRunAll(s); }
      assert StripLineStarts(s, None) == [];
    }
  }

  /** Text without whitespace, control characters or line terminators. */
  predicate Word(s: string) {
    forall i | 0 <= i < |s| :: !IsTrimmable(s[i]) && !IsLineTerminator(s[i])
  }

  lemma {:induction false} CollapseWord(a: string)
    requires Word(a)
    ensures Collapse(a) == a
    decreases |a|
  {
    if a != [] {
      SpaceIsTrimmable(a[0]);
      assert Word(a[1..]) by {
        forall i | 0 <= i < |a[1..]| ensures !IsTrimmable(a[1..][i]) && !IsLineTerminator(a[1..][i]) {
          assert a[1..][i] == a[i + 1];
        }
      }
      CollapseWord(a[1..]);
      assert a == [a[0]] + a[1..];
    }
  }

  /** A whitespace run that starts inside `x` ends inside it when `x` ends visibly. */
  lemma {:induction false} SpaceRunAppend(x: string, y: string)
    requires x != [] && !IsSpace(x[|x| - 1])
    ensures SpaceRun(x + y) == SpaceRun(x)
    decreases |x|
  {
    if IsSpace(x[0]) {
      assert |x| > 1;
      assert (x + y)[1..] == x[1..] + y;
      SpaceRunAppend(x[1..], y);
    }
  }

  lemma {:induction false} SpaceRunSpaces(w: string, b: string)
    requires forall i | 0 <= i < |w| :: IsSpace(w[i])
    requires b == [] || !IsSpace(b[0])
    ensures SpaceRun(w + b) == |w|
    decreases |w|
  {
    if w == [] {
      assert w + b == b;
    } else {
      assert (w + b)[1..] == w[1..] + b;
      SpaceRunSpaces(w[1..], b);
    }
  }

  /** `replaceAll("\\s+", " ")` keeps words apart: a whitespace run between
      two texts becomes exactly one space, and each side collapses on its own. */
  lemma CollapseSeparates(a: string, w: string, b: string)
    requires w != [] && forall i | 0 <= i < |w| :: IsSpace(w[i])
    requires a == [] || !IsSpace(a[|a| - 1])
    requires b == [] || !IsSpace(b[0])
    ensures Collapse(a + w + b) == Collapse(a) + " " + Collapse(b)
  {
    CollapseRunFirst(w, b);
    if a != [] {
      CollapseSplits(a, w + b);
      Sequences.Assoc(a, w, b);
      Sequences.Assoc(Collapse(a), " ", Collapse(b));
    } else {
      Sequences.EmptyLeft(w);
      Sequences.EmptyLeft(" " + Collapse(b));
      Sequences.Assoc(a, w, b);
      Sequences.Assoc(Collapse(a), " ", Collapse(b));
    }
  }

  /** No whitespace run crosses the end of a text that ends visibly. */
  lemma {:induction false} CollapseSplits(x: string, y: string)
    requires x != [] && !IsSpace(x[|x| - 1])
    ensures Collapse(x + y) == Collapse(x) + Collapse(y)
    decreases |x|
  {
    if IsSpace(x[0]) {
      var n := SpaceRun(x);
      CollapseLeadingRun(x, y);
      var x' := x[n..];
      assert x' != [] && x'[|x'| - 1] == x[|x| - 1];
      CollapseSplits(x', y);
      Sequences.Assoc([' '], Collapse(x'), Collapse(y));
    } else if |x| == 1 {
      CollapseVisibleHead(x, y);
      assert x[1..] == [];
      Sequences.EmptyLeft(y);
    } else {
      var x' := x[1..];
      assert x'[|x'| - 1] == x[|x| - 1];
      CollapseSplits(x', y);
      CollapseVisibleHead(x, y);
      Sequences.Assoc([x[0]], Collapse(x'), Collapse(y));
    }
  }

  lemma CollapseVisibleHead(a: string, t: string)
    requires a != [] && !IsSpace(a[0])
    ensures Collapse(a + t) == [a[0]] + Collapse(a[1..] + t)
    ensures Collapse(a) == [a[0]] + Collapse(a[1..])
  {
    assert (a + t)[1..] == a[1..] + t;
  }

  lemma CollapseRunFirst(w: string, b: string)
    requires w != [] && forall i | 0 <= i < |w| :: IsSpace(w[i])
    requires b == [] || !IsSpace(b[0])
    ensures Collapse(w + b) == " " + Collapse(b)
  {
    SpaceRunSpaces(w, b);
    assert (w + b)[|w|..] == b;
  }

  /** A leading run inside `a` collapses the same with or without a tail. */
  lemma CollapseLeadingRun(a: string, t: string)
    requires a != [] && IsSpace(a[0]) && !IsSpace(a[|a| - 1])
    ensures SpaceRun(a) < |a|
    ensures Collapse(a + t) == [' '] + Collapse(a[SpaceRun(a)..] + t)
    ensures Collapse(a) == [' '] + Collapse(a[SpaceRun(a)..])
  {
    SpaceRunAppend(a, t);
    assert (a + t)[SpaceRun(a)..] == a[SpaceRun(a)..] + t;
  }

  /** On a single line no whitespace sits at a line start once the first
      character is visible, so `(?m)^\\s+` removes nothing. */
  lemma {:induction false} StripSingleLine(s: string, prev: Option<char>)
    requires forall i | 0 <= i < |s| :: !IsLineTerminator(s[i])
    requires prev.Some? ==> !IsLineTerminator(prev.value)
    requires prev.None? && s != [] ==> !IsSpace(s[0])
    ensures StripLineStarts(s, prev) == s
    decreases |s|
  {
    if s != [] {
      StripSingleLine(s[1..], Some(s[0]));
      assert s == [s[0]] + s[1..];
    }
  }

  /** Two words separated by blanks on one line normalise to the words with
      one space between them. */
  lemma PrepareSqlSeparatesWords(a: string, w: string, b: string)
    requires a != [] && b != [] && Word(a) && Word(b)
    requires w != [] && forall i | 0 <= i < |w| :: IsSpace(w[i]) && !IsLineTerminator(w[i])
    ensures PrepareSql(a + w + b) == a + " " + b
  {
    var s := a + w + b;
    WordsOnOneLine(a, w, b);
    StripSingleLine(s, None);
    CollapseWords(a, w, b);
    TrimVisible(a + " " + b);
  }

  lemma WordsOnOneLine(a: string, w: string, b: string)
    requires a != [] && Word(a) && Word(b)
    requires forall i | 0 <= i < |w| :: !IsLineTerminator(w[i])
    ensures forall i | 0 <= i < |a + w + b| :: !IsLineTerminator((a + w + b)[i])
    ensures !IsSpace((a + w + b)[0])
  {
    SpaceIsTrimmable(a[0]);
    var s := a + w + b;
    forall i | 0 <= i < |s| ensures !IsLineTerminator(s[i]) {
      if i < |a| { assert s[i] == a[i]; }
      else if i < |a| + |w| { assert s[i] == w[i - |a|]; }
      else { assert s[i] == b[i - |a| - |w|]; }
    }
  }

  lemma CollapseWords(a: string, w: string, b: string)
    requires a != [] && b != [] && Word(a) && Word(b)
    requires w != [] && forall i | 0 <= i < |w| :: IsSpace(w[i])
    ensures Collapse(a + w + b) == a + " " + b
    ensures !IsTrimmable((a + " " + b)[0]) && !IsTrimmable((a + " " + b)[|a + " " + b| - 1])
  {
    SpaceIsTrimmable(a[|a| - 1]);
    SpaceIsTrimmable(b[0]);
    CollapseSeparates(a, w, b);
    CollapseWord(a);
    CollapseWord(b);
    var r := a + " " + b;
    assert r[0] == a[0] && r[|r| - 1] == b[|b| - 1];
  }

  lemma TrimVisible(r: string)
    requires r != [] && !IsTrimmable(r[0]) && !IsTrimmable(r[|r| - 1])
    ensures Trim(r) == r
  {
    assert TrimStart(r) == r;
  }

  lemma {:induction false} SpaceRunAll(s: string)
    requires forall i | 0 <= i < |s| :: IsSpace(s[i])
    ensures SpaceRun(s) == |s|
    decreases |s|
  {
    if s != [] {
      SpaceRunAll(s[1..]);
    }
  }
}

=== FILE: statement.dfy ===
/** The parts of a JSqlParser parse tree the rules look at. The parser itself
    is not modelled: a rule receives it as a function from statement text to a
    parse tree, `None` standing for a `JSQLParserException`. */
module Statements {
  import opened Wrappers

  /** A WHERE-clause expression: a column reference, a literal, a function call
      (JSqlParser leaves the parameter list null for a call without
      arguments) or a binary operator such as AND, OR or `=`. */
  datatype Expr =
    | Column(name: string)
    | Literal(text: string)
    | Function(name: string, parameters: Option<seq<Expr>>)
    | Binary(op: string, left: Expr, right: Expr)

  /** A LIMIT clause: the rendered offset and row-count expressions (either may
      be null) and the clause's own rendering (`Limit.toString()`). */
  datatype Limit = Limit(offset: Option<string>, rowCount: Option<string>, rendered: string)

  /** A parsed statement: a plain SELECT with its WHERE, LIMIT and ORDER BY
      parts (each null when absent), some other SELECT body (a set operation,
      say) or any other statement. */
  datatype Statement =
    | PlainSelect(where: Option<Expr>, limit: Option<Limit>, orderBy: Option<seq<Expr>>)
    | OtherSelect
    | OtherStatement

  /** `CCJSqlParserUtil.parse`. */
  type Parser = string -> Option<Statement>
}

=== FILE: strings.dfy ===
/** Java string operations used by the rules: ASCII case mapping, substring
    search, number rendering and parsing, and the character classes of
    `java.util.regex`. */
module Strings {
  import opened Wrappers

  // ---------------------------------------------------------------------------
  // Case mapping (ASCII only; Java's locale-sensitive mapping is not modelled)
  // ---------------------------------------------------------------------------

  function UpperChar(c: char): char {
    if 'a' <= c <= 'z' then (c as int - 32) as char else c
  }

  /** `String.toUpperCase()` on ASCII text. */
  function Upper(s: string): (r: string)
    ensures |r| == |s|
    ensures forall i :: 0 <= i < |s| ==> r[i] == UpperChar(s[i])
  {
    if s == [] then [] else [UpperChar(s[0])] + Upper(s[1..])
  }

  /** `String.equalsIgnoreCase` on ASCII text: same length, and the same
      characters once upper-cased. */
  predicate EqualsIgnoreCase(a: string, b: string) {
    |a| == |b| && forall i :: 0 <= i < |a| ==> UpperChar(a[i]) == UpperChar(b[i])
  }

  /** Ignoring case is comparing the upper-cased texts. */
  lemma EqualsIgnoreCaseUpper(a: string, b: string)
    ensures EqualsIgnoreCase(a, b) <==> Upper(a) == Upper(b)
  {
    if Upper(a) == Upper(b) {
      assert forall i :: 0 <= i < |a| ==> Upper(a)[i] == UpperChar(a[i]);
    }
  }

  /** Two texts that differ in length, or in some position once upper-cased,
      cannot both equal a third one ignoring case. */
  lemma IgnoreCaseExclusive(a: string, b: string, k: nat, s: string)
    requires |a| != |b| || (k < |a| && k < |b| && UpperChar(a[k]) != UpperChar(b[k]))
    ensures !(EqualsIgnoreCase(a, s) && EqualsIgnoreCase(b, s))
  {
    if EqualsIgnoreCase(a, s) && |a| == |b| && k < |a| {
      assert UpperChar(a[k]) == UpperChar(s[k]);
    }
  }

  /** Text without lower-case letters is its own upper case. */
  lemma UpperOfUpper(s: string)
    requires forall i | 0 <= i < |s| :: !('a' <= s[i] <= 'z')
    ensures Upper(s) == s
  {
  }

  lemma UpperAppend(a: string, b: string)
    ensures Upper(a + b) == Upper(a) + Upper(b)
  {
    assert forall i | 0 <= i < |a + b| :: Upper(a + b)[i] == (Upper(a) + Upper(b))[i];
  }

  lemma UpperIdempotent(s: string)
    ensures Upper(Upper(s)) == Upper(s)
  {
  }

  // ---------------------------------------------------------------------------
  // Substring search
  // ---------------------------------------------------------------------------

  predicate StartsWith(s: string, p: string) {
    |p| <= |s| && s[..|p|] == p
  }

  /** `String.contains`: some suffix of `s` starts with `p`. */
  predicate Contains(s: string, p: string)
    decreases |s|
  {
    StartsWith(s, p) || (|s| > 0 && Contains(s[1..], p))
  }

  /** `p` occurs in `s` at position `i`. */
  predicate OccursAt(s: string, p: string, i: int) {
    0 <= i && i + |p| <= |s| && s[i..i + |p|] == p
  }

  /** The search above finds exactly the positions where `p` occurs. */
  lemma {:induction false} ContainsIff(s: string, p: string)
    ensures Contains(s, p) <==> exists i :: OccursAt(s, p, i)
    decreases |s|
  {
    if StartsWith(s, p) {
      assert OccursAt(s, p, 0);
    } else if |s| > 0 {
      ContainsIff(s[1..], p);
      forall i | OccursAt(s[1..], p, i)
        ensures OccursAt(s, p, i + 1)
      {
        assert s[1..][i..i + |p|] == s[i + 1..i + 1 + |p|];
      }
      forall i | OccursAt(s, p, i)
        ensures OccursAt(s[1..], p, i - 1)
      {
        assert s[1..][i - 1..i - 1 + |p|] == s[i..i + |p|];
      }
    }
  }

  lemma ContainsAt(s: string, p: string, i: int)
    requires OccursAt(s, p, i)
    ensures Contains(s, p)
  {
    ContainsIff(s, p);
  }

  /** A text that contains `p` contains every piece of `p`. */
  lemma ContainsInfix(s: string, p: string, q: string)
    requires Contains(s, p) && Contains(p, q)
    ensures Contains(s, q)
  {
    ContainsIff(s, p);
    ContainsIff(p, q);
    var i :| OccursAt(s, p, i);
    var j :| OccursAt(p, q, j);
    assert forall k :: 0 <= k < |q| ==> q[k] == p[j + k] == s[i + j + k];
    assert s[i + j..i + j + |q|] == q;
    ContainsAt(s, q, i + j);
  }

  /** `s` never contains a pattern longer than itself. */
  lemma ContainsNotLonger(s: string, p: string)
    requires |s| < |p|
    ensures !Contains(s, p)
  {
    ContainsIff(s, p);
  }

  /** A text that contains a pattern holds the pattern's first character. */
  lemma ContainsHead(s: string, p: string)
    requires p != []
    ensures Contains(s, p) ==> exists k | 0 <= k < |s| :: s[k] == p[0]
  {
    ContainsIff(s, p);
    if Contains(s, p) {
      var i :| OccursAt(s, p, i);
      assert s[i..i + |p|][0] == p[0];
    }
  }

  // ---------------------------------------------------------------------------
  // Character classes
  // ---------------------------------------------------------------------------

  predicate IsDigit(c: char) {
    '0' <= c <= '9'
  }

  predicate AllDigits(s: string) {
    forall i :: 0 <= i < |s| ==> IsDigit(s[i])
  }

  /** Java regex `\w` (ASCII): a letter, digit or underscore. */
  predicate IsWordChar(c: char) {
    'a' <= c <= 'z' || 'A' <= c <= 'Z' || IsDigit(c) || c == '_'
  }

  /** Java regex `\s`: space, tab, newline, vertical tab, form feed, carriage return. */
  predicate IsSpace(c: char) {
    c == ' ' || c == '\t' || c == '\n' || c as int == 11 || c as int == 12 || c == '\r'
  }

  /** The line terminators of `java.util.regex` (without UNIX_LINES). */
  predicate IsLineTerminator(c: char) {
    c == '\n' || c == '\r' || c as int == 0x85 || c as int == 0x2028 || c as int == 0x2029
  }

  /** The characters `String.trim()` removes: code points up to U+0020. */
  predicate IsTrimmable(c: char) {
    c as int <= 32
  }

  lemma SpaceIsTrimmable(c: char)
    ensures IsSpace(c) ==> IsTrimmable(c)
  {
  }

  /** `String.trim()`. */
  function Trim(s: string): (r: string)
    ensures |r| <= |s|
    ensures r != [] ==> !IsTrimmable(r[0]) && !IsTrimmable(r[|r| - 1])
    ensures exists i :: OccursAt(s, r, i)
  {
    var t := TrimStart(s);
    var u := TrimEnd(t);
    assert OccursAt(s, u, |s| - |t|);
    u
  }

  function TrimStart(s: string): (r: string)
    ensures |r| <= |s| && r == s[|s| - |r|..]
    ensures r != [] ==> !IsTrimmable(r[0])
  {
    if s != [] && IsTrimmable(s[0]) then TrimStart(s[1..]) else s
  }

  function TrimEnd(s: string): (r: string)
    ensures |r| <= |s| && r == s[..|r|]
    ensures r != [] ==> !IsTrimmable(r[|r| - 1])
  {
    if s != [] && IsTrimmable(s[|s| - 1]) then TrimEnd(s[..|s| - 1]) else s
  }

  // ---------------------------------------------------------------------------
  // Integer rendering and parsing
  // ---------------------------------------------------------------------------

  const LONG_MIN: int := -0x8000_0000_0000_0000
  const LONG_MAX: int := 0x7FFF_FFFF_FFFF_FFFF
  const INT_MIN: int := -0x8000_0000
  const INT_MAX: int := 0x7FFF_FFFF

  function DigitChar(d: nat): char
    requires d < 10
  {
    ('0' as int + d) as char
  }

  /** The decimal digits of `n`, most significant first, without leading zeros. */
  function NatText(n: nat): (r: string)
    ensures |r| >= 1 && AllDigits(r)
    ensures r[0] == '0' ==> n == 0
  {
    if n < 10 then [DigitChar(n)] else NatText(n / 10) + [DigitChar(n % 10)]
  }

  /** `Long.toString` / `String.valueOf(long)`. */
  function IntText(n: int): string {
    if n < 0 then "-" + NatText(-n) else NatText(n)
  }

  /** The number a string of decimal digits denotes. */
  function DigitsValue(s: string): nat
    requires AllDigits(s)
  {
    if s == [] then 0 else DigitsValue(s[..|s| - 1]) * 10 + (s[|s| - 1] as int - '0' as int)
  }

  lemma {:induction false} NatTextValue(n: nat)
    ensures DigitsValue(NatText(n)) == n
  {
    if n >= 10 {
      NatTextValue(n / 10);
      var t := NatText(n);
      assert t[..|t| - 1] == NatText(n / 10);
    }
  }

  /** The integer an optionally signed run of ASCII digits denotes, when it
      lies in `[lo, hi]`; the shared core of `Long.parseLong` and
      `Integer.parseInt` (no trimming, no other characters). */
  function ParseInteger(s: string, lo: int, hi: int): (r: Option<int>)
    ensures r.Some? ==> lo <= r.value <= hi
    ensures r.Some? ==> |s| >= 1 && AllDigits(if s[0] == '-' || s[0] == '+' then s[1..] else s)
    ensures (|s| >= 1 && AllDigits(s) && lo <= DigitsValue(s) <= hi) ==> r == Some(DigitsValue(s))
  {
    if |s| == 0 then None
    else
      var digits := if s[0] == '-' || s[0] == '+' then s[1..] else s;
      if |digits| == 0 || !AllDigits(digits) then None
      else
        var v: int := if s[0] == '-' then -(DigitsValue(digits) as int) else DigitsValue(digits);
        if lo <= v <= hi then Some(v) else None
  }

  function ParseLong(s: string): Option<int> {
    ParseInteger(s, LONG_MIN, LONG_MAX)
  }

  function ParseInt(s: string): Option<int> {
    ParseInteger(s, INT_MIN, INT_MAX)
  }

  /** Rendering a long and parsing it back gives the same number. */
  lemma IntTextRoundTrip(n: int, lo: int, hi: int)
    requires lo <= n <= hi
    ensures ParseInteger(IntText(n), lo, hi) == Some(n)
  {
    if n < 0 {
      NatTextValue(-n);
      assert IntText(n)[1..] == NatText(-n);
    } else {
      NatTextValue(n);
    }
  }

  /** Distinct numbers have distinct renderings. */
  lemma IntTextInjective(a: int, b: int)
    requires IntText(a) == IntText(b)
    ensures a == b
  {
    var lo := if a < b then a else b;
    var hi := if a < b then b else a;
    IntTextRoundTrip(a, lo, hi);
    IntTextRoundTrip(b, lo, hi);
  }

  /** A string holding a character that is neither a digit nor a sign never parses. */
  lemma ParseRejectsNonDigit(s: string, k: int, lo: int, hi: int)
    requires 0 <= k < |s| && !IsDigit(s[k]) && s[k] != '-' && s[k] != '+'
    ensures ParseInteger(s, lo, hi).None?
  {
    var digits := if s[0] == '-' || s[0] == '+' then s[1..] else s;
    if s[0] == '-' || s[0] == '+' {
      assert digits[k - 1] == s[k];
    } else {
      assert digits[k] == s[k];
    }
  }

  // ---------------------------------------------------------------------------
  // Decimal rendering and parsing (the plain-notation part of Double)
  // ---------------------------------------------------------------------------

  function Pow10(n: nat): (r: nat)
    ensures r >= 1
  {
    if n == 0 then 1 else 10 * Pow10(n - 1)
  }

  /** The digits of `n` left-padded with zeros to `width`. */
  function PadDigits(n: nat, width: nat): (r: string)
    ensures AllDigits(r) && |r| >= width
  {
    var t := NatText(n);
    if |t| >= width then t else seq(width - |t|, _ => '0') + t
  }

  /** The plain decimal text of `unscaled / 10^scale` with `max(scale, 1)`
      fraction digits: `Double.toString` for a value in its plain range. */
  function DecimalText(unscaled: int, scale: nat): string {
    var sign := if unscaled < 0 then "-" else "";
    var digits := PadDigits(if unscaled < 0 then -unscaled else unscaled, scale + 1);
    if scale == 0 then sign + digits + ".0"
    else sign + digits[..|digits| - scale] + "." + digits[|digits| - scale..]
  }

  /** A rendered decimal always holds a point, so it never parses as an integer. */
  lemma DecimalTextNotInteger(unscaled: int, scale: nat, lo: int, hi: int)
    ensures Contains(DecimalText(unscaled, scale), ".")
    ensures ParseInteger(DecimalText(unscaled, scale), lo, hi).None?
  {
    var sign := if unscaled < 0 then "-" else "";
    var digits := PadDigits(if unscaled < 0 then -unscaled else unscaled, scale + 1);
    var r := DecimalText(unscaled, scale);
    var k := if scale == 0 then |sign| + |digits| else |sign| + |digits| - scale;
    assert r[k] == '.';
    ContainsAt(r, ".", k);
    ParseRejectsNonDigit(r, k, lo, hi);
  }

  /** The index of the first occurrence of `c` in `s`. */
  function IndexOf(s: string, c: char): (r: Option<nat>)
    ensures r.Some? ==> r.value < |s| && s[r.value] == c
    ensures r.Some? ==> forall k :: 0 <= k < r.value ==> s[k] != c
    ensures r.None? ==> forall k :: 0 <= k < |s| ==> s[k] != c
  {
    if s == [] then None
    else if s[0] == c then Some(0)
    else match IndexOf(s[1..], c)
      case None => None
      case Some(k) => Some(k + 1)
  }

  /** `Double.parseDouble` restricted to plain notation: after trimming, an
      optional sign, then digits with at most one point and at least one digit. */
  function ParseDecimal(s: string): (r: Option<real>)
    ensures r.Some? ==> Trim(s) != []
  {
    var t := Trim(s);
    if |t| == 0 then None
    else
      var neg := t[0] == '-';
      var body := if t[0] == '-' || t[0] == '+' then t[1..] else t;
      var magnitude :=
        match IndexOf(body, '.')
        case None =>
          if |body| > 0 && AllDigits(body) then Some(DigitsValue(body) as real) else None
        case Some(k) =>
          var ip := body[..k];
          var fp := body[k + 1..];
          if |ip| + |fp| > 0 && AllDigits(ip) && AllDigits(fp)
          then Some(DigitsValue(ip) as real + DigitsValue(fp) as real / Pow10(|fp|) as real)
          else None;
      match magnitude
      case None => None
      case Some(v) => Some(if neg then -v else v)
  }

  lemma ParseDecimalOfDigits(s: string)
    requires |s| > 0 && AllDigits(s)
    ensures ParseDecimal(s) == Some(DigitsValue(s) as real)
  {
    assert !IsTrimmable(s[0]) && !IsTrimmable(s[|s| - 1]);
    assert TrimStart(s) == s;
    assert TrimEnd(s) == s;
    assert IndexOf(s, '.').None?;
  }
}

=== FILE: values.dfy ===
/** The Java objects the core handles — plan-row cells, decoded JSON, statement
    parameters — as one closed datatype, with the few `Object` and `Map`
    operations the rules apply to them. */
module Values {
  import opened Wrappers
  import opened Errors
  import opened Strings

  datatype Value =
    | Null
    | Str(s: string)
    | Int(i: int)                              // a boxed Integer or Long
    | Dbl(unscaled: int, scale: nat)           // a boxed Double worth unscaled / 10^scale
    | Bool(b: bool)
    | Chr(c: char)
    | List(items: seq<Value>)                  // a java.util.List
    | Coll(members: seq<Value>)                // any other Collection (a Set, a Queue), in iteration order
    | Arr(elems: seq<Value>)                   // an Object[]
    | Obj(fields: seq<Field>)                  // a Map<String, Object>, in insertion order
    | Bean(className: string, props: seq<Prop>) // any other object, seen through its JavaBean properties
    | Enum(name: string)
    | Uuid(text: string)

  /** One map entry. */
  datatype Field = Field(key: string, value: Value)

  /** One JavaBean property: its name, the name of its read method (None when
      it is write-only) and the value that read method returns. */
  datatype Prop = Prop(name: string, reader: Option<string>, value: Value)

  /** A plan row or any other `Map<String, Object>`: entries in insertion order. */
  type Row = seq<Field>

  // ---------------------------------------------------------------------------
  // Map operations (LinkedHashMap)
  // ---------------------------------------------------------------------------

  /** The keys of a map, in order. */
  function Keys(m: Row): (r: seq<string>)
    ensures |r| == |m| && forall i :: 0 <= i < |m| ==> r[i] == m[i].key
  {
    if m == [] then [] else [m[0].key] + Keys(m[1..])
  }

  predicate Has(m: Row, k: string) {
    k in Keys(m)
  }

  /** `Map.get`: the value of the first entry for `k`, `Null` when there is none. */
  function Get(m: Row, k: string): (r: Value)
    ensures !Has(m, k) ==> r == Null
    ensures Has(m, k) ==> exists i :: 0 <= i < |m| && m[i].key == k && m[i].value == r
  {
    if m == [] then Null
    else if m[0].key == k then m[0].value
    else
      var r := Get(m[1..], k);
      assert Keys(m) == [m[0].key] + Keys(m[1..]);
      assert Has(m[1..], k) ==> exists i :: 0 <= i < |m| && m[i].key == k && m[i].value == r by {
        if Has(m[1..], k) {
          var i :| 0 <= i < |m[1..]| && m[1..][i].key == k && m[1..][i].value == r;
          assert m[i + 1].key == k && m[i + 1].value == r;
        }
      }
      r
  }

  /** `Map.remove` of every entry for `k`; the other entries keep their order. */
  function Remove(m: Row, k: string): (r: Row)
    ensures !Has(r, k)
    ensures forall k' :: k' != k ==> Get(r, k') == Get(m, k')
    ensures |r| <= |m|
  {
    if m == [] then []
    else if m[0].key == k then Remove(m[1..], k)
    else
      var r := [m[0]] + Remove(m[1..], k);
      assert Keys(r) == [m[0].key] + Keys(r[1..]);
      r
  }

  /** `Map.put`: replaces the value of the first entry for `k` in place, or
      appends an entry when there is none. */
  function Put(m: Row, k: string, v: Value): (r: Row)
    ensures Get(r, k) == v
    ensures forall k' :: k' != k ==> Get(r, k') == Get(m, k')
    ensures Keys(r) == if Has(m, k) then Keys(m) else Keys(m) + [k]
  {
    if m == [] then [Field(k, v)]
    else if m[0].key == k then
      var r := [Field(k, v)] + m[1..];
      assert r[1..] == m[1..];
      assert Keys(r) == Keys(m);
      r
    else
      var rest := Put(m[1..], k, v);
      var r := [m[0]] + rest;
      assert m == [m[0]] + m[1..];
      KeysCons(m[0], rest);
      KeysCons(m[0], m[1..]);
      PutKeysStep(m[0].key, Keys(m[1..]), Keys(rest), k);
      GetCons(m[0], rest, k);
      assert forall k' | k' != k :: Get(r, k') == Get(m, k') by {
        forall k' | k' != k ensures Get(r, k') == Get(m, k') {
          GetCons(m[0], rest, k');
          GetCons(m[0], m[1..], k');
        }
      }
      r
  }

  lemma GetCons(f: Field, rest: Row, k: string)
    ensures Get([f] + rest, k) == if f.key == k then f.value else Get(rest, k)
  {
    assert ([f] + rest)[1..] == rest;
  }

  /** The key list of `Put` on a non-empty map whose head key is not `k`. */
  lemma PutKeysStep(a: string, keys: seq<string>, keys': seq<string>, k: string)
    requires a != k
    requires keys' == if k in keys then keys else keys + [k]
    ensures [a] + keys' == if k in [a] + keys then [a] + keys else ([a] + keys) + [k]
  {
    assert k in [a] + keys <==> k in keys;
    assert [a] + (keys + [k]) == ([a] + keys) + [k];
  }

  lemma KeysCons(f: Field, rest: Row)
    ensures Keys([f] + rest) == [f.key] + Keys(rest)
  {
    assert ([f] + rest)[1..] == rest;
  }

  predicate DistinctKeys(m: Row) {
    forall i, j :: 0 <= i < j < |m| ==> m[i].key != m[j].key
  }

  // ---------------------------------------------------------------------------
  // Object rendering (String.valueOf / toString)
  // ---------------------------------------------------------------------------

  /** `String.valueOf(v)`. Arrays and beans print their class and an identity
      hash in Java; the hash is left out here. */
  function Text(v: Value): string {
    match v
    case Null => "null"
    case Str(s) => s
    case Int(i) => IntText(i)
    case Dbl(u, sc) => DecimalText(u, sc)
    case Bool(b) => if b then "true" else "false"
    case Chr(c) => [c]
    case List(xs) => "[" + JoinTexts(xs) + "]"
    case Coll(xs) => "[" + JoinTexts(xs) + "]"
    case Arr(_) => "[Ljava.lang.Object;@"
    case Obj(fs) => "{" + JoinFields(fs) + "}"
    case Bean(cls, _) => cls + "@"
    case Enum(n) => n
    case Uuid(t) => t
  }

  /** The elements of a collection as `AbstractCollection.toString` joins them. */
  function JoinTexts(xs: seq<Value>): string {
    if xs == [] then ""
    else if |xs| == 1 then Text(xs[0])
    else Text(xs[0]) + ", " + JoinTexts(xs[1..])
  }

  /** The entries of a map as `AbstractMap.toString` joins them. */
  function JoinFields(fs: seq<Field>): string {
    if fs == [] then ""
    else
      var head := fs[0].key + "=" + Text(fs[0].value);
      if |fs| == 1 then head else head + ", " + JoinFields(fs[1..])
  }

  /** `v.toString()`: like `String.valueOf`, but a null reference throws. */
  function ToStr(v: Value): (r: Result<string, Error>)
    ensures r.Failure? <==> v == Null
    ensures r.Success? ==> r.value == Text(v)
  {
    if v == Null then Failure(NullPointer("toString")) else Success(Text(v))
  }

  // ---------------------------------------------------------------------------
  // Number parsing, throwing NumberFormatException as the JDK does
  // ---------------------------------------------------------------------------

  /** `Long.parseLong(t)`. */
  function LongOf(t: string): (r: Result<int, Error>)
    ensures r.Success? <==> ParseLong(t).Some?
    ensures r.Success? ==> r.value == ParseLong(t).value
  {
    match ParseLong(t)
    case Some(n) => Success(n)
    case None => Failure(NumberFormat(t))
  }

  /** `Integer.parseInt(t)`. */
  function IntOf(t: string): (r: Result<int, Error>)
    ensures r.Success? <==> ParseInt(t).Some?
    ensures r.Success? ==> r.value == ParseInt(t).value
  {
    match ParseInt(t)
    case Some(n) => Success(n)
    case None => Failure(NumberFormat(t))
  }

  /** `Double.parseDouble(t)` (plain notation only). */
  function DoubleOf(t: string): (r: Result<real, Error>)
    ensures r.Success? <==> ParseDecimal(t).Some?
    ensures r.Success? ==> r.value == ParseDecimal(t).value
  {
    match ParseDecimal(t)
    case Some(x) => Success(x)
    case None => Failure(NumberFormat(t))
  }

  /** A boxed long renders to text `Long.parseLong` reads back unchanged. */
  lemma LongOfIntText(n: int)
    requires LONG_MIN <= n <= LONG_MAX
    ensures LongOf(Text(Int(n))) == Success(n)
  {
    IntTextRoundTrip(n, LONG_MIN, LONG_MAX);
  }

  /** A boxed double never parses as a long or an int. */
  lemma DoubleIsNotInteger(u: int, sc: nat)
    ensures LongOf(Text(Dbl(u, sc))).Failure?
    ensures IntOf(Text(Dbl(u, sc))).Failure?
  {
    DecimalTextNotInteger(u, sc, LONG_MIN, LONG_MAX);
    DecimalTextNotInteger(u, sc, INT_MIN, INT_MAX);
  }
}

=== FILE: where_rules.dfy ===
/** `WhereClauseAdviceGenerator`: textual and syntactic rules on the WHERE clause. */
module WhereRules {
  import opened Wrappers
  import opened Errors
  import opened Strings
  import opened Advisories
  import opened Dialects
  import opened ExplainResults
  import opened Statements
  import opened FunctionAudit

  const LEADING_WILDCARD: string := "LIKE '%"

  /** The word `w` occurs at `i` between regex word boundaries (`\b`). */
  predicate WordAt(s: string, w: string, i: int)
    requires w != [] && IsWordChar(w[0]) && IsWordChar(w[|w| - 1])
  {
    OccursAt(s, w, i)
    && (i == 0 || !IsWordChar(s[i - 1]))
    && (i + |w| == |s| || !IsWordChar(s[i + |w|]))
  }

  /** `s.matches(".*\\bWHERE\\b.*\\bOR\\b.*")`: a whole-text match, and `.`
      does not match a line terminator, so the text must be a single line
      holding the word WHERE followed, at or after its end, by the word OR. */
  predicate OrPattern(s: string) {
    (forall k | 0 <= k < |s| :: !IsLineTerminator(s[k]))
    && exists i | 0 <= i <= |s| ::
         WordAt(s, "WHERE", i) && exists j | i + 5 <= j <= |s| :: WordAt(s, "OR", j)
  }

  /** `generateAdvice` on the upper-cased statement: the wildcard test, then
      the function audit (any failure of which is rethrown, wrapped once, and
      aborts the generator with no partial output), then the OR test. */
  function Generate(e: SqlExplainResult, allowed: seq<string>, parse: Parser): (r: Result<seq<Advice>, Error>)
    ensures r.Failure? <==> Audit(Upper(e.sql), allowed, parse).Failure?
    ensures r.Failure? ==> r.error == WhereAuditFailed(Audit(Upper(e.sql), allowed, parse).error)
    ensures r.Success? ==> (LeadingWildcard in r.value <==> Contains(Upper(e.sql), LEADING_WILDCARD))
    ensures r.Success? ==> (OrConditions in r.value <==> OrPattern(Upper(e.sql)))
    ensures r.Success? ==> forall a | a in Audit(Upper(e.sql), allowed, parse).value :: a in r.value
    ensures r.Success? ==>
      (|r.value| == |Audit(Upper(e.sql), allowed, parse).value|
                    + (if Contains(Upper(e.sql), LEADING_WILDCARD) then 1 else 0)
                    + (if OrPattern(Upper(e.sql)) then 1 else 0))
    ensures r.Success? ==>
      r.value[(if Contains(Upper(e.sql), LEADING_WILDCARD) then 1 else 0)
              .. |r.value| - (if OrPattern(Upper(e.sql)) then 1 else 0)]
      == Audit(Upper(e.sql), allowed, parse).value
    ensures r.Success? && Contains(Upper(e.sql), LEADING_WILDCARD) ==> r.value[0] == LeadingWildcard
    ensures r.Success? && OrPattern(Upper(e.sql)) ==> r.value[|r.value| - 1] == OrConditions
  {
    var sql := Upper(e.sql);
    var like := if Contains(sql, LEADING_WILDCARD) then [LeadingWildcard] else [];
    match Audit(sql, allowed, parse)
    case Failure(err) => Failure(WhereAuditFailed(err))
    case Success(audit) =>
      var or := if OrPattern(sql) then [OrConditions] else [];
      Success(like + audit + or)
  }

  /** `supports`: every dialect. */
  predicate Supports(d: DatabaseType) {
    true
  }

  // ---------------------------------------------------------------------------
  // Properties
  // ---------------------------------------------------------------------------

  /** A call without arguments (`NOW()`) on the WHERE clause makes the audit
      throw a `NullPointerException`, which reaches the caller wrapped once. */
  lemma NullaryCallRethrown(e: SqlExplainResult, allowed: seq<string>, parse: Parser, name: string,
                            limit: Option<Limit>, orderBy: Option<seq<Expr>>)
    requires parse(Upper(e.sql)) == Some(PlainSelect(Some(Function(name, None)), limit, orderBy))
    requires !Exempt(name, allowed)
    ensures Generate(e, allowed, parse) == Failure(WhereAuditFailed(NullPointer("getParameters")))
  {
  }

  /** One OR after a WHERE suffices for the "multiple OR" advisory. */
  lemma SingleOrSuffices(pre: string, mid: string, post: string)
    requires forall k | 0 <= k < |pre| :: !IsLineTerminator(pre[k])
    requires forall k | 0 <= k < |mid| :: !IsLineTerminator(mid[k])
    requires forall k | 0 <= k < |post| :: !IsLineTerminator(post[k])
    ensures OrPattern(pre + " WHERE " + mid + " OR " + post)
  {
    var s := pre + " WHERE " + mid + " OR " + post;
    var i := |pre| + 1;
    var j := |pre| + 7 + |mid| + 1;
    assert s[i..i + 5] == "WHERE";
    assert s[i - 1] == ' ' && s[i + 5] == ' ';
    assert WordAt(s, "WHERE", i);
    assert s[j..j + 2] == "OR";
    assert s[j - 1] == ' ' && s[j + 2] == ' ';
    assert WordAt(s, "OR", j);
    forall k | 0 <= k < |s| ensures !IsLineTerminator(s[k]) {
      if k < |pre| {
        assert s[k] == pre[k];
      } else if k < |pre| + 7 {
      } else if k < |pre| + 7 + |mid| {
        assert s[k] == mid[k - |pre| - 7];
      } else if k < |pre| + 7 + |mid| + 4 {
      } else {
        assert s[k] == post[k - |pre| - 7 - |mid| - 4];
      }
    }
  }

  /** A line break anywhere defeats the OR test, however many ORs follow. */
  lemma LineBreakDefeatsOr(pre: string, post: string)
    ensures !OrPattern(pre + "\n" + post)
  {
    var s := pre + "\n" + post;
    assert IsLineTerminator(s[|pre|]);
  }

  /** OR glued to an identifier is not a word: `ORDER` and `COLOR` do not count. */
  lemma GluedOrIsNotAWord(s: string, j: int)
    requires 0 <= j && j + 2 < |s| && s[j..j + 2] == "OR" && IsWordChar(s[j + 2])
    ensures !WordAt(s, "OR", j)
  {
  }
}

=== FILE: wrappers.dfy ===
/** Option and Result: the model's stand-ins for Java `null` and for a call that throws. */
module Wrappers {

  /** A nullable reference: `None` is Java `null`. */
  datatype Option<+T> = None | Some(value: T) {
    function GetOr(default: T): T {
      if Some? then value else default
    }
  }

  /** A call that either returns `value` or throws `error`; usable with `:-`. */
  datatype Result<+T, +E> = Success(value: T) | Failure(error: E) {
    predicate IsFailure() {
      Failure?
    }

    function PropagateFailure<U>(): Result<U, E>
      requires Failure?
    {
      Failure(error)
    }

    function Extract(): T
      requires Success?
    {
      value
    }
  }
}
